=== FILE: README.md ===
# FismAPP certificate pipeline — a Dafny model

FismAPP keeps the teaching history of a faculty's professors (`CoursesHistory`). It issues
certificates (`GeneratedCertificate`) that list the courses a professor taught, laid out
with a configurable template (`CertificateTemplate`). This project models the pipeline's data
logic and proves properties of it:

- **Grouping.** Cross-listed sections (rows sharing a `listas_cruzadas` code) become one merged
  table row, and every other row becomes a row of its own.
- **Composition.** The data the certificate shows: the optional period filter with its fallback,
  the current-term split, and the header and cells of both tables.
- **Periods.** The term-label formatting (`formatear_periodo`) and the admin's period-range
  generator (`generate_period_range`).
- **Templates.** The template store: the single-default rule of `save` and `make_default`,
  table-field defaulting, certificate-field selection, and template resolution in the admin.
- **Certificates.** The registry of generated certificates:
  - single and batch generation in the admin, with the admin's stricter course selection;
  - regeneration of selected certificates;
  - the name a certificate is listed under.
- **Importing.** The course import of the admin: heading checks, per-row normalisation over
  an abstract spreadsheet cell, error lines, and `update_or_create` on the key
  (`id_docente`, `nrc`, `periodo`).
- **AdminForms.** The quick-generation form: comma-separated lists, the period filter from
  the chosen mode, and the batch professor list.
- **Access.** The `user_type_required` guard of the API views.

Supporting modules:

- **Results**: `Option` and `Result`.
- **Sequences**: `NoDup` and `Elems`.
- **Text**: Python's `str.strip`, `split`, `join`, substring test and `int()` on digit strings.
- **Fields**: the seven table fields and their headings.
- **Courses**: the course table and its uniqueness constraints.

The model stays close to Python's behaviour:

- **Set order.** The order in which Python iterates a `set` is a parameter `order` that gives
  one order per set of names. This is a modelling choice: CPython's order can also depend on
  how the set was built. The only assumption about `order` (`IsSetOrder`) is that it lists
  each element exactly once, and the merged subject name is proved for every such order.
- **Verification codes.** They are opaque strings the caller supplies, which stand in for the
  MD5-of-uuid digests. The registry keeps the database's uniqueness constraint on them, so a
  clashing code is refused the way the database would refuse it.
- **Pandas conversions.** `pd.to_datetime`, `float()` on text and `str()` of a cell are
  parameters (`Coercions`).
- **`int(float(x))`** truncates toward zero (`Trunc`).

## Model

| member | source | states |
|---|---|---|
| `Access.Guard` | core/decorators.py:7-19 | 401 "Authentication required" exactly when there is no authenticated user; 403 "User type not allowed" exactly when the user is authenticated but the type is missing or not listed; otherwise the view's own result, unchanged |
| `Access.DeniedIgnoresView` | core/decorators.py:11-15 | a refused request never reaches the view: the answer does not depend on the view |
| `Access.AuthenticationFirst` | core/decorators.py:11-15 | without authentication the answer is 401 whatever the allowed list |
| `Access.WiderListAdmitsMore` | core/decorators.py:14-17 | allowing more user types never turns away a request that passed |
| `AdminForms.KeepNonBlankMembers` | certificates/admin.py:398 | an item is kept exactly when it is non-blank and is the stripped form of some comma-separated piece |
| `AdminForms.CommaList` | certificates/admin.py:398 | every item read from a comma list is non-empty, has no surrounding whitespace and contains no comma |
| `AdminForms.KeepNonBlankFixed` | certificates/admin.py:398 | already stripped, non-blank items pass through the cleaning unchanged |
| `AdminForms.CommaListJoin` | certificates/admin.py:398 | writing clean items out with commas and reading them back gives the same items (round trip) |
| `AdminForms.CommaListStable` | certificates/admin.py:457 | reading, writing out and reading again gives the first reading (idempotence) |
| `AdminForms.PeriodFilter` | certificates/admin.py:392-406 | list mode filters exactly when the list text is non-empty; range mode filters exactly when both ends are given; any other mode gives no filter; every filter item is non-empty |
| `AdminForms.RangeNonEmptyItems` | certificates/admin.py:508 | every period of a generated range has at least six characters |
| `AdminForms.ListFilterAdmits` | certificates/admin.py:395-398 | a period passes the list filter exactly when it is the non-blank stripped form of some comma-separated piece |
| `AdminForms.ProfessorSelectionMembers` | certificates/admin.py:451-457 | an empty field is refused; otherwise an id is selected exactly when it is non-blank and is the stripped form of some comma-separated piece |
| `Certificates.Create` | certificates/models.py:188-190 | a new record is appended under the next key exactly when its code is not stored yet; the registry constraints (unique keys, unique codes) are kept |
| `Certificates.SelectCourses` | certificates/admin.py:535-554 | fails with "no courses" exactly when the professor has no rows, and with "no courses in the periods", naming the first row's professor, exactly when a non-empty filter matches none; otherwise the selection is non-empty and holds exactly the professor's rows in the listed periods |
| `Certificates.SelectionAgreesWithService` | certificates/services.py:161-166 | where the admin's selection succeeds it equals the document service's filtered rows |
| `Certificates.AdminRefusesWhereServiceFallsBack` | certificates/admin.py:546-554 | when a filter matches nothing, the service keeps every row but the admin fails |
| `Certificates.GenerateSingle` | certificates/admin.py:531-593 | succeeds exactly when the selection succeeds, the document service draws the selected rows (they do not all lie in the current term) and the code is free. A selection error is reported as such; a selection the service cannot draw is a document failure. Success appends one record whose metadata is the options (QR on, seven columns, empty term as none) plus `id_docente` and the professor name. Every failure leaves the registry as it was |
| `Certificates.PrintableIsComposed` | certificates/admin.py:565-570 | for a successful selection, the admin's test for a drawable document is exactly the document service composing one from the selected rows and the admin's options |
| `Certificates.GeneratedIsRegenerable` | certificates/admin.py:720-737 | a certificate just generated for a non-empty professor id can be regenerated from the same course table: its stored options select the same rows again |
| `Certificates.GeneratedCertificateNamesProfessor` | certificates/admin.py:677-681 | a certificate generated in the admin is listed under the first row's professor name |
| `Certificates.Bulk` | certificates/admin.py:595-675 | one outcome per professor id; the registry stays valid, keeps its old records as a prefix and grows by exactly the number of successes |
| `Certificates.BulkNext` | certificates/admin.py:603-673 | one professor's step appends one outcome and adds a record exactly when that outcome succeeded, keeping earlier records |
| `Certificates.BulkFreshCodes` | certificates/admin.py:603-673 | with pairwise distinct codes none of which is stored yet, professor k gets a certificate exactly when the admin's course selection for professor k succeeds and the document service draws it |
| `Certificates.GenerateBulk` | certificates/admin.py:595-675 | the loop computes the batch, its success count is the number of successful outcomes, and successes plus errors equal the number of ids |
| `Certificates.FindCertificate` | certificates/admin.py:720 | finds the record with the given key, or reports that there is none |
| `Certificates.RegenerateOne` | certificates/admin.py:720-744 | a selected record is regenerated exactly when it has a non-empty `id_docente`, that professor has rows, the document service draws those rows under the stored options, and no other record holds the new code. It then takes the new code; otherwise nothing changes. Template, metadata, keys and every other record are never changed |
| `Certificates.Regenerate` | certificates/admin.py:717-752 | the registry stays valid and keeps its size; at most one regeneration is counted per selected record |
| `Certificates.RegenerateNext` | certificates/admin.py:720-744 | one regeneration step keeps the registry valid and its size, and counts at most one |
| `Certificates.RegenerateKeepsRecords` | certificates/admin.py:733-741 | after regenerating a selection every record differs from before at most in its code |
| `Certificates.RegenerateOnlySelected` | certificates/admin.py:719-720 | records outside the selection are not touched |
| `Certificates.RegenerateFreshCodes` | certificates/admin.py:719-749 | with no key selected twice and pairwise distinct, unstored codes, every selected record that can be regenerated (a non-empty `id_docente` whose rows the service draws under the stored options) ends with its own new code; every other record is unchanged; the count is the number of selected keys naming such a record |
| `Certificates.RegenerateCertificates` | certificates/admin.py:717-752 | the loop computes the regeneration, and the count never exceeds the selection |
| `Certificates.ProfessorName` | certificates/models.py:198-204 | a linked account's name comes first, then the stored professor name, then the fallback text |
| `Composition.FilterPeriods` | certificates/services.py:161-166 | a non-empty filter that matches some row keeps exactly the matching rows; any other filter keeps every row; rows are never invented, and a non-empty input stays non-empty |
| `Composition.NoCurrentTermAllHistory` | certificates/services.py:169-173 | with no current term there are no current rows, and every selected row is historical |
| `Composition.SplitCurrent` | certificates/services.py:168-173 | current rows are of the current term, historical rows are not, and with no current term there are no current rows |
| `Composition.SplitCurrentPartition` | certificates/services.py:168-173 | the current and historical rows partition the input (as multisets) |
| `Composition.CellOf` | certificates/services.py:302-319 | a field gives a cell exactly when it is one of the seven table fields |
| `Composition.Columns` | certificates/services.py:295-298 | the columns are exactly the requested fields that have a heading |
| `Composition.ColumnsAppend` | certificates/services.py:294-297 | the columns keep request order and repeats: those of a concatenation are the first part's followed by the second part's |
| `Composition.ColumnsOfKnownFields` | certificates/services.py:294-297 | requesting only fields that have a heading gives exactly the requested fields, in order and with repeats |
| `Composition.DefaultColumns` | certificates/admin.py:562 | the seven default fields the admin requests give all seven columns in their own order |
| `Composition.ColumnsAligned` | certificates/services.py:295-319 | header and every data row have one entry per column, and entry k of each belongs to the same field |
| `Composition.BuildTable` | certificates/services.py:300-319 | one data row per line |
| `Composition.TableContents` | certificates/services.py:294-319 | the header holds the heading of each column in column order; row i holds, under each column, that column's cell for line i; every row is as wide as the header |
| `Composition.NoColumnsNoCells` | certificates/services.py:295-298 | requesting no known field gives an empty header and empty rows |
| `Composition.Compose` | certificates/services.py:154-388 | fails exactly when the professor has no rows, or when every selected row lies in the current term (the current-term table's style is then unbound); "no courses" is reported exactly in the first case; any document produced is the intended one |
| `Composition.ComposeIntended` | certificates/services.py:154-173 | the intended document fails exactly when the professor has no rows, and names the first row's professor, taken before any filtering |
| `Composition.CurrentOnlyMeansAllCurrent` | certificates/services.py:161-173 | for a professor with rows, the service's failing case is exactly a set current term to which every selected row belongs |
| `Composition.CurrentTermOnlyFails` | certificates/services.py:274-388 | a professor whose one row lies in the current term: the service fails, while the intended document has a current-term table and no history table |
| `Composition.TotalPartition` | certificates/services.py:172-173 | a weight summed over a split's two sides gives its sum over the input |
| `Composition.HoursAccounted` | certificates/services.py:168-173 | the hours of the grouped history table plus the hours of the current-term rows equal the hours of the selected rows |
| `Composition.RowsAccounted` | certificates/services.py:272 | the grouped history rows stand for exactly the historical rows: their counts plus the current rows give the selected rows |
| `Composition.DocumentContents` | certificates/services.py:272-389 | in the intended document, which is the service's whenever it produces one, both tables have the requested columns' headings in request order; history row i holds each column's cell for the i-th grouped row, and current row i each column's cell for the i-th current-term course |
| `Composition.DocumentTables` | certificates/services.py:272-341 | in the intended document, which is the service's whenever it produces one, the history table is present exactly when grouping gives rows and has one row per grouped row; the current table is present exactly when the current term has rows and has one row per such row; both tables are rectangular |
| `Courses.Where` | certificates/services.py:164 | a queryset filter keeps exactly the rows satisfying the condition |
| `Courses.WhereAppend` | certificates/services.py:164 | the filter keeps input order: filtering a concatenation gives the filtered first part followed by the filtered second part |
| `Courses.WhereNone` | certificates/services.py:172-173 | a filter no row satisfies keeps nothing |
| `Courses.WherePartition` | certificates/services.py:172-173 | `filter` and `exclude` on complementary conditions partition the rows (as multisets) |
| `Courses.CoursesOf` | certificates/admin.py:535 | the professor's rows are exactly the table rows with that `id_docente` |
| `Courses.Upsert` | certificates/admin.py:258-264 | `created` is reported exactly when the key (`id_docente`, `nrc`, `periodo`) is new, and a row is appended exactly then. The key set gains the key, the keyed row carries every imported value, all other rows are unchanged, and the table constraints are kept |
| `Fields.ColumnLabel` | certificates/services.py:284-292 | a field has a heading exactly when it is one of the seven table fields |
| `Fields.ColumnLabelInjective` | certificates/services.py:284-292 | distinct fields have distinct headings |
| `Fields.CertificateFieldsAreColumns` | certificates/models.py:148-154 | every default certificate field has a table heading |
| `Grouping.KeyTextInjective` | certificates/services.py:56 | the source's dictionary keys never collide: a stored code (at most five characters, certificates/models.py:219) never equals a `single_{id}` key, and distinct ids give distinct keys |
| `Grouping.StoredRowsGiveStorableKeys` | certificates/models.py:219 | stored rows give keys within the column's length |
| `Grouping.MembersExact` | certificates/services.py:54-57 | a bucket holds exactly the rows with its key |
| `Grouping.GroupedNonEmpty` | certificates/services.py:272-274 | grouping gives some row exactly when there is some row to group, so the history table is drawn exactly when a historical row remains |
| `Grouping.KeysFacts` | certificates/services.py:52-62 | the dictionary's keys are listed once each, are exactly the keys of the input rows, and are the keys with non-empty buckets |
| `Grouping.FirstMemberComesFirst` | certificates/services.py:89 | a bucket starts with the first input row carrying its key |
| `Grouping.UncodedRowIsAlone` | certificates/services.py:56 | a row without a cross-list code is alone in its bucket |
| `Grouping.BucketStep` | certificates/services.py:54-57 | one step of the bucketing loop keeps the key order (first appearance) and every bucket's contents |
| `Grouping.BucketRows` | certificates/services.py:52-57 | the loop gives the keys in first-appearance order and each key's rows in input order |
| `Grouping.GroupCourses` | certificates/services.py:39-110 | the method's rows equal the functional grouping |
| `Grouping.GroupedPrefixStep` | certificates/services.py:62-108 | output row j is the row made from the bucket of the j-th key, which the bucketing holds and which is non-empty |
| `Grouping.KeyedTotalOfKeys` | certificates/services.py:52-62 | summing any weight bucket by bucket over the keys gives its sum over the input |
| `Grouping.GroupedAt` | certificates/services.py:62-108 | output row i comes from the bucket of the i-th key, which is non-empty |
| `Grouping.GroupedTotal` | certificates/services.py:62-108 | a row weight that agrees with a bucket weight on every bucket sums to the input's total |
| `Grouping.GroupRowWeights` | certificates/services.py:95-107 | an output row's hours are its bucket's total hours and its count is its bucket's size |
| `Grouping.HoursConserved` | certificates/services.py:95 | the output's total hours equal the input's total hours |
| `Grouping.EveryRowCountedOnce` | certificates/services.py:107 | the output rows' counts (`grouped_count`, or one) add up to the number of input rows |
| `Grouping.RowOfBucket` | certificates/services.py:63-108 | a one-row bucket gives that row's fields unchanged and not grouped. A larger bucket gives a grouped row with count equal to the bucket size, whose term, code, dates and cross-list code come from the bucket's first input row |
| `Grouping.MergedNrcsInInputOrder` | certificates/services.py:92 | splitting a merged NRC on `/` gives the members' NRCs in input order, duplicates kept |
| `Grouping.MergedMateria` | certificates/services.py:80-86 | a merged subject is the shared name when all members agree; otherwise it is each distinct name exactly once, joined by `/`, in whatever order the set iteration gives |
| `Grouping.NoCrossCodesOneRowEach` | certificates/services.py:56-76 | with no cross-list codes, the output is one ungrouped row per input row, in input order |
| `Grouping.SharedCodeOneRow` | certificates/services.py:56-108 | rows that share one code become a single grouped row with count equal to the number of rows and the summed hours |
| `Grouping.TwoListing` | certificates/services.py:80 | a set of two names is listed in one of its two orders |
| `Grouping.ExampleMateria` | certificates/services.py:80-86 | the example's two subjects join to "Physics/Lab" or "Lab/Physics" |
| `Grouping.ExampleMergedRow` | certificates/services.py:77-108 | the example's cross-listed pair merges into one row: count 2, NRC "A1/A2", 4 hours |
| `Grouping.CrossListedExample` | certificates/services.py:39-110 | the example's three rows (two sharing code "Z9", one uncoded) give exactly two rows: the merged pair, then the uncoded row unchanged |
| `Importing.Headings` | certificates/admin.py:181 | the headings are the column names with surrounding whitespace removed |
| `Importing.MissingFields` | certificates/admin.py:197-209 | a required field is reported missing exactly when its heading is absent |
| `Importing.Trunc` | certificates/admin.py:241 | `int()` of a float truncates toward zero, for negative values too |
| `Importing.TextValue` | certificates/admin.py:245-251 | a text cell gives a value exactly when it is not blank, and the value is the cell's text stripped; a number or date cell gives its shown `str()` form stripped; every value is non-empty and stripped; a missing cell gives none |
| `Importing.TextValueStable` | certificates/admin.py:249-251 | normalising a normalised text value gives it back |
| `Importing.DateValue` | certificates/admin.py:229-235 | a missing cell is a "missing date" error; otherwise the cell is a date exactly when it converts, else an "invalid date" error |
| `Importing.HoursValue` | certificates/admin.py:237-243 | a missing cell is a "missing required field" error; a number truncates; text converts exactly when it parses as a float; a date cell is an "invalid number" error |
| `Importing.NormaliseRow` | certificates/admin.py:224-256 | a row is accepted exactly when its six text fields are non-blank and its dates and hours convert. The start-date error comes first, then the end-date error, then the hours error, all ahead of blank text columns. An accepted row carries the stripped values, the truncated hours, and the cross-list value exactly when the file has that column |
| `Importing.ImportRow` | certificates/admin.py:258-273 | a rejected row is reported with its line and leaves the table alone; an accepted row adds its key and counts as imported exactly when the key was new; exactly one counter moves per row |
| `Importing.Apply` | certificates/admin.py:220-273 | imported, updated and rejected rows add up to the number of rows; the table grows by the imported count and keeps its constraints |
| `Importing.ImportAll` | certificates/admin.py:220-273 | the same accounting for normalised spreadsheet rows |
| `Importing.ErrorsNameRejected` | certificates/admin.py:271-272 | every reported line is a rejected row's position plus two, with that row's error, and the lines increase |
| `Importing.ApplyReportsErrors` | certificates/admin.py:270-273 | the import reports exactly the rejected rows, in order |
| `Importing.ApplyStoresAccepted` | certificates/admin.py:258-264 | after an import the keys are the old keys plus those of the accepted rows |
| `Importing.KnownKeysOnlyUpdate` | certificates/admin.py:258-269 | when every accepted key is already stored, nothing is imported as new |
| `Importing.ReimportOnlyUpdates` | certificates/admin.py:258-269 | importing the same file twice: the second pass creates nothing, updates every row the first pass stored, and leaves the table size unchanged |
| `Importing.Import` | certificates/admin.py:181-213 | fails exactly when a required heading is absent, and then names exactly the fields whose headings are absent; otherwise it imports the rows, using the cross-list column exactly when present |
| `Importing.ImportRows` | certificates/admin.py:216-273 | the loop computes the import; the counts and error lines add up to the number of rows |
| `Periods.SeasonWord` | certificates/services.py:123-130 | exactly the codes 25, 35 and 30 have a season word |
| `Periods.FormatPeriod` | certificates/services.py:113-132 | the result is the input itself or contains a season word; a non-empty input gives a non-empty label |
| `Periods.SeasonLabelsUnchanged` | certificates/services.py:117-118 | a string containing a season word is returned unchanged |
| `Periods.FormatPeriodChanges` | certificates/services.py:117-130 | the label differs from the input exactly when the input has no season word and ends in 25, 35 or 30; it is then the season word followed by the first four characters |
| `Periods.FormatPeriodIdempotent` | certificates/services.py:117-118 | formatting a label again changes nothing |
| `Periods.Next` | certificates/admin.py:511-520 | exactly the codes 25, 30 and 35 have a successor, which is again one of them |
| `Periods.NextIsLater` | certificates/admin.py:511-520 | every successor is strictly later in (year, code) order |
| `Periods.ParseFormatTerm` | certificates/admin.py:499-508 | reading back a formatted term (four-digit year, two-digit code) gives the term |
| `Periods.FormatTermInjective` | certificates/admin.py:508 | distinct terms are formatted differently |
| `Periods.ParsedYearBound` | certificates/admin.py:499 | a parsed year has at most four digits |
| `Periods.FormatTermShape` | certificates/admin.py:508 | a formatted term is all digits, six of them for a four-digit year |
| `Periods.LabelOfTerm` | certificates/services.py:121-130 | the label of a generated period is its season word followed by its padded year |
| `Periods.FormatsAt` | certificates/admin.py:508 | formatting terms is position by position |
| `Periods.GeneratePeriodRange` | certificates/admin.py:494-529 | the loop returns the functional range |
| `Periods.SuccessionStart` | certificates/admin.py:507 | the walk is non-empty exactly when the start is not after the end, and then it starts at the start |
| `Periods.SuccessionBounded` | certificates/admin.py:507 | every listed term is not after the end |
| `Periods.SuccessionSteps` | certificates/admin.py:511-520 | each listed term is followed by its successor |
| `Periods.SuccessionIncreasing` | certificates/admin.py:511-520 | the listed terms strictly increase |
| `Periods.SuccessionAfter` | certificates/admin.py:511-520 | every listed term is after any term before the start |
| `Periods.SuccessionStops` | certificates/admin.py:507-524 | the walk ends on an unknown code, on passing the end, or on the cap |
| `Periods.PeriodRangeCapped` | certificates/admin.py:522-524 | a range never has more than 51 periods |
| `Periods.UnparsableBoundsGiveNothing` | certificates/admin.py:526-527 | a start or an end that does not read as a year and a code gives an empty range |
| `Periods.StartAfterEndGivesNothing` | certificates/admin.py:507 | a start after the end gives an empty range |
| `Periods.UnknownCodeGivesAtMostOne` | certificates/admin.py:518-520 | a start code other than 25, 30 and 35 gives at most one period |
| `Periods.RangeParsesBack` | certificates/admin.py:507-508 | each listed period reads back as its term, and that term is not after the end |
| `Periods.PeriodRangeSuccession` | certificates/admin.py:507-520 | every listed period reads back within the end, and consecutive periods follow the 25, 30, 35, then 25 of the next year succession |
| `Periods.PeriodRangeStartsAtStart` | certificates/admin.py:504-508 | when the start is not after the end the range is non-empty and begins with the start term |
| `Periods.PeriodRangeNoDup` | certificates/admin.py:507-520 | no period is listed twice |
| `Templates.Find` | certificates/admin.py:412-416 | finds the template with the given key, or reports that there is none |
| `Templates.FindUnique` | certificates/admin.py:412-416 | with unique keys the lookup finds the one row holding the key |
| `Templates.WithTableDefaults` | certificates/models.py:124-127 | empty table fields become the seven default fields; non-empty ones and everything else are unchanged |
| `Templates.ClearDefaults` | certificates/models.py:120-121 | the bulk update clears every default flag and changes nothing else |
| `Templates.Put` | certificates/models.py:122 | saving by primary key updates the row with that key or appends one; other rows and their keys stay, keys stay unique |
| `Templates.PutKeepsSingleDefault` | certificates/models.py:118-122 | writing a default template when no other row is default keeps at most one default |
| `Templates.Save` | certificates/models.py:118-127 | saving keeps the store valid (unique keys, at most one default) and adds the template's key |
| `Templates.SaveStoresTemplate` | certificates/models.py:118-127 | after saving, the row with the template's key is the template with its table fields defaulted |
| `Templates.SaveKeepsOtherRows` | certificates/models.py:120-122 | saving changes other rows at most in their default flag, and not at all when the saved template is not default |
| `Templates.SaveExistingKey` | certificates/models.py:122 | saving under an existing key neither adds nor removes rows |
| `Templates.SaveDefaultIsSole` | certificates/models.py:118-122 | after saving a default template it is the only default |
| `Templates.MakeDefault` | certificates/admin.py:71-80 | the store stays valid; a selection of other than one template changes nothing |
| `Templates.MakeDefaultKeepsRows` | certificates/admin.py:76-79 | making one template default keeps the keys and rows; afterwards that template is the only default and other rows change at most in their flag |
| `Templates.SelectedFields` | certificates/models.py:156-160 | the template's certificate fields when non-empty, otherwise the default list; never empty |
| `Templates.SelectedFieldsStable` | certificates/models.py:156-160 | storing the selected fields as the template's own selects them again |
| `Templates.Newest` | certificates/models.py:115-116 | some row, created no earlier than any other row, when there is a row at all |
| `Templates.Defaults` | certificates/admin.py:419 | exactly the rows flagged default |
| `Templates.ResolveTemplate` | certificates/admin.py:411-425 | a requested key resolves exactly when stored, else "not found". With no key the result is the newest default (a default created no earlier than any other default), or with no default the newest template. It fails only when there are no templates |
| `Templates.MadeDefaultIsResolved` | certificates/admin.py:418-421 | after `make_default` on one template, a request without a key resolves to that template |
| `Text.StripIdempotent` | certificates/admin.py:398 | a stripped string has no surrounding whitespace, and stripping it again changes nothing |
| `Text.StripEmptyIffBlank` | certificates/admin.py:249-251 | stripping gives the empty string exactly when every character is whitespace |
| `Text.JoinSplit` | certificates/services.py:92 | joining the pieces of a split gives back the string |
| `Text.SplitJoin` | certificates/services.py:92 | splitting pieces that are joined with a separator they do not contain gives back the pieces |
| `Text.ParseNatToString` | certificates/admin.py:499-502 | `int()` of a decimal rendering gives back the number |
| `Text.NatToStringInjective` | certificates/admin.py:508 | distinct numbers render differently |
| `Text.ParsePaddedNat` | certificates/admin.py:508 | leading zeros do not change the value `int()` reads |
| `Sequences.LastWhere` | certificates/admin.py:412-416 | the lookup by primary key: finds a position holding a matching element, or reports that no element matches |
| `Sequences.NoDupCard` | certificates/services.py:80 | a list without repeats is as long as its set of elements |

## Left out

- **PDF layout**: the ReportLab document, styles, images, the QR flowable and the table styling. The
  model stops at the header and cell data of the two tables. A date cell stands for its
  `dd/mm/yyyy` rendering, and `strftime` with the locale's month names is not modelled.
- **Verification codes**: MD5 over a uuid is hashing and randomness. Codes are caller-supplied
  values, one per certificate, and the registry refuses a code that is already stored. The
  stored file, its name and `certificate.file.save` are not modelled.
- **Query ordering**: the table's rows stand for the rows in query order. The ordering that
  `CoursesHistory.Meta.ordering` and the database collation impose is not modelled, and neither
  is the `-generated_at` ordering of certificates. So `first()` is the first row in that order.
  For one professor every row normally carries the same name.
- **Spreadsheet reading**: pandas file reading, the messages, logging, the `transaction.atomic`
  wrapper and the other ~20 optional columns of the course table are left out. Date parsing,
  float parsing and the text rendering of non-text cells are parameters. `int()` of an
  infinite float raises a different exception in Python; since the row is rejected either
  way, the model does not distinguish it.
- **Python `int()`**: signs, surrounding whitespace and underscores are not accepted by
  `ParseNat`, which reads plain decimal digits only.
- **Column lengths**: the model enforces no `max_length` limit. The import and `Courses.Upsert`
  accept a cross-list code of any length, and `Courses.Valid` does not bound it.
- `Grouping.KeyTextInjective` takes the five-character limit on cross-list codes
  (certificates/models.py:219) as a hypothesis, through `Courses.CrossCodesFit`. On a database
  that does not enforce the limit, a stored code such as `single_3` would share its dictionary
  key with the uncoded row of id 3, and the source would merge the two rows. `Grouping.Grouped`
  keys rows by a datatype and keeps them apart.
- **`field_config`**: the module is not part of this model. `get_default_certificate_fields` is
  modelled by its fallback list of five fields.
- **The single-mode form check** that an `id_docente` is given (certificates/admin.py:430-434) and
  the dispatch between single and batch mode are not modelled. A non-numeric `template_id`,
  which raises in the ORM, is not modelled either.
- **`generate_certificate_for_selected`** (certificates/admin.py:304-358) is not modelled. It is a
  second entry point that calls the same document service.
- `Composition.TableFields`: when the options hold `campos` with the value `None`, the source's
  `options.get('campos', …)` returns `None` and `for campo in campos` raises a `TypeError`
  (certificates/services.py:278, 294, 345, 361). The model has no such failure and uses the
  seven default columns instead.
- `Certificates.ProfessorName`: a `professor_name` stored as `null` reads back as `None`. The
  certificate's string form then shows "None" (certificates/models.py:203-204), and
  `get_professor_name` returns `None` (certificates/admin.py:680). The model returns the fallback
  text instead.
- **Other code**: concurrency (the clear-then-set race on the default flag), REST views, management
  commands, the React frontend and the Celery task.
- `Templates.ResolveTemplate` ignores `is_active`, as the source does.
- `Templates.MakeDefault` states only validity and the no-op case. The effect of a one-template
  selection is stated in `Templates.MakeDefaultKeepsRows`.
- `Templates.Save` states validity and the key set. The stored row and the other rows are stated
  in `Templates.SaveStoresTemplate`, `Templates.SaveKeepsOtherRows` and `Templates.SaveDefaultIsSole`.
- `Certificates.Bulk` states the registry's growth only. Which professors succeed is stated in
  `Certificates.BulkFreshCodes`, for fresh codes.
- `Certificates.Regenerate` states validity and size. Record contents are stated in
  `Certificates.RegenerateKeepsRecords`, `Certificates.RegenerateOnlySelected` and, for fresh
  codes, `Certificates.RegenerateFreshCodes`, which also states the count.
- `Composition.Compose` states failure and the professor name. The tables are stated of
  `Composition.ComposeIntended` in `Composition.DocumentTables` and
  `Composition.DocumentContents`; `Compose` produces exactly that document whenever it produces one. `Composition.HoursAccounted`
  and `Composition.RowsAccounted` state what the grouped rows account for, not the tables.
- `Composition.Columns` states membership. Request order and repeats are stated in
  `Composition.ColumnsAppend` and `Composition.ColumnsOfKnownFields`.
- `Courses.Where` states membership. That the kept rows stay in input order is stated in
  `Courses.WhereAppend` and `Courses.WhereSingle`.
- `Composition.BuildTable` states the row count only. The header and every cell are stated in
  `Composition.TableContents`.
- `Composition.DocumentTables` states presence, row counts and widths. The headings and cells
  are stated in `Composition.DocumentContents`.
- `AdminForms.KeepNonBlank` states only length and non-emptiness. Membership is stated in
  `AdminForms.KeepNonBlankMembers`.
- `Text.Strip` states only that the ends are not whitespace. Where the result sits in the input is
  stated in `Text.StripShape`.

## Findings

| source | as written | input that shows it | evidently intended | confidence | as-written member | corrected member |
|---|---|---|---|---|---|---|
| certificates/services.py:274-388 | the table style `estilo_tabla` is bound only inside `if grouped_courses:` (line 323), yet the current-term table uses it (line 388) | professor "D1" with one row in term "202535", `periodo_actual` "202535" and no period filter: no historical row remains, so line 388 raises `UnboundLocalError`; the admin reports a failure for single generation (certificates/admin.py:565-570), an error in a batch (643-648) and skips the record on regeneration (732-737) | a document with the current-term table alone, styled like the history table | high; not executed | `Composition.Compose`, `Composition.CurrentTermOnlyFails` | `Composition.ComposeIntended`, `Composition.DocumentTables`, `Composition.DocumentContents` |

The admin operations keep the failure as written, because the admin catches the exception and
reports it: `Certificates.Printable` and `Certificates.Regenerable` exclude exactly the
selections whose rows all lie in the current term (`Composition.CurrentOnlyMeansAllCurrent`).

## Notes on the source's behaviour

- **Season words**: the labels use the Spanish words "Primavera", "Otoño" and "Interperiodo".
- **Merged-row fields**: a merged row takes its term, code, dates and cross-list code from the
  group's first row in input order.
- **Output order**: rows come in the order in which each key first appears in the input.
- **Merged cells**: NRCs and subject names are joined with `/`, and hours are printed as the sum
  with no count beside them.
- **Subject order**: the order of the joined subject names is the order in which Python iterates
  the set of names, so a merged row of two different subjects can list them either way.

=== FILE: access.dfy ===
/**
  The user-type guard placed on the API views: a request without an authenticated
  user is answered 401, a user whose type is missing or not allowed is answered
  403, and only an allowed user reaches the view.
*/
module Access {
  import opened Results

  /** The requesting user as the guard sees it; `userType` is `None` when the attribute is absent. */
  datatype User = User(authenticated: bool, userType: Option<string>)

  /** A request; `user` is `None` when the request carries no user attribute. */
  datatype Request = Request(user: Option<User>)

  /** The guard's answer: an error response, or whatever the view returned. */
  datatype Response<R> = Denied(status: nat, error: string) | Passed(result: R)

  const HTTP_401_UNAUTHORIZED: nat := 401
  const HTTP_403_FORBIDDEN: nat := 403

  predicate Authenticated(request: Request) {
    request.user.Some? && request.user.value.authenticated
  }

  /** The user type is present and listed. */
  predicate TypeAllowed(user: User, allowed: seq<string>) {
    user.userType.Some? && user.userType.value in allowed
  }

  /** `user_type_required(allowed)` applied to `view`. */
  function Guard<R>(allowed: seq<string>, request: Request, view: Request -> R): (r: Response<R>)
    ensures !Authenticated(request) <==> r == Denied(HTTP_401_UNAUTHORIZED, "Authentication required")
    ensures Authenticated(request) && !TypeAllowed(request.user.value, allowed) <==>
              r == Denied(HTTP_403_FORBIDDEN, "User type not allowed")
    ensures r.Passed? <==> Authenticated(request) && TypeAllowed(request.user.value, allowed)
    ensures r.Passed? ==> r.result == view(request)
  {
    if !Authenticated(request) then Denied(HTTP_401_UNAUTHORIZED, "Authentication required")
    else if !TypeAllowed(request.user.value, allowed) then Denied(HTTP_403_FORBIDDEN, "User type not allowed")
    else Passed(view(request))
  }

  /** A denied request never reaches the view: the answer is the same whatever the view. */
  lemma DeniedIgnoresView<R>(allowed: seq<string>, request: Request, view: Request -> R, other: Request -> R)
    requires Guard(allowed, request, view).Denied?
    ensures Guard(allowed, request, other) == Guard(allowed, request, view)
  {
  }

  /** Authentication is checked first: without it the answer is 401 whatever the user type or the allowed list. */
  lemma AuthenticationFirst<R>(allowed: seq<string>, other: seq<string>, request: Request, view: Request -> R)
    requires !Authenticated(request)
    ensures Guard(allowed, request, view) == Guard(other, request, view)
    ensures Guard(allowed, request, view).status == HTTP_401_UNAUTHORIZED
  {
  }

  /** Allowing more user types never turns a passing request away. */
  lemma WiderListAdmitsMore<R>(allowed: seq<string>, wider: seq<string>, request: Request, view: Request -> R)
    requires forall t :: t in allowed ==> t in wider
    requires Guard(allowed, request, view).Passed?
    ensures Guard(wider, request, view) == Guard(allowed, request, view)
  {
  }
}

=== FILE: adminforms.dfy ===
/**
  The quick-generation form of the certificate admin: comma-separated lists (of
  periods, of professor ids), the period filter built from the chosen period mode,
  and the professor selection of the batch mode.
*/
module AdminForms {
  import opened Results
  import opened Text
  import opened Periods

  /** The stripped pieces that are not blank, in order. */
  function KeepNonBlank(pieces: seq<string>): (r: seq<string>)
    ensures |r| <= |pieces|
    ensures forall i :: 0 <= i < |r| ==> |r[i]| > 0
  {
    if |pieces| == 0 then []
    else
      var rest := KeepNonBlank(pieces[1..]);
      var head := Strip(pieces[0]);
      (if |head| > 0 then [head] else []) + rest
  }

  /** An item is kept exactly when it is the non-blank stripped form of some piece. */
  lemma {:induction false} KeepNonBlankMembers(pieces: seq<string>, x: string)
    ensures x in KeepNonBlank(pieces) <==> |x| > 0 && exists j :: 0 <= j < |pieces| && Strip(pieces[j]) == x
  {
    if |pieces| > 0 {
      var tail := pieces[1..];
      var head := Strip(pieces[0]);
      KeepNonBlankMembers(tail, x);
      assert KeepNonBlank(pieces) == (if |head| > 0 then [head] else []) + KeepNonBlank(tail);
      if x in KeepNonBlank(pieces) {
        if x in KeepNonBlank(tail) {
          var j :| 0 <= j < |tail| && Strip(tail[j]) == x;
          assert pieces[j + 1] == tail[j];
        } else {
          assert Strip(pieces[0]) == x;
        }
      }
      if |x| > 0 && exists j :: 0 <= j < |pieces| && Strip(pieces[j]) == x {
        var j :| 0 <= j < |pieces| && Strip(pieces[j]) == x;
        if j > 0 {
          assert tail[j - 1] == pieces[j];
        }
      }
    }
  }

  /** A character of the stripped string is a character of the string. */
  lemma StripKeepsOut(s: string, c: char)
    requires c !in s
    ensures c !in Strip(s)
  {
    StripShape(s);
  }

  /**
    A comma-separated list as the form reads it: split on commas, strip every
    piece, drop the blank ones.
  */
  function CommaList(s: string): (items: seq<string>)
    ensures forall i :: 0 <= i < |items| ==> |items[i]| > 0 && IsStripped(items[i]) && ',' !in items[i]
  {
    var pieces := Split(s, ',');
    var kept := KeepNonBlank(pieces);
    forall i | 0 <= i < |kept|
      ensures IsStripped(kept[i]) && ',' !in kept[i]
    {
      KeepNonBlankMembers(pieces, kept[i]);
      var j :| 0 <= j < |pieces| && Strip(pieces[j]) == kept[i];
      StripKeepsOut(pieces[j], ',');
    }
    kept
  }

  /** Already stripped, non-blank items are kept as they are. */
  lemma {:induction false} KeepNonBlankFixed(items: seq<string>)
    requires forall i :: 0 <= i < |items| ==> |items[i]| > 0 && IsStripped(items[i])
    ensures KeepNonBlank(items) == items
  {
    if |items| > 0 {
      var h := items[0];
      KeepNonBlankFixed(items[1..]);
      StripIdempotent(h);
      assert KeepNonBlank(items) == [h] + items[1..];
    }
  }

  /** Writing the items out with commas and reading them back gives the same items. */
  lemma CommaListJoin(items: seq<string>)
    requires forall i :: 0 <= i < |items| ==> |items[i]| > 0 && IsStripped(items[i]) && ',' !in items[i]
    ensures CommaList(Join(items, ',')) == items
  {
    if |items| == 0 {
      assert Split("", ',') == [""];
      assert Strip("") == "";
    } else {
      SplitJoin(items, ',');
      KeepNonBlankFixed(items);
    }
  }

  /** Reading a list written out from a reading gives the same reading. */
  lemma CommaListStable(s: string)
    ensures CommaList(Join(CommaList(s), ',')) == CommaList(s)
  {
    CommaListJoin(CommaList(s));
  }

  /**
    The period filter from the form: an explicit list when the mode is "list" and
    the list is not empty, the generated range when the mode is "range" and both
    ends are given, and no filter otherwise.
  */
  function PeriodFilter(mode: string, periodsList: string, periodStart: string, periodEnd: string): (r: Option<seq<string>>)
    ensures mode != "list" && mode != "range" ==> r.None?
    ensures mode == "list" ==> (r.Some? <==> |periodsList| > 0)
    ensures mode == "range" ==> (r.Some? <==> |periodStart| > 0 && |periodEnd| > 0)
    ensures r.Some? ==> forall i :: 0 <= i < |r.value| ==> |r.value[i]| > 0
  {
    if mode == "list" then
      if |periodsList| > 0 then Some(CommaList(periodsList)) else None
    else if mode == "range" then
      if |periodStart| > 0 && |periodEnd| > 0 then
        RangeNonEmptyItems(periodStart, periodEnd);
        Some(PeriodRange(periodStart, periodEnd))
      else None
    else None
  }

  /** Every generated period has at least six characters. */
  lemma RangeNonEmptyItems(start: string, end: string)
    ensures forall i :: 0 <= i < |PeriodRange(start, end)| ==> |PeriodRange(start, end)[i]| >= 6
  {
    FormatsAt(RangeTerms(start, end));
  }

  /** A period is listed exactly when it appears, stripped and non-blank, between commas. */
  lemma ListFilterAdmits(periodsList: string, periodo: string)
    requires |periodsList| > 0
    ensures PeriodFilter("list", periodsList, "", "").Some?
    ensures periodo in PeriodFilter("list", periodsList, "", "").value <==>
              |periodo| > 0 && exists j :: 0 <= j < |Split(periodsList, ',')| && Strip(Split(periodsList, ',')[j]) == periodo
  {
    KeepNonBlankMembers(Split(periodsList, ','), periodo);
  }

  /**
    The batch mode's professor ids: the form refuses an empty field; otherwise the
    ids are the comma list, which may be empty when the field holds only commas and
    blanks.
  */
  function ProfessorSelection(selected: string): (r: Option<seq<string>>)
    ensures r.None? <==> |selected| == 0
    ensures r.Some? ==> r.value == CommaList(selected)
  {
    if |selected| == 0 then None else Some(CommaList(selected))
  }

  /** A non-empty field selects exactly the non-blank stripped pieces between its commas. */
  lemma ProfessorSelectionMembers(selected: string, id: string)
    requires |selected| > 0
    ensures ProfessorSelection(selected).Some?
    ensures id in ProfessorSelection(selected).value <==>
              |id| > 0 && exists j :: 0 <= j < |Split(selected, ',')| && Strip(Split(selected, ',')[j]) == id
  {
    KeepNonBlankMembers(Split(selected, ','), id);
  }
}

=== FILE: certificates.dfy ===
/**
  The registry of generated certificates and the admin operations on it: generating
  one certificate, generating a batch, regenerating selected certificates, and the
  professor name a certificate is listed under. Verification codes are opaque values
  supplied by the caller; the database's uniqueness constraint on them is kept.
*/
module Certificates {
  import opened Results
  import opened Sequences
  import opened Courses
  import opened Grouping
  import opened Composition
  import opened Fields

  /** The generation options the admin stores with a certificate. */
  datatype GenerationOptions = GenerationOptions(
    idDocente: string,
    destinatario: string,
    incluirQr: bool,
    periodosFiltro: Option<seq<string>>,
    periodoActual: Option<string>,
    campos: seq<string>)

  /**
    The stored metadata. The source keeps one flat dictionary, the generation options
    plus `professor_name`; the admin reads `id_docente` and `professor_name` back key
    by key, so those two keys are fields of their own, and `options` holds the
    dictionary's remaining entries. A record the admin creates carries the same
    `id_docente` in both places; a dictionary without the option keys has `options`
    `None` and may still hold `id_docente`. `None` stands for an absent key.
  */
  datatype Metadata = Metadata(
    options: Option<GenerationOptions>,
    idDocente: Option<string>,
    professorName: Option<string>)

  /** A generated certificate; `professor` is the full name of a linked user account. */
  datatype Certificate = Certificate(
    id: nat,
    professor: Option<string>,
    templateId: nat,
    code: string,
    metadata: Metadata)

  datatype Registry = Registry(certs: seq<Certificate>, nextId: nat)

  predicate DistinctCodes(certs: seq<Certificate>) {
    forall i, j :: 0 <= i < j < |certs| ==> certs[i].code != certs[j].code
  }

  /** The constraints the database keeps: unique keys below the next key, unique codes. */
  predicate ValidRegistry(reg: Registry) {
    && (forall i, j :: 0 <= i < j < |reg.certs| ==> reg.certs[i].id != reg.certs[j].id)
    && (forall i :: 0 <= i < |reg.certs| ==> reg.certs[i].id < reg.nextId)
    && DistinctCodes(reg.certs)
  }

  predicate CodeTaken(certs: seq<Certificate>, code: string) {
    exists i :: 0 <= i < |certs| && certs[i].code == code
  }

  /**
    Why no certificate is stored: no rows for the professor, none in the requested
    periods, the document service failing (see `Composition.Compose`), or a code clash.
  */
  datatype GenerateError = NoCourses | NoCoursesInPeriods(professorName: string) | DocumentFailed | DuplicateCode

  /**
    `GeneratedCertificate.objects.create`: a new record under the next key, refused
    when the code is already stored.
  */
  function Create(reg: Registry, templateId: nat, code: string, metadata: Metadata): (r: Result<Registry, GenerateError>)
    requires ValidRegistry(reg)
    ensures r.Err? <==> CodeTaken(reg.certs, code)
    ensures r.Err? ==> r.error == DuplicateCode
    ensures r.Ok? ==> ValidRegistry(r.value)
    ensures r.Ok? ==> r.value.certs == reg.certs + [Certificate(reg.nextId, None, templateId, code, metadata)]
  {
    if CodeTaken(reg.certs, code) then Err(DuplicateCode)
    else Ok(Registry(reg.certs + [Certificate(reg.nextId, None, templateId, code, metadata)], reg.nextId + 1))
  }

  // ---------------------------------------------------------------------------
  // generate_single_certificate
  // ---------------------------------------------------------------------------

  /** The options the admin builds: a QR code, the full seven columns, an empty term as none. */
  function OptionsFor(idDocente: string, destinatario: string, filter: Option<seq<string>>, actual: string): GenerationOptions {
    GenerationOptions(idDocente, destinatario, true, filter, if |actual| > 0 then Some(actual) else None, DEFAULT_TABLE_FIELDS)
  }

  /** The entries of the stored options that shape the document. */
  function PdfOptionsOf(o: GenerationOptions): PdfOptions {
    PdfOptions(o.periodosFiltro, o.periodoActual, Some(o.campos))
  }

  /** The document options the admin passes on generation: the filter, a non-empty term, seven columns. */
  function DocumentOptions(filter: Option<seq<string>>, actual: string): (opts: PdfOptions)
    ensures forall idDocente, destinatario :: opts == PdfOptionsOf(OptionsFor(idDocente, destinatario, filter, actual))
  {
    PdfOptions(filter, if |actual| > 0 then Some(actual) else None, Some(DEFAULT_TABLE_FIELDS))
  }

  /** The document options a record's metadata gives back on regeneration; none without stored options. */
  function StoredPdfOptions(m: Metadata): PdfOptions {
    match m.options
    case Some(o) => PdfOptionsOf(o)
    case None => PdfOptions(None, None, None)
  }

  /**
    The admin's course selection: the professor's rows, narrowed by a non-empty
    period filter. Unlike the document service it does not fall back to every row
    when the filter matches nothing; it fails instead. The name is the first row's.
  */
  function SelectCourses(table: CourseTable, idDocente: string, filter: Option<seq<string>>): (r: Result<(string, seq<Course>), GenerateError>)
    ensures r.Err? && r.error == NoCourses <==> |CoursesOf(table, idDocente)| == 0
    ensures r.Err? ==> r.error == NoCourses || r.error.NoCoursesInPeriods?
    ensures r.Err? && r.error.NoCoursesInPeriods? <==>
              |CoursesOf(table, idDocente)| > 0 && HasFilter(filter) && !AnyInPeriods(CoursesOf(table, idDocente), filter.value)
    ensures r.Err? && r.error.NoCoursesInPeriods? ==> r.error.professorName == CoursesOf(table, idDocente)[0].profesor
    ensures r.Ok? ==> r.value.0 == CoursesOf(table, idDocente)[0].profesor
    ensures r.Ok? ==> |r.value.1| > 0
    ensures r.Ok? ==> forall c :: c in r.value.1 <==>
              c in table.rows && c.idDocente == idDocente && (HasFilter(filter) ==> c.periodo in filter.value)
  {
    var courses := CoursesOf(table, idDocente);
    if |courses| == 0 then Err(NoCourses)
    else
      var name := courses[0].profesor;
      if HasFilter(filter) then
        var filtered := Where(courses, InPeriods(filter.value));
        if |filtered| > 0 then
          assert filtered[0] in filtered;
          Ok((name, filtered))
        else
          assert !AnyInPeriods(courses, filter.value);
          Err(NoCoursesInPeriods(name))
      else Ok((name, courses))
  }

  /** Where the admin's selection succeeds it picks exactly the rows the document service keeps. */
  lemma SelectionAgreesWithService(table: CourseTable, idDocente: string, filter: Option<seq<string>>)
    requires SelectCourses(table, idDocente, filter).Ok?
    ensures SelectCourses(table, idDocente, filter).value.1 == FilterPeriods(CoursesOf(table, idDocente), filter)
  {
    var courses := CoursesOf(table, idDocente);
    if HasFilter(filter) {
      var filtered := Where(courses, InPeriods(filter.value));
      assert filtered[0] in filtered;
    }
  }

  /** Where the filter matches none of the professor's rows, the service keeps them all but the admin fails. */
  lemma AdminRefusesWhereServiceFallsBack(table: CourseTable, idDocente: string, periods: seq<string>)
    requires |CoursesOf(table, idDocente)| > 0 && |periods| > 0
    requires !AnyInPeriods(CoursesOf(table, idDocente), periods)
    ensures FilterPeriods(CoursesOf(table, idDocente), Some(periods)) == CoursesOf(table, idDocente)
    ensures SelectCourses(table, idDocente, Some(periods)).Err?
  {
  }

  /**
    The admin's selection succeeds and the document service draws it: not every
    selected row lies in the current term (`Composition.CurrentOnly`).
  */
  predicate Printable(table: CourseTable, idDocente: string, filter: Option<seq<string>>, actual: string) {
    match SelectCourses(table, idDocente, filter)
    case Err(_) => false
    case Ok((_, sel)) => !CurrentOnly(sel, DocumentOptions(filter, actual))
  }

  /** For a successful selection, printability is exactly the service composing a document for it. */
  lemma PrintableIsComposed(table: CourseTable, idDocente: string, filter: Option<seq<string>>, actual: string,
                            order: set<string> -> seq<string>)
    requires IsSetOrder(order) && SelectCourses(table, idDocente, filter).Ok?
    ensures Printable(table, idDocente, filter, actual) <==>
              Compose(SelectCourses(table, idDocente, filter).value.1, DocumentOptions(filter, actual), order).Ok?
  {
  }

  /**
    One certificate for one professor: select the rows, have the document service
    draw them, then store a record whose metadata is the options plus the professor's
    name. The document itself is not stored in this model. Every failure leaves the
    registry as it was.
  */
  function GenerateSingle(reg: Registry, table: CourseTable, idDocente: string, templateId: nat,
                          destinatario: string, filter: Option<seq<string>>, actual: string,
                          code: string): (r: (Registry, Result<nat, GenerateError>))
    requires ValidRegistry(reg)
    ensures ValidRegistry(r.0)
    ensures r.1.Err? ==> r.0 == reg
    ensures r.1.Ok? <==> Printable(table, idDocente, filter, actual) && !CodeTaken(reg.certs, code)
    ensures SelectCourses(table, idDocente, filter).Err? ==> r.1 == Err(SelectCourses(table, idDocente, filter).error)
    ensures SelectCourses(table, idDocente, filter).Ok? && !Printable(table, idDocente, filter, actual) ==> r.1 == Err(DocumentFailed)
    ensures r.1.Ok? ==>
              && r.1.value == reg.nextId
              && r.0.certs == reg.certs + [Certificate(reg.nextId, None, templateId, code,
                   Metadata(Some(OptionsFor(idDocente, destinatario, filter, actual)), Some(idDocente),
                            Some(CoursesOf(table, idDocente)[0].profesor)))]
  {
    match SelectCourses(table, idDocente, filter)
    case Err(e) => (reg, Err(e))
    case Ok((name, sel)) =>
      var options := OptionsFor(idDocente, destinatario, filter, actual);
      if CurrentOnly(sel, PdfOptionsOf(options)) then (reg, Err(DocumentFailed))
      else
        match Create(reg, templateId, code, Metadata(Some(options), Some(idDocente), Some(name)))
        case Err(e) => (reg, Err(e))
        case Ok(reg') => (reg', Ok(reg.nextId))
  }

  /**
    A certificate just generated for a non-empty professor id can be regenerated from
    the same course table: the stored options select the same rows again.
  */
  lemma GeneratedIsRegenerable(reg: Registry, table: CourseTable, idDocente: string, templateId: nat,
                               destinatario: string, filter: Option<seq<string>>, actual: string, code: string)
    requires ValidRegistry(reg) && |idDocente| > 0
    requires GenerateSingle(reg, table, idDocente, templateId, destinatario, filter, actual, code).1.Ok?
    ensures var r := GenerateSingle(reg, table, idDocente, templateId, destinatario, filter, actual, code).0;
            |r.certs| == |reg.certs| + 1 && Regenerable(r.certs[|reg.certs|], table)
  {
    var all := CoursesOf(table, idDocente);
    var sel := SelectCourses(table, idDocente, filter).value.1;
    var opts := DocumentOptions(filter, actual);
    SelectionAgreesWithService(table, idDocente, filter);
    assert forall c :: c in Selected(sel, opts) <==> c in Selected(all, opts);
    CurrentOnlyMeansAllCurrent(sel, opts);
    CurrentOnlyMeansAllCurrent(all, opts);
  }

  // ---------------------------------------------------------------------------
  // generate_bulk_certificates
  // ---------------------------------------------------------------------------

  /** The batch as a sequence of single generations, the k-th using the k-th code. */
  function Bulk(reg: Registry, table: CourseTable, ids: seq<string>, templateId: nat, destinatario: string,
                filter: Option<seq<string>>, actual: string, codes: seq<string>): (r: (Registry, seq<Result<nat, GenerateError>>))
    requires ValidRegistry(reg) && |codes| == |ids|
    ensures ValidRegistry(r.0) && |r.1| == |ids|
    ensures |r.0.certs| == |reg.certs| + CountOk(r.1)
    ensures r.0.certs[..|reg.certs|] == reg.certs
    decreases |ids|
  {
    if |ids| == 0 then (reg, [])
    else
      var n := |ids| - 1;
      var prev := Bulk(reg, table, ids[..n], templateId, destinatario, filter, actual, codes[..n]);
      var r := BulkNext(prev, table, ids[n], templateId, destinatario, filter, actual, codes[n]);
      CountOkAppend(prev.1, r.1);
      assert r.0.certs[..|reg.certs|] == prev.0.certs[..|reg.certs|];
      r
  }

  /** The batch so far, extended by one single generation. */
  function BulkNext(prev: (Registry, seq<Result<nat, GenerateError>>), table: CourseTable, id: string, templateId: nat,
                    destinatario: string, filter: Option<seq<string>>, actual: string, code: string)
    : (r: (Registry, seq<Result<nat, GenerateError>>))
    requires ValidRegistry(prev.0)
    ensures ValidRegistry(r.0) && |r.1| == |prev.1| + 1 && r.1[..|prev.1|] == prev.1
    ensures |r.0.certs| == |prev.0.certs| + (if r.1[|prev.1|].Ok? then 1 else 0)
    ensures r.0.certs[..|prev.0.certs|] == prev.0.certs
  {
    var step := GenerateSingle(prev.0, table, id, templateId, destinatario, filter, actual, code);
    (step.0, prev.1 + [step.1])
  }

  function CountOk(outcomes: seq<Result<nat, GenerateError>>): (n: nat)
    ensures n <= |outcomes|
  {
    if |outcomes| == 0 then 0
    else CountOk(outcomes[..|outcomes| - 1]) + (if outcomes[|outcomes| - 1].Ok? then 1 else 0)
  }

  lemma CountOkAppend(outcomes: seq<Result<nat, GenerateError>>, more: seq<Result<nat, GenerateError>>)
    requires |more| == |outcomes| + 1 && more[..|outcomes|] == outcomes
    ensures CountOk(more) == CountOk(outcomes) + (if more[|outcomes|].Ok? then 1 else 0)
  {
  }

  /** One more professor id extends the batch by one single generation. */
  lemma BulkStep(reg: Registry, table: CourseTable, ids: seq<string>, templateId: nat, destinatario: string,
                 filter: Option<seq<string>>, actual: string, codes: seq<string>, k: nat)
    requires ValidRegistry(reg) && |codes| == |ids| && k < |ids|
    ensures Bulk(reg, table, ids[..k + 1], templateId, destinatario, filter, actual, codes[..k + 1])
            == BulkNext(Bulk(reg, table, ids[..k], templateId, destinatario, filter, actual, codes[..k]),
                        table, ids[k], templateId, destinatario, filter, actual, codes[k])
  {
    assert ids[..k + 1][..k] == ids[..k] && codes[..k + 1][..k] == codes[..k];
  }

  /**
    The batch loop: one generation per professor id, counting successes and
    failures as it goes.
  */
  method GenerateBulk(reg: Registry, table: CourseTable, ids: seq<string>, templateId: nat, destinatario: string,
                      filter: Option<seq<string>>, actual: string, codes: seq<string>)
    returns (reg': Registry, outcomes: seq<Result<nat, GenerateError>>, successCount: nat, errorCount: nat)
    requires ValidRegistry(reg) && |codes| == |ids|
    ensures (reg', outcomes) == Bulk(reg, table, ids, templateId, destinatario, filter, actual, codes)
    ensures successCount == CountOk(outcomes) && successCount + errorCount == |ids|
  {
    reg', outcomes, successCount, errorCount := reg, [], 0, 0;
    for k := 0 to |ids|
      invariant (reg', outcomes) == Bulk(reg, table, ids[..k], templateId, destinatario, filter, actual, codes[..k])
      invariant successCount == CountOk(outcomes) && successCount + errorCount == k
    {
      BulkStep(reg, table, ids, templateId, destinatario, filter, actual, codes, k);
      var step := GenerateSingle(reg', table, ids[k], templateId, destinatario, filter, actual, codes[k]);
      var outcome := step.1;
      assert (step.0, outcomes + [outcome]) == BulkNext((reg', outcomes), table, ids[k], templateId, destinatario, filter, actual, codes[k]);
      CountOkAppend(outcomes, outcomes + [outcome]);
      reg' := step.0;
      outcomes := outcomes + [outcome];
      if outcome.Ok? {
        successCount := successCount + 1;
      } else {
        errorCount := errorCount + 1;
      }
    }
    assert ids[..|ids|] == ids && codes[..|codes|] == codes;
  }

  /** Fresh codes: pairwise distinct, and none of them stored yet. */
  predicate FreshCodes(reg: Registry, codes: seq<string>) {
    NoDup(codes) && forall k, i :: 0 <= k < |codes| && 0 <= i < |reg.certs| ==> codes[k] != reg.certs[i].code
  }

  /**
    With fresh codes, the k-th professor of the batch gets a certificate exactly when
    the admin's course selection for them succeeds and the document service draws it:
    no code clash can occur.
  */
  lemma BulkFreshCodes(reg: Registry, table: CourseTable, ids: seq<string>, templateId: nat, destinatario: string,
                       filter: Option<seq<string>>, actual: string, codes: seq<string>)
    requires ValidRegistry(reg) && |codes| == |ids| && FreshCodes(reg, codes)
    ensures var r := Bulk(reg, table, ids, templateId, destinatario, filter, actual, codes);
            forall k :: 0 <= k < |ids| ==> (r.1[k].Ok? <==> Printable(table, ids[k], filter, actual))
  {
    BulkPrefixFresh(reg, table, ids, templateId, destinatario, filter, actual, codes, |ids|);
    assert ids[..|ids|] == ids && codes[..|codes|] == codes;
  }

  /** After the first `n` steps the remaining codes are still free, and each step so far failed only on its selection. */
  lemma {:induction false} BulkPrefixFresh(reg: Registry, table: CourseTable, ids: seq<string>, templateId: nat, destinatario: string,
                                           filter: Option<seq<string>>, actual: string, codes: seq<string>, n: nat)
    requires ValidRegistry(reg) && |codes| == |ids| && FreshCodes(reg, codes) && n <= |ids|
    ensures var r := Bulk(reg, table, ids[..n], templateId, destinatario, filter, actual, codes[..n]);
            && (forall j :: n <= j < |codes| ==> !CodeTaken(r.0.certs, codes[j]))
            && (forall k :: 0 <= k < n ==> (r.1[k].Ok? <==> Printable(table, ids[k], filter, actual)))
  {
    if n == 0 {
      assert forall j :: 0 <= j < |codes| ==> !CodeTaken(reg.certs, codes[j]);
    } else {
      BulkPrefixFresh(reg, table, ids, templateId, destinatario, filter, actual, codes, n - 1);
      var prev := Bulk(reg, table, ids[..n - 1], templateId, destinatario, filter, actual, codes[..n - 1]);
      BulkStepAt(reg, table, ids, templateId, destinatario, filter, actual, codes, n);
      BulkNextFresh(prev, table, ids[n - 1], templateId, destinatario, filter, actual, codes[n - 1]);
      var r := BulkNext(prev, table, ids[n - 1], templateId, destinatario, filter, actual, codes[n - 1]);
      forall j | n <= j < |codes|
        ensures !CodeTaken(r.0.certs, codes[j])
      {
        assert codes[j] != codes[n - 1] && !CodeTaken(prev.0.certs, codes[j]);
      }
      forall k | 0 <= k < n
        ensures r.1[k].Ok? <==> Printable(table, ids[k], filter, actual)
      {
        if k < n - 1 {
          assert r.1[k] == prev.1[k];
        }
      }
    }
  }

  /** The first `n` steps of the batch are the first `n - 1` and one more. */
  lemma BulkStepAt(reg: Registry, table: CourseTable, ids: seq<string>, templateId: nat, destinatario: string,
                   filter: Option<seq<string>>, actual: string, codes: seq<string>, n: nat)
    requires ValidRegistry(reg) && |codes| == |ids| && 0 < n <= |ids|
    ensures Bulk(reg, table, ids[..n], templateId, destinatario, filter, actual, codes[..n])
            == BulkNext(Bulk(reg, table, ids[..n - 1], templateId, destinatario, filter, actual, codes[..n - 1]),
                        table, ids[n - 1], templateId, destinatario, filter, actual, codes[n - 1])
  {
    assert ids[..n][..n - 1] == ids[..n - 1] && codes[..n][..n - 1] == codes[..n - 1];
  }

  /**
    One step of the batch with a free code succeeds exactly when the selection does,
    and takes no code but its own.
  */
  lemma BulkNextFresh(prev: (Registry, seq<Result<nat, GenerateError>>), table: CourseTable, id: string, templateId: nat,
                      destinatario: string, filter: Option<seq<string>>, actual: string, code: string)
    requires ValidRegistry(prev.0) && !CodeTaken(prev.0.certs, code)
    ensures var r := BulkNext(prev, table, id, templateId, destinatario, filter, actual, code);
            && (r.1[|prev.1|].Ok? <==> Printable(table, id, filter, actual))
            && (forall k :: 0 <= k < |prev.1| ==> r.1[k] == prev.1[k])
            && (forall other :: other != code && !CodeTaken(prev.0.certs, other) ==> !CodeTaken(r.0.certs, other))
  {
    var r := BulkNext(prev, table, id, templateId, destinatario, filter, actual, code);
    if r.1[|prev.1|].Ok? {
      assert r.0.certs == prev.0.certs + [r.0.certs[|prev.0.certs|]];
    }
  }

  // ---------------------------------------------------------------------------
  // regenerate_certificates
  // ---------------------------------------------------------------------------

  /** The position of the record with primary key `id`. */
  function FindCertificate(certs: seq<Certificate>, id: nat): (r: Option<nat>)
    ensures r.Some? ==> r.value < |certs| && certs[r.value].id == id
    ensures r.None? ==> forall i :: 0 <= i < |certs| ==> certs[i].id != id
  {
    LastWhere(certs, (c: Certificate) => c.id == id)
  }

  /**
    A certificate can be regenerated: it stores a non-empty `id_docente` that has rows,
    and the document service draws those rows under the stored options.
  */
  predicate Regenerable(c: Certificate, table: CourseTable) {
    && c.metadata.idDocente.Some? && |c.metadata.idDocente.value| > 0
    && |CoursesOf(table, c.metadata.idDocente.value)| > 0
    && !CurrentOnly(CoursesOf(table, c.metadata.idDocente.value), StoredPdfOptions(c.metadata))
  }

  /**
    Regenerating one selected certificate: a record without a professor id, whose
    professor has no rows, or whose document the service fails to draw is skipped;
    otherwise it takes the new code, unless another record holds that code. Template
    and metadata never change.
  */
  function RegenerateOne(reg: Registry, table: CourseTable, id: nat, code: string): (r: (Registry, bool))
    requires ValidRegistry(reg)
    ensures ValidRegistry(r.0) && r.0.nextId == reg.nextId && |r.0.certs| == |reg.certs|
    ensures forall i :: 0 <= i < |reg.certs| ==> r.0.certs[i] == reg.certs[i].(code := r.0.certs[i].code)
    ensures forall i :: 0 <= i < |reg.certs| && reg.certs[i].id != id ==> r.0.certs[i] == reg.certs[i]
    ensures r.1 <==> exists i :: 0 <= i < |reg.certs| && reg.certs[i].id == id && Regenerable(reg.certs[i], table) &&
                       forall j :: 0 <= j < |reg.certs| && j != i ==> reg.certs[j].code != code
    ensures r.1 ==> forall i :: 0 <= i < |reg.certs| && reg.certs[i].id == id ==> r.0.certs[i].code == code
    ensures !r.1 ==> r.0 == reg
  {
    match FindCertificate(reg.certs, id)
    case None => (reg, false)
    case Some(i) =>
      var c := reg.certs[i];
      if !Regenerable(c, table) then (reg, false)
      else if exists j :: 0 <= j < |reg.certs| && j != i && reg.certs[j].code == code then (reg, false)
      else (reg.(certs := reg.certs[i := c.(code := code)]), true)
  }

  /** The admin action over the selection, the k-th record taking the k-th code. */
  function Regenerate(reg: Registry, table: CourseTable, selection: seq<nat>, codes: seq<string>): (r: (Registry, nat))
    requires ValidRegistry(reg) && |codes| == |selection|
    ensures ValidRegistry(r.0) && |r.0.certs| == |reg.certs| && r.1 <= |selection|
    decreases |selection|
  {
    if |selection| == 0 then (reg, 0)
    else
      var n := |selection| - 1;
      RegenerateNext(Regenerate(reg, table, selection[..n], codes[..n]), table, selection[n], codes[n])
  }

  /** The regeneration so far, extended by one selected certificate. */
  function RegenerateNext(prev: (Registry, nat), table: CourseTable, id: nat, code: string): (r: (Registry, nat))
    requires ValidRegistry(prev.0)
    ensures ValidRegistry(r.0) && |r.0.certs| == |prev.0.certs| && r.1 <= prev.1 + 1
  {
    var step := RegenerateOne(prev.0, table, id, code);
    (step.0, prev.1 + if step.1 then 1 else 0)
  }

  /** Regeneration changes codes only: every record keeps its key, template, link and metadata. */
  lemma {:induction false} RegenerateKeepsRecords(reg: Registry, table: CourseTable, selection: seq<nat>, codes: seq<string>)
    requires ValidRegistry(reg) && |codes| == |selection|
    ensures var r := Regenerate(reg, table, selection, codes).0;
            forall i :: 0 <= i < |reg.certs| ==> r.certs[i] == reg.certs[i].(code := r.certs[i].code)
    decreases |selection|
  {
    if |selection| > 0 {
      var n := |selection| - 1;
      RegenerateKeepsRecords(reg, table, selection[..n], codes[..n]);
    }
  }

  /** A record that is not selected keeps its code too. */
  lemma {:induction false} RegenerateOnlySelected(reg: Registry, table: CourseTable, selection: seq<nat>, codes: seq<string>)
    requires ValidRegistry(reg) && |codes| == |selection|
    ensures var r := Regenerate(reg, table, selection, codes).0;
            forall i :: 0 <= i < |reg.certs| && reg.certs[i].id !in selection ==> r.certs[i] == reg.certs[i]
    decreases |selection|
  {
    if |selection| > 0 {
      var n := |selection| - 1;
      RegenerateOnlySelected(reg, table, selection[..n], codes[..n]);
      assert forall id :: id in selection[..n] ==> id in selection;
    }
  }

  /** One more selected record extends the action by one regeneration. */
  lemma RegenerateStep(reg: Registry, table: CourseTable, selection: seq<nat>, codes: seq<string>, k: nat)
    requires ValidRegistry(reg) && |codes| == |selection| && k < |selection|
    ensures Regenerate(reg, table, selection[..k + 1], codes[..k + 1])
            == RegenerateNext(Regenerate(reg, table, selection[..k], codes[..k]), table, selection[k], codes[k])
  {
    assert selection[..k + 1][..k] == selection[..k] && codes[..k + 1][..k] == codes[..k];
  }

  /** The action's loop, counting the records it regenerated. */
  method RegenerateCertificates(reg: Registry, table: CourseTable, selection: seq<nat>, codes: seq<string>)
    returns (reg': Registry, regenerated: nat)
    requires ValidRegistry(reg) && |codes| == |selection|
    ensures (reg', regenerated) == Regenerate(reg, table, selection, codes)
    ensures regenerated <= |selection|
  {
    reg', regenerated := reg, 0;
    for k := 0 to |selection|
      invariant (reg', regenerated) == Regenerate(reg, table, selection[..k], codes[..k])
    {
      RegenerateStep(reg, table, selection, codes, k);
      var step := RegenerateOne(reg', table, selection[k], codes[k]);
      reg' := step.0;
      if step.1 {
        regenerated := regenerated + 1;
      }
    }
    assert selection[..|selection|] == selection && codes[..|codes|] == codes;
  }

  /** Some stored record has primary key `id` and can be regenerated. */
  predicate StoredRegenerable(reg: Registry, table: CourseTable, id: nat) {
    exists i :: 0 <= i < |reg.certs| && reg.certs[i].id == id && Regenerable(reg.certs[i], table)
  }

  /** How many selected keys name a stored record that can be regenerated. */
  function CountRegenerable(reg: Registry, table: CourseTable, selection: seq<nat>): (n: nat)
    ensures n <= |selection|
  {
    if |selection| == 0 then 0
    else CountRegenerable(reg, table, selection[..|selection| - 1])
         + (if StoredRegenerable(reg, table, selection[|selection| - 1]) then 1 else 0)
  }

  /**
    With fresh codes and no key selected twice, every selected record that can be
    regenerated ends with its own new code, every other record keeps its code, and
    the count is the number of such records: no code clash can occur.
  */
  lemma RegenerateFreshCodes(reg: Registry, table: CourseTable, selection: seq<nat>, codes: seq<string>)
    requires ValidRegistry(reg) && |codes| == |selection| && NoDup(selection) && FreshCodes(reg, codes)
    ensures var r := Regenerate(reg, table, selection, codes);
            forall i, k :: (0 <= i < |reg.certs| && 0 <= k < |selection| && reg.certs[i].id == selection[k] &&
                            Regenerable(reg.certs[i], table)) ==> r.0.certs[i].code == codes[k]
    ensures var r := Regenerate(reg, table, selection, codes);
            forall i :: 0 <= i < |reg.certs| && !Regenerable(reg.certs[i], table) ==> r.0.certs[i] == reg.certs[i]
    ensures Regenerate(reg, table, selection, codes).1 == CountRegenerable(reg, table, selection)
  {
    RegeneratePrefixCodes(reg, table, selection, codes, |selection|);
    RegeneratePrefixCount(reg, table, selection, codes, |selection|);
    assert selection[..|selection|] == selection && codes[..|codes|] == codes;
  }

  /** After the first `n` selected records, the codes still to be handed out are free. */
  lemma {:induction false} RegeneratePrefixFree(reg: Registry, table: CourseTable, selection: seq<nat>, codes: seq<string>, n: nat)
    requires ValidRegistry(reg) && |codes| == |selection| && FreshCodes(reg, codes) && n <= |selection|
    ensures forall j :: n <= j < |codes| ==> !CodeTaken(Regenerate(reg, table, selection[..n], codes[..n]).0.certs, codes[j])
  {
    if n == 0 {
      assert forall j :: 0 <= j < |codes| ==> !CodeTaken(reg.certs, codes[j]);
    } else {
      RegeneratePrefixFree(reg, table, selection, codes, n - 1);
      var prev := Regenerate(reg, table, selection[..n - 1], codes[..n - 1]);
      RegenerateStepFree(reg, table, selection, codes, n);
      forall j | n <= j < |codes|
        ensures !CodeTaken(Regenerate(reg, table, selection[..n], codes[..n]).0.certs, codes[j])
      {
        assert codes[j] != codes[n - 1] && !CodeTaken(prev.0.certs, codes[j]);
      }
    }
  }

  /** The codes of the first `n` selected records, by induction on `n`. */
  lemma {:induction false} RegeneratePrefixCodes(reg: Registry, table: CourseTable, selection: seq<nat>, codes: seq<string>, n: nat)
    requires ValidRegistry(reg) && |codes| == |selection| && NoDup(selection) && FreshCodes(reg, codes) && n <= |selection|
    ensures var r := Regenerate(reg, table, selection[..n], codes[..n]);
            forall i, k :: (0 <= i < |reg.certs| && 0 <= k < n && reg.certs[i].id == selection[k] &&
                            Regenerable(reg.certs[i], table)) ==> r.0.certs[i].code == codes[k]
    ensures var r := Regenerate(reg, table, selection[..n], codes[..n]);
            forall i :: (0 <= i < |reg.certs| && (!Regenerable(reg.certs[i], table) ||
                           forall k :: 0 <= k < n ==> selection[k] != reg.certs[i].id)) ==> r.0.certs[i] == reg.certs[i]
  {
    if n > 0 {
      RegeneratePrefixCodes(reg, table, selection, codes, n - 1);
      RegeneratePrefixFree(reg, table, selection, codes, n - 1);
      RegenerateKeepsRecords(reg, table, selection[..n - 1], codes[..n - 1]);
      var prev := Regenerate(reg, table, selection[..n - 1], codes[..n - 1]);
      RegenerateStepRecords(reg, table, selection, codes, n);
      var r := Regenerate(reg, table, selection[..n], codes[..n]);
      forall i, k | 0 <= i < |reg.certs| && 0 <= k < n && reg.certs[i].id == selection[k] && Regenerable(reg.certs[i], table)
        ensures r.0.certs[i].code == codes[k]
      {
        assert Regenerable(prev.0.certs[i], table);
        if k < n - 1 {
          assert selection[k] != selection[n - 1];
        }
      }
    }
  }

  /** The count over the first `n` selected records, by induction on `n`. */
  lemma {:induction false} RegeneratePrefixCount(reg: Registry, table: CourseTable, selection: seq<nat>, codes: seq<string>, n: nat)
    requires ValidRegistry(reg) && |codes| == |selection| && FreshCodes(reg, codes) && n <= |selection|
    ensures Regenerate(reg, table, selection[..n], codes[..n]).1 == CountRegenerable(reg, table, selection[..n])
  {
    if n > 0 {
      RegeneratePrefixCount(reg, table, selection, codes, n - 1);
      RegeneratePrefixFree(reg, table, selection, codes, n - 1);
      RegenerateStepFree(reg, table, selection, codes, n);
      RegenerateKeepsRegenerable(reg, table, selection[..n - 1], codes[..n - 1], selection[n - 1]);
      assert CountRegenerable(reg, table, selection[..n]) == CountRegenerable(reg, table, selection[..n - 1])
             + (if StoredRegenerable(reg, table, selection[n - 1]) then 1 else 0) by {
        assert selection[..n][..n - 1] == selection[..n - 1] && selection[..n][n - 1] == selection[n - 1];
      }
    }
  }

  /** Regeneration changes no record's key or metadata, so which keys can be regenerated stays the same. */
  lemma RegenerateKeepsRegenerable(reg: Registry, table: CourseTable, selection: seq<nat>, codes: seq<string>, id: nat)
    requires ValidRegistry(reg) && |codes| == |selection|
    ensures StoredRegenerable(Regenerate(reg, table, selection, codes).0, table, id) == StoredRegenerable(reg, table, id)
  {
    var r := Regenerate(reg, table, selection, codes).0;
    RegenerateKeepsRecords(reg, table, selection, codes);
    if StoredRegenerable(r, table, id) {
      var i :| 0 <= i < |r.certs| && r.certs[i].id == id && Regenerable(r.certs[i], table);
      assert r.certs[i] == reg.certs[i].(code := r.certs[i].code);
    }
    if StoredRegenerable(reg, table, id) {
      var i :| 0 <= i < |reg.certs| && reg.certs[i].id == id && Regenerable(reg.certs[i], table);
      assert r.certs[i] == reg.certs[i].(code := r.certs[i].code);
    }
  }

  /** The first `n` selected records are the first `n - 1` and one more. */
  lemma RegenerateStepAt(reg: Registry, table: CourseTable, selection: seq<nat>, codes: seq<string>, n: nat)
    requires ValidRegistry(reg) && |codes| == |selection| && 0 < n <= |selection|
    ensures Regenerate(reg, table, selection[..n], codes[..n])
            == RegenerateNext(Regenerate(reg, table, selection[..n - 1], codes[..n - 1]), table, selection[n - 1], codes[n - 1])
  {
    assert selection[..n][..n - 1] == selection[..n - 1] && codes[..n][..n - 1] == codes[..n - 1];
  }

  /** The `n`-th selected record, regenerated with a free code. */
  lemma RegenerateStepFree(reg: Registry, table: CourseTable, selection: seq<nat>, codes: seq<string>, n: nat)
    requires ValidRegistry(reg) && |codes| == |selection| && 0 < n <= |selection|
    requires !CodeTaken(Regenerate(reg, table, selection[..n - 1], codes[..n - 1]).0.certs, codes[n - 1])
    ensures var prev := Regenerate(reg, table, selection[..n - 1], codes[..n - 1]);
            var r := Regenerate(reg, table, selection[..n], codes[..n]);
            && r.1 == prev.1 + (if StoredRegenerable(prev.0, table, selection[n - 1]) then 1 else 0)
            && (forall other :: other != codes[n - 1] && !CodeTaken(prev.0.certs, other) ==> !CodeTaken(r.0.certs, other))
  {
    RegenerateStepAt(reg, table, selection, codes, n);
    RegenerateNextFree(Regenerate(reg, table, selection[..n - 1], codes[..n - 1]), table, selection[n - 1], codes[n - 1]);
  }

  /** The records after the `n`-th selected record is regenerated with a free code. */
  lemma RegenerateStepRecords(reg: Registry, table: CourseTable, selection: seq<nat>, codes: seq<string>, n: nat)
    requires ValidRegistry(reg) && |codes| == |selection| && 0 < n <= |selection|
    requires !CodeTaken(Regenerate(reg, table, selection[..n - 1], codes[..n - 1]).0.certs, codes[n - 1])
    ensures var prev := Regenerate(reg, table, selection[..n - 1], codes[..n - 1]).0;
            var r := Regenerate(reg, table, selection[..n], codes[..n]).0;
            && |r.certs| == |prev.certs|
            && (forall i :: 0 <= i < |prev.certs| && prev.certs[i].id == selection[n - 1] && Regenerable(prev.certs[i], table) ==>
                  r.certs[i].code == codes[n - 1])
            && (forall i :: 0 <= i < |prev.certs| && !(prev.certs[i].id == selection[n - 1] && Regenerable(prev.certs[i], table)) ==>
                  r.certs[i] == prev.certs[i])
  {
    RegenerateStepAt(reg, table, selection, codes, n);
    RegenerateNextRecords(Regenerate(reg, table, selection[..n - 1], codes[..n - 1]), table, selection[n - 1], codes[n - 1]);
  }

  /** Regenerating one record with a free code counts it exactly when it can be regenerated, and takes no other code. */
  lemma RegenerateNextFree(prev: (Registry, nat), table: CourseTable, id: nat, code: string)
    requires ValidRegistry(prev.0) && !CodeTaken(prev.0.certs, code)
    ensures var r := RegenerateNext(prev, table, id, code);
            && r.1 == prev.1 + (if StoredRegenerable(prev.0, table, id) then 1 else 0)
            && (forall other :: other != code && !CodeTaken(prev.0.certs, other) ==> !CodeTaken(r.0.certs, other))
  {
    var step := RegenerateOne(prev.0, table, id, code);
    if step.1 {
      var i :| 0 <= i < |prev.0.certs| && prev.0.certs[i].id == id && Regenerable(prev.0.certs[i], table);
      assert step.0.certs == prev.0.certs[i := prev.0.certs[i].(code := code)];
    } else {
      assert !StoredRegenerable(prev.0, table, id);
    }
  }

  /** Regenerating one record with a free code: a record that can be regenerated takes it, every other record is untouched. */
  lemma RegenerateNextRecords(prev: (Registry, nat), table: CourseTable, id: nat, code: string)
    requires ValidRegistry(prev.0) && !CodeTaken(prev.0.certs, code)
    ensures var r := RegenerateNext(prev, table, id, code);
            && (forall i :: 0 <= i < |prev.0.certs| && prev.0.certs[i].id == id && Regenerable(prev.0.certs[i], table) ==>
                  r.0.certs[i].code == code)
            && (forall i :: 0 <= i < |prev.0.certs| && !(prev.0.certs[i].id == id && Regenerable(prev.0.certs[i], table)) ==>
                  r.0.certs[i] == prev.0.certs[i])
  {
  }

  // ---------------------------------------------------------------------------
  // The name a certificate is listed under
  // ---------------------------------------------------------------------------

  /**
    The linked account's name, else the stored professor name, else `fallback`: the
    model's string form uses "Unknown Professor", the admin list uses "Unknown".
  */
  function ProfessorName(c: Certificate, fallback: string): (name: string)
    ensures c.professor.Some? ==> name == c.professor.value
    ensures c.professor.None? && c.metadata.professorName.Some? ==> name == c.metadata.professorName.value
    ensures c.professor.None? && c.metadata.professorName.None? ==> name == fallback
  {
    if c.professor.Some? then c.professor.value else c.metadata.professorName.GetOr(fallback)
  }

  /** The record's string form, with the generation time already rendered. */
  function Title(c: Certificate, generatedAt: string): string {
    "Certificate for " + ProfessorName(c, "Unknown Professor") + " - " + generatedAt
  }

  /** A certificate generated by the admin is listed under the name on the professor's first row. */
  lemma GeneratedCertificateNamesProfessor(reg: Registry, table: CourseTable, idDocente: string, templateId: nat,
                                           destinatario: string, filter: Option<seq<string>>, actual: string, code: string)
    requires ValidRegistry(reg)
    requires GenerateSingle(reg, table, idDocente, templateId, destinatario, filter, actual, code).1.Ok?
    ensures var r := GenerateSingle(reg, table, idDocente, templateId, destinatario, filter, actual, code).0;
            && |r.certs| == |reg.certs| + 1
            && ProfessorName(r.certs[|reg.certs|], "Unknown") == CoursesOf(table, idDocente)[0].profesor
            && r.certs[|reg.certs|].metadata.options.value.idDocente == idDocente
  {
  }
}

=== FILE: composition.dfy ===
/**
  The data a generated certificate document carries, apart from its layout: which
  course rows it reports, how they split between the history table and the
  current-term table, and the header and cells of each table.
*/
module Composition {
  import opened Results
  import opened Sequences
  import opened Courses
  import opened Grouping
  import opened Periods
  import opened Fields
  import opened Text

  /**
    The entries of the generation options that decide the document's data. `None`
    stands for an absent key or a null value.
  */
  datatype PdfOptions = PdfOptions(
    periodosFiltro: Option<seq<string>>,
    periodoActual: Option<string>,
    campos: Option<seq<string>>)

  /** Python truthiness of the optional period list. */
  predicate HasFilter(filter: Option<seq<string>>) {
    filter.Some? && |filter.value| > 0
  }

  /** Python truthiness of the optional current term. */
  predicate HasCurrent(actual: Option<string>) {
    actual.Some? && |actual.value| > 0
  }

  function InPeriods(periods: seq<string>): Course -> bool {
    (c: Course) => c.periodo in periods
  }

  /** Some row lies in one of the listed periods. */
  predicate AnyInPeriods(cs: seq<Course>, periods: seq<string>) {
    exists c :: c in cs && c.periodo in periods
  }

  // ---------------------------------------------------------------------------
  // Selecting the rows
  // ---------------------------------------------------------------------------

  /**
    The optional period filter. It narrows the rows to the listed periods, but only
    when that keeps at least one row; otherwise every row stays.
  */
  function FilterPeriods(cs: seq<Course>, filter: Option<seq<string>>): (r: seq<Course>)
    ensures forall c :: c in r ==> c in cs
    ensures |cs| > 0 ==> |r| > 0
    ensures HasFilter(filter) && AnyInPeriods(cs, filter.value) ==>
              forall c :: c in r <==> c in cs && c.periodo in filter.value
    ensures !(HasFilter(filter) && AnyInPeriods(cs, filter.value)) ==> r == cs
  {
    if HasFilter(filter) then
      var filtered := Where(cs, InPeriods(filter.value));
      if |filtered| > 0 then
        assert filtered[0] in filtered;
        filtered
      else
        assert !AnyInPeriods(cs, filter.value);
        cs
    else cs
  }

  function InTerm(actual: string): Course -> bool {
    (c: Course) => c.periodo == actual
  }

  function NotInTerm(actual: string): Course -> bool {
    (c: Course) => c.periodo != actual
  }

  /**
    The current-term split: with a current term set, the rows of that term and the
    remaining rows; otherwise no current rows and every row historical.
  */
  function SplitCurrent(cs: seq<Course>, actual: Option<string>): (r: (seq<Course>, seq<Course>))
    ensures forall c :: c in r.0 ==> HasCurrent(actual) && c.periodo == actual.value
    ensures forall c :: c in r.1 ==> !HasCurrent(actual) || c.periodo != actual.value
  {
    if HasCurrent(actual) then (Where(cs, InTerm(actual.value)), Where(cs, NotInTerm(actual.value)))
    else ([], cs)
  }

  /** The split shares the rows out: together the two parts hold every row, each as often as before. */
  lemma SplitCurrentPartition(cs: seq<Course>, actual: Option<string>)
    ensures multiset(SplitCurrent(cs, actual).0) + multiset(SplitCurrent(cs, actual).1) == multiset(cs)
  {
    if HasCurrent(actual) {
      WherePartition(cs, InTerm(actual.value), NotInTerm(actual.value));
    }
  }

  // ---------------------------------------------------------------------------
  // Tables
  // ---------------------------------------------------------------------------

  /** The columns a table row can show, common to grouped rows and raw course rows. */
  datatype Line = Line(
    periodo: string,
    materia: string,
    clave: string,
    nrc: string,
    fechaInicio: Date,
    fechaFin: Date,
    hrCont: int)

  function RowLine(r: GroupedRow): Line {
    Line(r.periodo, r.materia, r.clave, r.nrc, r.fechaInicio, r.fechaFin, r.hrCont)
  }

  function CourseLine(c: Course): Line {
    Line(c.periodo, c.materia, c.clave, c.nrc, c.fechaInicio, c.fechaFin, c.hrCont)
  }

  /** A table cell. A date cell stands for the date's `dd/mm/yyyy` rendering. */
  datatype Cell = TextCell(text: string) | DateCell(date: Date)

  /** The cell of one column for one line: the term is relabelled, hours are printed in decimal. */
  function CellOf(field: string, l: Line): (cell: Option<Cell>)
    ensures cell.Some? <==> ColumnLabel(field).Some?
  {
    if field == "periodo" then Some(TextCell(FormatPeriod(l.periodo)))
    else if field == "materia" then Some(TextCell(l.materia))
    else if field == "clave" then Some(TextCell(l.clave))
    else if field == "nrc" then Some(TextCell(l.nrc))
    else if field == "fecha_inicio" then Some(DateCell(l.fechaInicio))
    else if field == "fecha_fin" then Some(DateCell(l.fechaFin))
    else if field == "hr_cont" then Some(TextCell(IntToString(l.hrCont)))
    else None
  }

  /** The requested fields that have a column, in request order (repeats kept). */
  function Columns(fields: seq<string>): (r: seq<string>)
    ensures forall f :: f in r <==> f in fields && ColumnLabel(f).Some?
  {
    if |fields| == 0 then []
    else (if ColumnLabel(fields[0]).Some? then [fields[0]] else []) + Columns(fields[1..])
  }

  /**
    The columns keep request order and repeats: the columns of a concatenation are
    those of the first part followed by those of the second.
  */
  lemma {:induction false} ColumnsAppend(a: seq<string>, b: seq<string>)
    ensures Columns(a + b) == Columns(a) + Columns(b)
  {
    if |a| == 0 {
      assert a + b == b;
    } else {
      assert (a + b)[0] == a[0] && (a + b)[1..] == a[1..] + b;
      ColumnsAppend(a[1..], b);
    }
  }

  /** Requesting only fields that have a heading gives exactly the request, in order and with repeats. */
  lemma {:induction false} ColumnsOfKnownFields(fields: seq<string>)
    requires forall f :: f in fields ==> ColumnLabel(f).Some?
    ensures Columns(fields) == fields
  {
    if |fields| > 0 {
      assert fields[0] in fields;
      assert forall f :: f in fields[1..] ==> f in fields;
      ColumnsOfKnownFields(fields[1..]);
    }
  }

  /** The admin's seven default fields are all columns, in their own order. */
  lemma DefaultColumns()
    ensures Columns(DEFAULT_TABLE_FIELDS) == DEFAULT_TABLE_FIELDS
  {
    ColumnsOfKnownFields(DEFAULT_TABLE_FIELDS);
  }

  /** The header row: one heading per requested field that has a column. */
  function Header(fields: seq<string>): seq<string> {
    if |fields| == 0 then []
    else
      match ColumnLabel(fields[0])
      case Some(heading) => [heading] + Header(fields[1..])
      case None => Header(fields[1..])
  }

  /** One data row: one cell per requested field that has a column. */
  function Cells(fields: seq<string>, l: Line): seq<Cell> {
    if |fields| == 0 then []
    else
      match CellOf(fields[0], l)
      case Some(cell) => [cell] + Cells(fields[1..], l)
      case None => Cells(fields[1..], l)
  }

  /**
    Header and cells line up: both have one entry per column, and entry `k` of each
    belongs to the same field.
  */
  lemma {:induction false} ColumnsAligned(fields: seq<string>, l: Line)
    ensures |Header(fields)| == |Columns(fields)| && |Cells(fields, l)| == |Columns(fields)|
    ensures forall k :: 0 <= k < |Columns(fields)| ==>
              && Header(fields)[k] == ColumnLabel(Columns(fields)[k]).value
              && Cells(fields, l)[k] == CellOf(Columns(fields)[k], l).value
  {
    if |fields| > 0 {
      var f, rest := fields[0], fields[1..];
      ColumnsAligned(rest, l);
      var present := CellOf(f, l).Some?;
      assert Columns(fields) == (if present then [f] else []) + Columns(rest);
      if present {
        assert Header(fields) == [ColumnLabel(f).value] + Header(rest);
        assert Cells(fields, l) == [CellOf(f, l).value] + Cells(rest, l);
      } else {
        assert Header(fields) == Header(rest);
        assert Cells(fields, l) == Cells(rest, l);
      }
    }
  }

  datatype Table = Table(header: seq<string>, rows: seq<seq<Cell>>)

  function BuildTable(fields: seq<string>, lines: seq<Line>): (t: Table)
    ensures |t.rows| == |lines|
  {
    Table(Header(fields), seq(|lines|, i requires 0 <= i < |lines| => Cells(fields, lines[i])))
  }

  /**
    The table's contents: one heading per column, in column order, and in row `i`
    the cell of each column for line `i`; so every row has one cell under each heading.
  */
  lemma TableContents(fields: seq<string>, lines: seq<Line>)
    ensures var t := BuildTable(fields, lines);
            && |t.header| == |Columns(fields)|
            && (forall k :: 0 <= k < |Columns(fields)| ==> t.header[k] == ColumnLabel(Columns(fields)[k]).value)
            && (forall i :: 0 <= i < |t.rows| ==> |t.rows[i]| == |t.header|)
    ensures var t := BuildTable(fields, lines);
            forall i, k :: 0 <= i < |lines| && 0 <= k < |Columns(fields)| ==>
              |t.rows[i]| == |Columns(fields)| && t.rows[i][k] == CellOf(Columns(fields)[k], lines[i]).value
  {
    ColumnsAligned(fields, Line("", "", "", "", Date(0, 0, 0), Date(0, 0, 0), 0));
    forall i | 0 <= i < |lines|
      ensures |Cells(fields, lines[i])| == |Header(fields)| == |Columns(fields)|
      ensures forall k :: 0 <= k < |Columns(fields)| ==> Cells(fields, lines[i])[k] == CellOf(Columns(fields)[k], lines[i]).value
    {
      ColumnsAligned(fields, lines[i]);
    }
  }

  /** With no usable field requested, both header and rows are empty. */
  lemma NoColumnsNoCells(fields: seq<string>, l: Line)
    requires forall f :: f in fields ==> ColumnLabel(f).None?
    ensures Header(fields) == [] && Cells(fields, l) == []
  {
    ColumnsAligned(fields, l);
  }

  function RowLines(rows: seq<GroupedRow>): seq<Line> {
    seq(|rows|, i requires 0 <= i < |rows| => RowLine(rows[i]))
  }

  function CourseLines(cs: seq<Course>): seq<Line> {
    seq(|cs|, i requires 0 <= i < |cs| => CourseLine(cs[i]))
  }

  // ---------------------------------------------------------------------------
  // The document
  // ---------------------------------------------------------------------------

  /**
    What the document shows: the professor's name, the history table (present when
    some historical row remains) and the current-term table (present when the
    current term has rows).
  */
  datatype Document = Document(professor: string, history: Option<Table>, current: Option<Table>)

  /**
    Why no document is produced: the professor has no rows, or the current-term
    table would be drawn without a history table. The current-term table borrows
    the history table's style, which exists only once a history table is drawn.
  */
  datatype ComposeError = NoCoursesFound | CurrentTableWithoutStyle

  /** The requested fields, or all seven when the options name none. */
  function TableFields(opts: PdfOptions): seq<string> {
    opts.campos.GetOr(DEFAULT_TABLE_FIELDS)
  }

  /** The rows the document reports, after the period filter. */
  function Selected(courses: seq<Course>, opts: PdfOptions): seq<Course> {
    FilterPeriods(courses, opts.periodosFiltro)
  }

  function Current(courses: seq<Course>, opts: PdfOptions): seq<Course> {
    SplitCurrent(Selected(courses, opts), opts.periodoActual).0
  }

  function Historical(courses: seq<Course>, opts: PdfOptions): seq<Course> {
    SplitCurrent(Selected(courses, opts), opts.periodoActual).1
  }

  /** The selected rows all fall in the current term: a current-term table and no history table. */
  predicate CurrentOnly(courses: seq<Course>, opts: PdfOptions) {
    |Historical(courses, opts)| == 0 && |Current(courses, opts)| > 0
  }

  /**
    The document data for a professor's course rows, as the service produces it.
    With no historical row left, the current-term table is never styled and the
    document fails; every other case is `ComposeIntended`.
  */
  function Compose(courses: seq<Course>, opts: PdfOptions, order: set<string> -> seq<string>)
    : (r: Result<Document, ComposeError>)
    requires IsSetOrder(order)
    ensures r.Err? <==> |courses| == 0 || CurrentOnly(courses, opts)
    ensures r.Err? ==> (r.error == NoCoursesFound <==> |courses| == 0)
    ensures r.Ok? ==> r == ComposeIntended(courses, opts, order)
  {
    if |courses| == 0 then Err(NoCoursesFound)
    else
      GroupedNonEmpty(Historical(courses, opts), order);
      if |Grouped(Historical(courses, opts), order)| == 0 && |Current(courses, opts)| > 0 then Err(CurrentTableWithoutStyle)
      else ComposeIntended(courses, opts, order)
  }

  /**
    The document data as intended: the name comes from the first row before any
    filtering; only the historical rows are grouped by cross-list code, the
    current-term rows are listed one by one, and either table may be the only one.
  */
  function ComposeIntended(courses: seq<Course>, opts: PdfOptions, order: set<string> -> seq<string>)
    : (r: Result<Document, ComposeError>)
    requires IsSetOrder(order)
    ensures r.Err? <==> |courses| == 0
    ensures r.Err? ==> r.error == NoCoursesFound
    ensures r.Ok? ==> r.value.professor == courses[0].profesor
  {
    if |courses| == 0 then Err(NoCoursesFound)
    else
      var grouped := Grouped(Historical(courses, opts), order);
      var current := Current(courses, opts);
      var fields := TableFields(opts);
      Ok(Document(
        courses[0].profesor,
        if |grouped| > 0 then Some(BuildTable(fields, RowLines(grouped))) else None,
        if |current| > 0 then Some(BuildTable(fields, CourseLines(current))) else None))
  }

  // ---------------------------------------------------------------------------
  // Properties of the composed document
  // ---------------------------------------------------------------------------

  lemma {:induction false} TotalConcat(a: seq<Course>, b: seq<Course>, w: Course -> int)
    ensures Total(a + b, w) == Total(a, w) + Total(b, w)
  {
    if |b| > 0 {
      var init := b[..|b| - 1];
      TotalConcat(a, init, w);
      assert (a + b)[..|a + b| - 1] == a + init;
      assert (a + b)[|a + b| - 1] == b[|b| - 1];
    } else {
      assert a + b == a;
    }
  }

  /** A filter and its complement share out the total of any weight. */
  lemma {:induction false} TotalPartition(cs: seq<Course>, p: Course -> bool, q: Course -> bool, w: Course -> int)
    requires forall c :: q(c) == !p(c)
    ensures Total(Where(cs, p), w) + Total(Where(cs, q), w) == Total(cs, w)
  {
    if |cs| > 0 {
      var head := [cs[0]];
      TotalPartition(cs[1..], p, q, w);
      assert cs == head + cs[1..];
      TotalConcat(head, cs[1..], w);
      TotalConcat(if p(cs[0]) then head else [], Where(cs[1..], p), w);
      TotalConcat(if q(cs[0]) then head else [], Where(cs[1..], q), w);
      assert Total([], w) == 0;
      assert Total(head, w) == w(cs[0]) by {
        assert head[..0] == [];
      }
    }
  }

  /**
    Every contact hour of the selected rows appears once in the document: the hours
    of the history rows plus those of the current-term rows are the selected total.
  */
  lemma HoursAccounted(courses: seq<Course>, opts: PdfOptions, order: set<string> -> seq<string>)
    requires IsSetOrder(order)
    ensures RowTotal(Grouped(Historical(courses, opts), order), RowHours) + Total(Current(courses, opts), HourWeight)
            == Total(Selected(courses, opts), HourWeight)
  {
    var sel := Selected(courses, opts);
    HoursConserved(Historical(courses, opts), order);
    if HasCurrent(opts.periodoActual) {
      var a := opts.periodoActual.value;
      TotalPartition(sel, InTerm(a), NotInTerm(a), HourWeight);
    } else {
      assert Current(courses, opts) == [];
      assert Total([], HourWeight) == 0;
    }
  }

  /**
    Every selected row is reported exactly once: as a current-term row, or inside
    exactly one history row.
  */
  lemma RowsAccounted(courses: seq<Course>, opts: PdfOptions, order: set<string> -> seq<string>)
    requires IsSetOrder(order)
    ensures RowTotal(Grouped(Historical(courses, opts), order), RowCount) + |Current(courses, opts)|
            == |Selected(courses, opts)|
  {
    var split := SplitCurrent(Selected(courses, opts), opts.periodoActual);
    SplitCurrentPartition(Selected(courses, opts), opts.periodoActual);
    EveryRowCountedOnce(Historical(courses, opts), order);
    assert |multiset(split.0)| + |multiset(split.1)| == |multiset(Selected(courses, opts))|;
  }

  /**
    The document's tables: one row per grouped history row and per current-term row,
    all of header width. Stated of the intended document, which is also the service's
    whenever the service produces one.
  */
  lemma DocumentTables(courses: seq<Course>, opts: PdfOptions, order: set<string> -> seq<string>)
    requires IsSetOrder(order)
    requires |courses| > 0
    ensures var d := ComposeIntended(courses, opts, order).value;
            && (d.history.Some? <==> |Grouped(Historical(courses, opts), order)| > 0)
            && (d.history.Some? ==> |d.history.value.rows| == |Grouped(Historical(courses, opts), order)|)
            && (d.current.Some? <==> |Current(courses, opts)| > 0)
            && (d.current.Some? ==> |d.current.value.rows| == |Current(courses, opts)|)
            && (d.history.Some? ==> forall i :: 0 <= i < |d.history.value.rows| ==>
                                      |d.history.value.rows[i]| == |d.history.value.header|)
            && (d.current.Some? ==> forall i :: 0 <= i < |d.current.value.rows| ==>
                                      |d.current.value.rows[i]| == |d.current.value.header|)
  {
    var fields := TableFields(opts);
    TableContents(fields, RowLines(Grouped(Historical(courses, opts), order)));
    TableContents(fields, CourseLines(Current(courses, opts)));
  }

  /**
    The document's tables hold the requested columns: the headings in column order,
    and under each heading the cell of that column for the grouped historical row,
    or for the current-term course, on that line. Stated of the intended document,
    as `DocumentTables` is.
  */
  lemma DocumentContents(courses: seq<Course>, opts: PdfOptions, order: set<string> -> seq<string>)
    requires IsSetOrder(order)
    requires |courses| > 0
    ensures var d := ComposeIntended(courses, opts, order).value;
            var fs := Columns(TableFields(opts));
            var g := Grouped(Historical(courses, opts), order);
            d.history.Some? ==>
              && |d.history.value.header| == |fs| && |d.history.value.rows| == |g|
              && (forall k :: 0 <= k < |fs| ==> d.history.value.header[k] == ColumnLabel(fs[k]).value)
              && (forall i, k :: 0 <= i < |g| && 0 <= k < |fs| ==>
                    |d.history.value.rows[i]| == |fs| && d.history.value.rows[i][k] == CellOf(fs[k], RowLine(g[i])).value)
    ensures var d := ComposeIntended(courses, opts, order).value;
            var fs := Columns(TableFields(opts));
            var cur := Current(courses, opts);
            d.current.Some? ==>
              && |d.current.value.header| == |fs| && |d.current.value.rows| == |cur|
              && (forall k :: 0 <= k < |fs| ==> d.current.value.header[k] == ColumnLabel(fs[k]).value)
              && (forall i, k :: 0 <= i < |cur| && 0 <= k < |fs| ==>
                    |d.current.value.rows[i]| == |fs| && d.current.value.rows[i][k] == CellOf(fs[k], CourseLine(cur[i])).value)
  {
    var fields := TableFields(opts);
    TableContents(fields, RowLines(Grouped(Historical(courses, opts), order)));
    TableContents(fields, CourseLines(Current(courses, opts)));
  }

  /** Without a current term there is no current-term table and every selected row is historical. */
  lemma NoCurrentTermAllHistory(courses: seq<Course>, opts: PdfOptions)
    requires !HasCurrent(opts.periodoActual)
    ensures Current(courses, opts) == [] && Historical(courses, opts) == Selected(courses, opts)
  {
  }

  /**
    The service fails on a professor with rows exactly when a current term is set and
    every selected row belongs to it.
  */
  lemma CurrentOnlyMeansAllCurrent(courses: seq<Course>, opts: PdfOptions)
    requires |courses| > 0
    ensures CurrentOnly(courses, opts) <==>
              HasCurrent(opts.periodoActual) && forall c :: c in Selected(courses, opts) ==> c.periodo == opts.periodoActual.value
  {
    var sel := Selected(courses, opts);
    if HasCurrent(opts.periodoActual) {
      var a := opts.periodoActual.value;
      var cur, hist := Where(sel, InTerm(a)), Where(sel, NotInTerm(a));
      assert Current(courses, opts) == cur && Historical(courses, opts) == hist;
      if forall c :: c in sel ==> c.periodo == a {
        assert sel[0] in cur;
        WhereNone(sel, NotInTerm(a));
      } else {
        var c :| c in sel && c.periodo != a;
        assert c in hist;
      }
    }
  }

  /**
    A professor whose only row lies in the current term: the service fails where the
    intended document has a current-term table and no history table.
  */
  lemma CurrentTermOnlyFails(order: set<string> -> seq<string>)
    requires IsSetOrder(order)
    ensures var c := Course(1, "D1", "D", "202535", "Physics", "FIS101", "A1", Date(2025, 8, 1), Date(2025, 12, 1), 3, None);
            var opts := PdfOptions(None, Some("202535"), None);
            && Compose([c], opts, order) == Err(CurrentTableWithoutStyle)
            && ComposeIntended([c], opts, order).Ok?
            && ComposeIntended([c], opts, order).value.history.None?
            && ComposeIntended([c], opts, order).value.current.Some?
  {
    var c := Course(1, "D1", "D", "202535", "Physics", "FIS101", "A1", Date(2025, 8, 1), Date(2025, 12, 1), 3, None);
    var opts := PdfOptions(None, Some("202535"), None);
    assert Selected([c], opts) == [c];
    CurrentOnlyMeansAllCurrent([c], opts);
  }

  /** A filter that matches some row selects exactly the matching rows. */
  lemma FilterSelectsMatches(cs: seq<Course>, periods: seq<string>)
    requires |periods| > 0 && AnyInPeriods(cs, periods)
    ensures FilterPeriods(cs, Some(periods)) == Where(cs, InPeriods(periods))
  {
  }
}

=== FILE: courses.dfy ===
/**
  The course-history table (`CoursesHistory`): its rows, the uniqueness constraint on
  (professor id, course reference number, term), and the insert-or-update step the
  bulk import performs on it.
*/
module Courses {
  import opened Results
  import opened Sequences

  /** A calendar date; its formatting is not part of this model. */
  datatype Date = Date(year: int, month: int, day: int)

  /**
    One course-history row. `id` is the table's primary key; `listasCruzadas` is the
    nullable cross-list code. The import-only columns that no certificate logic reads
    are omitted.
  */
  datatype Course = Course(
    id: nat,
    idDocente: string,
    profesor: string,
    periodo: string,
    materia: string,
    clave: string,
    nrc: string,
    fechaInicio: Date,
    fechaFin: Date,
    hrCont: int,
    listasCruzadas: Option<string>)

  /** The declared maximum length of the cross-list code column. */
  const CROSS_LIST_MAX_LENGTH: nat := 5

  /** The columns of the table's `unique_together` constraint. */
  datatype CourseKey = CourseKey(idDocente: string, nrc: string, periodo: string)

  function KeyOf(c: Course): CourseKey {
    CourseKey(c.idDocente, c.nrc, c.periodo)
  }

  predicate UniqueKeys(rows: seq<Course>) {
    forall i, j :: 0 <= i < j < |rows| ==> KeyOf(rows[i]) != KeyOf(rows[j])
  }

  predicate UniqueIds(rows: seq<Course>) {
    forall i, j :: 0 <= i < j < |rows| ==> rows[i].id != rows[j].id
  }

  /** Every stored cross-list code respects the column's maximum length. */
  predicate CrossCodesFit(rows: seq<Course>) {
    forall i :: 0 <= i < |rows| && rows[i].listasCruzadas.Some? ==>
      |rows[i].listasCruzadas.value| <= CROSS_LIST_MAX_LENGTH
  }

  /** The table: its rows in query order and the next primary key the database hands out. */
  datatype CourseTable = CourseTable(rows: seq<Course>, nextId: nat)

  /** The constraints the database keeps on the table. */
  predicate Valid(t: CourseTable) {
    && UniqueKeys(t.rows)
    && UniqueIds(t.rows)
    && (forall i :: 0 <= i < |t.rows| ==> t.rows[i].id < t.nextId)
  }

  function KeySet(rows: seq<Course>): set<CourseKey> {
    set i | 0 <= i < |rows| :: KeyOf(rows[i])
  }

  /** The rows satisfying `p`, in their original order (a queryset `filter`). */
  function Where(cs: seq<Course>, p: Course -> bool): (r: seq<Course>)
    ensures |r| <= |cs|
    ensures forall c :: c in r <==> c in cs && p(c)
  {
    if |cs| == 0 then []
    else (if p(cs[0]) then [cs[0]] else []) + Where(cs[1..], p)
  }

  /**
    Filtering keeps the input order: the rows kept from a concatenation are those kept
    from the first part followed by those kept from the second.
  */
  lemma {:induction false} WhereAppend(a: seq<Course>, b: seq<Course>, p: Course -> bool)
    ensures Where(a + b, p) == Where(a, p) + Where(b, p)
  {
    if |a| == 0 {
      assert a + b == b;
    } else {
      assert (a + b)[0] == a[0] && (a + b)[1..] == a[1..] + b;
      WhereAppend(a[1..], b, p);
    }
  }

  /** Filtering keeps nothing when no row qualifies. */
  lemma {:induction false} WhereNone(cs: seq<Course>, p: Course -> bool)
    requires forall c :: c in cs ==> !p(c)
    ensures Where(cs, p) == []
  {
    if |cs| > 0 {
      WhereNone(cs[1..], p);
    }
  }

  /** A single row is kept exactly when it satisfies the condition. */
  lemma WhereSingle(c: Course, p: Course -> bool)
    ensures Where([c], p) == if p(c) then [c] else []
  {
  }

  /** A filter and its complement split the rows between them. */
  lemma {:induction false} WherePartition(cs: seq<Course>, p: Course -> bool, q: Course -> bool)
    requires forall c :: q(c) == !p(c)
    ensures multiset(Where(cs, p)) + multiset(Where(cs, q)) == multiset(cs)
  {
    if |cs| > 0 {
      WherePartition(cs[1..], p, q);
      assert cs == [cs[0]] + cs[1..];
    }
  }

  /** `CoursesHistory.objects.filter(id_docente=...)`. */
  function CoursesOf(t: CourseTable, idDocente: string): (r: seq<Course>)
    ensures forall c :: c in r <==> c in t.rows && c.idDocente == idDocente
  {
    Where(t.rows, (c: Course) => c.idDocente == idDocente)
  }

  // ---------------------------------------------------------------------------
  // update_or_create keyed on (id_docente, nrc, periodo)
  // ---------------------------------------------------------------------------

  /**
    The values one import row supplies. `listasCruzadas` is `None` when the file has
    no cross-list column, so the stored value is left alone on update.
  */
  datatype CourseFields = CourseFields(
    idDocente: string,
    profesor: string,
    periodo: string,
    materia: string,
    clave: string,
    nrc: string,
    fechaInicio: Date,
    fechaFin: Date,
    hrCont: int,
    listasCruzadas: Option<Option<string>>)

  function FieldsKey(f: CourseFields): CourseKey {
    CourseKey(f.idDocente, f.nrc, f.periodo)
  }

  /** The row carries every value the import supplied. */
  predicate Carries(c: Course, f: CourseFields) {
    && c.idDocente == f.idDocente && c.profesor == f.profesor && c.periodo == f.periodo
    && c.materia == f.materia && c.clave == f.clave && c.nrc == f.nrc
    && c.fechaInicio == f.fechaInicio && c.fechaFin == f.fechaFin && c.hrCont == f.hrCont
    && (f.listasCruzadas.Some? ==> c.listasCruzadas == f.listasCruzadas.value)
  }

  /** The position of the row with key `key`, looking from position `from` on. */
  function FindKey(rows: seq<Course>, key: CourseKey, from: nat): (r: Option<nat>)
    requires from <= |rows|
    ensures r.Some? ==> from <= r.value < |rows| && KeyOf(rows[r.value]) == key
    ensures r.None? ==> forall i :: from <= i < |rows| ==> KeyOf(rows[i]) != key
    decreases |rows| - from
  {
    if from == |rows| then None
    else if KeyOf(rows[from]) == key then Some(from)
    else FindKey(rows, key, from + 1)
  }

  function NewRow(id: nat, f: CourseFields): Course {
    Course(id, f.idDocente, f.profesor, f.periodo, f.materia, f.clave, f.nrc,
           f.fechaInicio, f.fechaFin, f.hrCont, f.listasCruzadas.GetOr(None))
  }

  function UpdatedRow(c: Course, f: CourseFields): Course {
    Course(c.id, f.idDocente, f.profesor, f.periodo, f.materia, f.clave, f.nrc,
           f.fechaInicio, f.fechaFin, f.hrCont, f.listasCruzadas.GetOr(c.listasCruzadas))
  }

  /**
    `update_or_create`: update the row with the same key, or append a new row with a
    fresh primary key. The flag is Django's `created`.
  */
  function Upsert(t: CourseTable, f: CourseFields): (r: (CourseTable, bool))
    requires Valid(t)
    ensures Valid(r.0)
    ensures r.1 <==> FieldsKey(f) !in KeySet(t.rows)
    ensures KeySet(r.0.rows) == KeySet(t.rows) + {FieldsKey(f)}
    ensures |r.0.rows| == |t.rows| + (if r.1 then 1 else 0)
    ensures forall i :: 0 <= i < |r.0.rows| && KeyOf(r.0.rows[i]) == FieldsKey(f) ==> Carries(r.0.rows[i], f)
    ensures forall i :: 0 <= i < |t.rows| && KeyOf(t.rows[i]) != FieldsKey(f) ==> r.0.rows[i] == t.rows[i]
  {
    var key := FieldsKey(f);
    match FindKey(t.rows, key, 0)
    case Some(i) =>
      var rows := t.rows[i := UpdatedRow(t.rows[i], f)];
      assert KeySet(rows) == KeySet(t.rows) by {
        assert forall j :: 0 <= j < |rows| ==> KeyOf(rows[j]) == KeyOf(t.rows[j]);
      }
      (CourseTable(rows, t.nextId), false)
    case None =>
      var rows := t.rows + [NewRow(t.nextId, f)];
      assert key !in KeySet(t.rows);
      assert KeySet(rows) == KeySet(t.rows) + {key} by {
        assert forall j :: 0 <= j < |t.rows| ==> rows[j] == t.rows[j];
        assert KeyOf(rows[|t.rows|]) == key;
      }
      (CourseTable(rows, t.nextId + 1), true)
  }
}

=== FILE: fields.dfy ===
/**
  The course fields a certificate table can show, the column heading of each, and
  the two default field lists: the full table of a generated document and the
  shorter selection a template falls back to.
*/
module Fields {
  import opened Results

  /** The seven course columns, in the order a certificate table lists them by default. */
  const DEFAULT_TABLE_FIELDS: seq<string> :=
    ["periodo", "materia", "clave", "nrc", "fecha_inicio", "fecha_fin", "hr_cont"]

  /** The selection a template reports when it has none of its own. */
  const DEFAULT_CERTIFICATE_FIELDS: seq<string> :=
    ["periodo", "materia", "clave", "nrc", "hr_cont"]

  /** The heading of a course column; other names have no column. */
  function ColumnLabel(field: string): (heading: Option<string>)
    ensures heading.Some? <==> field in DEFAULT_TABLE_FIELDS
  {
    if field == "periodo" then Some("Periodo")
    else if field == "materia" then Some("Nombre de la Materia")
    else if field == "clave" then Some("Clave")
    else if field == "nrc" then Some("NRC")
    else if field == "fecha_inicio" then Some("Fecha Inicio")
    else if field == "fecha_fin" then Some("Fecha Fin")
    else if field == "hr_cont" then Some("Horas Totales")
    else None
  }

  /** Distinct fields have distinct headings, so a heading names its column. */
  lemma ColumnLabelInjective(f: string, g: string)
    requires ColumnLabel(f).Some? && ColumnLabel(f) == ColumnLabel(g)
    ensures f == g
  {
  }

  /** The template fallback selection is a part of the full table. */
  lemma CertificateFieldsAreColumns()
    ensures forall f :: f in DEFAULT_CERTIFICATE_FIELDS ==> ColumnLabel(f).Some?
  {
  }
}

=== FILE: grouping.dfy ===
/**
  Cross-list grouping of one professor's course rows
  (`CertificateService.group_courses_by_listas_cruzadas`).

  Rows are bucketed by their cross-list code; a row without a code gets a bucket of its
  own keyed by its primary key. Buckets are visited in the order their first row
  appears. A one-row bucket is copied verbatim; a larger bucket is merged into one row
  whose course reference numbers are joined with '/', whose subject names are
  de-duplicated and joined with '/', and whose contact hours are summed.
*/
module Grouping {
  import opened Results
  import opened Sequences
  import opened Text
  import opened Courses

  // ---------------------------------------------------------------------------
  // Bucket keys
  // ---------------------------------------------------------------------------

  /** A bucket key: a real cross-list code, or the `single_{id}` key of an uncoded row. */
  datatype GroupKey = CrossList(code: string) | Single(id: nat)

  /** Python truthiness of the cross-list code: `None` and `""` both count as absent. */
  predicate HasCrossCode(c: Course) {
    c.listasCruzadas.Some? && c.listasCruzadas.value != ""
  }

  function GroupKeyOf(c: Course): GroupKey {
    if HasCrossCode(c) then CrossList(c.listasCruzadas.value) else Single(c.id)
  }

  /** The dictionary key exactly as the source spells it. */
  function KeyText(k: GroupKey): string {
    match k
    case CrossList(code) => code
    case Single(id) => "single_" + NatToString(id)
  }

  /** A key that can arise from a stored row: a code is non-empty and fits its column. */
  predicate StorableKey(k: GroupKey) {
    k.CrossList? ==> 0 < |k.code| <= CROSS_LIST_MAX_LENGTH
  }

  /**
    The source's string keys never collide: a stored code has at most five characters
    while every `single_{id}` key has at least eight, and distinct ids render distinctly.
    So bucketing by `GroupKey` buckets exactly as the source's dictionary does.
  */
  lemma KeyTextInjective(k1: GroupKey, k2: GroupKey)
    requires StorableKey(k1) && StorableKey(k2)
    requires KeyText(k1) == KeyText(k2)
    ensures k1 == k2
  {
    if k1.Single? && k2.Single? {
      var prefix := "single_";
      assert NatToString(k1.id) == KeyText(k1)[|prefix|..];
      assert NatToString(k2.id) == KeyText(k2)[|prefix|..];
      NatToStringInjective(k1.id, k2.id);
    }
  }

  /** Every key computed from a table that respects the column length is storable. */
  lemma StoredRowsGiveStorableKeys(cs: seq<Course>)
    requires CrossCodesFit(cs)
    ensures forall i :: 0 <= i < |cs| ==> StorableKey(GroupKeyOf(cs[i]))
  {
  }

  // ---------------------------------------------------------------------------
  // The buckets, as a reference definition
  // ---------------------------------------------------------------------------

  /** The rows of bucket `k`, in input order. */
  function Members(cs: seq<Course>, k: GroupKey): (r: seq<Course>)
    ensures |r| <= |cs|
  {
    if |cs| == 0 then []
    else
      var last := cs[|cs| - 1];
      Members(cs[..|cs| - 1], k) + (if GroupKeyOf(last) == k then [last] else [])
  }

  /** A bucket holds exactly the input rows carrying its key. */
  lemma {:induction false} MembersExact(cs: seq<Course>, k: GroupKey)
    ensures forall c :: c in Members(cs, k) ==> c in cs && GroupKeyOf(c) == k
    ensures forall i :: 0 <= i < |cs| && GroupKeyOf(cs[i]) == k ==> cs[i] in Members(cs, k)
  {
    if |cs| > 0 {
      var init := cs[..|cs| - 1];
      MembersExact(init, k);
      assert cs == init + [cs[|cs| - 1]];
    }
  }

  function KeysPresent(cs: seq<Course>): set<GroupKey> {
    set i | 0 <= i < |cs| :: GroupKeyOf(cs[i])
  }

  /** The dictionary's keys in insertion order. */
  function Keys(cs: seq<Course>): seq<GroupKey> {
    if |cs| == 0 then []
    else
      var ks := Keys(cs[..|cs| - 1]);
      var k := GroupKeyOf(cs[|cs| - 1]);
      if k in ks then ks else ks + [k]
  }

  lemma MembersAppend(cs: seq<Course>, c: Course, k: GroupKey)
    ensures GroupKeyOf(c) == k ==> Members(cs + [c], k) == Members(cs, k) + [c]
    ensures GroupKeyOf(c) != k ==> Members(cs + [c], k) == Members(cs, k)
  {
    assert (cs + [c])[..|cs|] == cs;
    assert Members(cs, k) + [] == Members(cs, k);
  }

  /** A bucket is empty exactly when no row carries its key. */
  lemma MembersEmpty(cs: seq<Course>, k: GroupKey)
    ensures Members(cs, k) == [] <==> forall i :: 0 <= i < |cs| ==> GroupKeyOf(cs[i]) != k
  {
    MembersExact(cs, k);
    if Members(cs, k) != [] {
      assert Members(cs, k)[0] in Members(cs, k);
    }
  }

  /**
    The keys are listed once each, they are exactly the keys the rows carry, and a key
    is listed exactly when its bucket is non-empty.
  */
  lemma {:induction false} KeysFacts(cs: seq<Course>)
    ensures NoDup(Keys(cs))
    ensures Elems(Keys(cs)) == KeysPresent(cs)
    ensures forall k :: k in Keys(cs) <==> |Members(cs, k)| > 0
  {
    if |cs| > 0 {
      var init := cs[..|cs| - 1];
      var c := cs[|cs| - 1];
      KeysFacts(init);
      assert cs == init + [c];
      assert KeysPresent(cs) == KeysPresent(init) + {GroupKeyOf(c)} by {
        assert forall i :: 0 <= i < |init| ==> init[i] == cs[i];
      }
      forall k
        ensures k in Keys(cs) <==> |Members(cs, k)| > 0
      {
        MembersAppend(init, c, k);
      }
    }
  }

  /** The first row of a bucket is the first row of the input carrying that key. */
  lemma {:induction false} FirstMemberComesFirst(cs: seq<Course>, k: GroupKey, j: nat)
    requires j < |cs| && GroupKeyOf(cs[j]) == k
    requires forall i :: 0 <= i < j ==> GroupKeyOf(cs[i]) != k
    ensures |Members(cs, k)| > 0 && Members(cs, k)[0] == cs[j]
  {
    var init := cs[..|cs| - 1];
    assert cs == init + [cs[|cs| - 1]];
    MembersAppend(init, cs[|cs| - 1], k);
    if j < |cs| - 1 {
      FirstMemberComesFirst(init, k, j);
    } else {
      MembersEmpty(init, k);
    }
  }

  /**
    With unique primary keys, a row without a cross-list code is alone in its bucket.
  */
  lemma {:induction false} UncodedRowIsAlone(cs: seq<Course>, j: nat)
    requires UniqueIds(cs)
    requires j < |cs| && !HasCrossCode(cs[j])
    ensures Members(cs, GroupKeyOf(cs[j])) == [cs[j]]
  {
    var k := GroupKeyOf(cs[j]);
    var n := |cs|;
    var init := cs[..n - 1];
    assert UniqueIds(init);
    assert cs == init + [cs[n - 1]];
    MembersAppend(init, cs[n - 1], k);
    if j == n - 1 {
      MembersEmpty(init, k);
    } else {
      UncodedRowIsAlone(init, j);
      assert cs[n - 1].id != cs[j].id;
    }
  }

  // ---------------------------------------------------------------------------
  // Output rows
  // ---------------------------------------------------------------------------

  /**
    One row of the grouped result. `groupedCount` is present only on merged rows, like
    the `grouped_count` entry of the source's dictionaries.
  */
  datatype GroupedRow = GroupedRow(
    periodo: string,
    materia: string,
    clave: string,
    nrc: string,
    fechaInicio: Date,
    fechaFin: Date,
    hrCont: int,
    listasCruzadas: Option<string>,
    isGrouped: bool,
    groupedCount: Option<nat>)

  function SingleRow(c: Course): GroupedRow {
    GroupedRow(c.periodo, c.materia, c.clave, c.nrc, c.fechaInicio, c.fechaFin,
               c.hrCont, c.listasCruzadas, false, None)
  }

  /**
    The iteration order of a Python `set`, as a modelling choice: one order per set of
    names. CPython's order can also depend on how the set was built; the only property
    the model relies on is that every element is listed exactly once, so a result
    proved for every such `order` holds whichever order the set gives.
  */
  ghost predicate IsSetOrder(order: set<string> -> seq<string>) {
    forall names :: NoDup(order(names)) && Elems(order(names)) == names
  }

  function MateriaSet(cs: seq<Course>): set<string> {
    set c | c in cs :: c.materia
  }

  function Nrcs(cs: seq<Course>): (r: seq<string>)
    ensures |r| == |cs| && forall i :: 0 <= i < |cs| ==> r[i] == cs[i].nrc
  {
    if |cs| == 0 then [] else [cs[0].nrc] + Nrcs(cs[1..])
  }

  /** The sum of `w` over the rows (Python's `sum(w(c) for c in cs)`). */
  function Total(cs: seq<Course>, w: Course -> int): int {
    if |cs| == 0 then 0 else Total(cs[..|cs| - 1], w) + w(cs[|cs| - 1])
  }

  function HourWeight(c: Course): int {
    c.hrCont
  }

  function UnitWeight(c: Course): int {
    1
  }

  /** The merged row of a bucket with two or more rows. */
  function MergedRow(members: seq<Course>, order: set<string> -> seq<string>): GroupedRow
    requires |members| >= 2 && IsSetOrder(order)
  {
    var unique := order(MateriaSet(members));
    assert members[0].materia in Elems(unique);
    var materia := if |unique| == 1 then unique[0] else Join(unique, '/');
    var base := members[0];
    GroupedRow(base.periodo, materia, base.clave, Join(Nrcs(members), '/'),
               base.fechaInicio, base.fechaFin, Total(members, HourWeight),
               base.listasCruzadas, true, Some(|members|))
  }

  function GroupRow(members: seq<Course>, order: set<string> -> seq<string>): GroupedRow
    requires |members| >= 1 && IsSetOrder(order)
  {
    if |members| == 1 then SingleRow(members[0]) else MergedRow(members, order)
  }

  /** The reference result: one row per bucket, buckets in first-appearance order. */
  function Grouped(cs: seq<Course>, order: set<string> -> seq<string>): (rows: seq<GroupedRow>)
    requires IsSetOrder(order)
  {
    KeysFacts(cs);
    var ks := Keys(cs);
    seq(|ks|, i requires 0 <= i < |ks| => GroupRow(Members(cs, ks[i]), order))
  }

  /** One step of the first pass: appending a row to its bucket, opening it if new. */
  lemma BucketStep(cs: seq<Course>, c: Course,
                   keys: seq<GroupKey>, groups: map<GroupKey, seq<Course>>,
                   keys': seq<GroupKey>, groups': map<GroupKey, seq<Course>>)
    requires keys == Keys(cs)
    requires groups.Keys == Elems(keys)
    requires forall k :: k in groups ==> groups[k] == Members(cs, k)
    requires GroupKeyOf(c) in groups ==>
               keys' == keys && groups' == groups[GroupKeyOf(c) := groups[GroupKeyOf(c)] + [c]]
    requires GroupKeyOf(c) !in groups ==>
               keys' == keys + [GroupKeyOf(c)] && groups' == groups[GroupKeyOf(c) := [c]]
    ensures keys' == Keys(cs + [c])
    ensures groups'.Keys == Elems(keys')
    ensures forall k :: k in groups' ==> groups'[k] == Members(cs + [c], k)
  {
    var k := GroupKeyOf(c);
    assert (cs + [c])[..|cs|] == cs;
    assert k in groups <==> k in keys;
    assert groups'.Keys == Elems(keys') by {
      if k !in groups {
        assert Elems(keys') == Elems(keys) + {k};
      }
    }
    forall k' | k' in groups'
      ensures groups'[k'] == Members(cs + [c], k')
    {
      MembersAppend(cs, c, k');
      if k' == k && k !in groups {
        KeysFacts(cs);
        assert |Members(cs, k)| == 0;
      }
    }
  }

  /**
    The source's first pass: fill an insertion-ordered dictionary (`defaultdict(list)`)
    mapping each key to its rows.
  */
  method BucketRows(courses: seq<Course>)
    returns (keys: seq<GroupKey>, groups: map<GroupKey, seq<Course>>)
    ensures keys == Keys(courses)
    ensures groups.Keys == Elems(keys)
    ensures forall k :: k in groups ==> groups[k] == Members(courses, k)
  {
    keys := [];
    groups := map[];
    var i := 0;
    while i < |courses|
      invariant 0 <= i <= |courses|
      invariant keys == Keys(courses[..i])
      invariant groups.Keys == Elems(keys)
      invariant forall k :: k in groups ==> groups[k] == Members(courses[..i], k)
    {
      var c := courses[i];
      var k := GroupKeyOf(c);
      ghost var keys0, groups0 := keys, groups;
      if k in groups {
        groups := groups[k := groups[k] + [c]];
      } else {
        keys := keys + [k];
        groups := groups[k := [c]];
      }
      BucketStep(courses[..i], c, keys0, groups0, keys, groups);
      assert courses[..i + 1] == courses[..i] + [c];
      i := i + 1;
    }
    assert courses[..i] == courses;
  }

  /**
    The whole operation: bucket the rows, then turn every bucket, in key order, into
    one output row.
  */
  method GroupCourses(courses: seq<Course>, order: set<string> -> seq<string>)
    returns (rows: seq<GroupedRow>)
    requires IsSetOrder(order)
    ensures rows == Grouped(courses, order)
  {
    var keys, groups := BucketRows(courses);
    GroupedLength(courses, order);
    rows := [];
    var j := 0;
    while j < |keys|
      invariant 0 <= j <= |keys| == |Grouped(courses, order)|
      invariant |rows| == j && forall i :: 0 <= i < j ==> rows[i] == Grouped(courses, order)[i]
    {
      GroupedPrefixStep(courses, order, keys, groups, j);
      rows := rows + [GroupRow(groups[keys[j]], order)];
      j := j + 1;
    }
  }

  /** Output row `j` is the row made from bucket `keys[j]`. */
  lemma GroupedPrefixStep(courses: seq<Course>, order: set<string> -> seq<string>,
                          keys: seq<GroupKey>, groups: map<GroupKey, seq<Course>>, j: nat)
    requires IsSetOrder(order)
    requires keys == Keys(courses) && groups.Keys == Elems(keys)
    requires forall k :: k in groups ==> groups[k] == Members(courses, k)
    requires j < |keys|
    ensures keys[j] in groups && |groups[keys[j]]| >= 1
    ensures j < |Grouped(courses, order)| && Grouped(courses, order)[j] == GroupRow(groups[keys[j]], order)
  {
    GroupedAt(courses, order, j);
    assert keys[j] in Elems(keys);
  }

  // ---------------------------------------------------------------------------
  // Conservation: every input row is accounted for once, and hours add up
  // ---------------------------------------------------------------------------

  /** The sum of `rw` over the output rows. */
  function RowTotal(rows: seq<GroupedRow>, rw: GroupedRow -> int): int {
    if |rows| == 0 then 0 else RowTotal(rows[..|rows| - 1], rw) + rw(rows[|rows| - 1])
  }

  /** The contact hours a row reports. */
  function RowHours(r: GroupedRow): int {
    r.hrCont
  }

  /** How many input rows a row stands for: its `grouped_count`, or one. */
  function RowCount(r: GroupedRow): int {
    if r.isGrouped && r.groupedCount.Some? then r.groupedCount.value else 1
  }

  /** The sum of `w` over the buckets `ks`. */
  function KeyedTotal(ks: seq<GroupKey>, cs: seq<Course>, w: Course -> int): int {
    if |ks| == 0 then 0 else KeyedTotal(ks[..|ks| - 1], cs, w) + Total(Members(cs, ks[|ks| - 1]), w)
  }

  lemma TotalAppend(cs: seq<Course>, c: Course, w: Course -> int)
    ensures Total(cs + [c], w) == Total(cs, w) + w(c)
  {
    assert (cs + [c])[..|cs|] == cs;
  }

  lemma {:induction false} UnitTotal(cs: seq<Course>)
    ensures Total(cs, UnitWeight) == |cs|
  {
    if |cs| > 0 {
      UnitTotal(cs[..|cs| - 1]);
    }
  }

  lemma {:induction false} KeyedTotalStep(ks: seq<GroupKey>, cs: seq<Course>, c: Course, w: Course -> int)
    requires NoDup(ks)
    ensures KeyedTotal(ks, cs + [c], w) == KeyedTotal(ks, cs, w) + (if GroupKeyOf(c) in ks then w(c) else 0)
  {
    if |ks| > 0 {
      var init := ks[..|ks| - 1];
      var k := ks[|ks| - 1];
      var kc := GroupKeyOf(c);
      assert ks == init + [k];
      assert NoDup(init);
      assert (kc in ks) == (kc in init || kc == k);
      KeyedTotalStep(init, cs, c, w);
      MembersAppend(cs, c, k);
      var before := Total(Members(cs, k), w);
      var after := Total(Members(cs + [c], k), w);
      assert KeyedTotal(ks, cs + [c], w) == KeyedTotal(init, cs + [c], w) + after;
      assert KeyedTotal(ks, cs, w) == KeyedTotal(init, cs, w) + before;
      if kc == k {
        TotalAppend(Members(cs, k), c, w);
        assert kc !in init;
        assert after == before + w(c);
      } else {
        assert after == before;
      }
    }
  }

  /** Summing bucket by bucket gives the sum over the input. */
  lemma {:induction false} KeyedTotalOfKeys(cs: seq<Course>, w: Course -> int)
    ensures KeyedTotal(Keys(cs), cs, w) == Total(cs, w)
  {
    if |cs| > 0 {
      var init := cs[..|cs| - 1];
      var c := cs[|cs| - 1];
      var k := GroupKeyOf(c);
      assert cs == init + [c];
      KeyedTotalOfKeys(init, w);
      KeysFacts(init);
      KeyedTotalStep(Keys(init), init, c, w);
      if k !in Keys(init) {
        var ks := Keys(init) + [k];
        assert ks[..|ks| - 1] == Keys(init);
        MembersAppend(init, c, k);
        TotalAppend([], c, w);
      }
    }
  }

  lemma {:induction false} RowTotalMatches(rows: seq<GroupedRow>, ks: seq<GroupKey>, cs: seq<Course>,
                                           rw: GroupedRow -> int, w: Course -> int)
    requires |rows| == |ks|
    requires forall i :: 0 <= i < |rows| ==> rw(rows[i]) == Total(Members(cs, ks[i]), w)
    ensures RowTotal(rows, rw) == KeyedTotal(ks, cs, w)
  {
    if |rows| > 0 {
      RowTotalMatches(rows[..|rows| - 1], ks[..|ks| - 1], cs, rw, w);
    }
  }

  lemma GroupedLength(cs: seq<Course>, order: set<string> -> seq<string>)
    requires IsSetOrder(order)
    ensures |Grouped(cs, order)| == |Keys(cs)|
  {
  }

  /** Grouping gives some row exactly when there is some row to group. */
  lemma GroupedNonEmpty(cs: seq<Course>, order: set<string> -> seq<string>)
    requires IsSetOrder(order)
    ensures |Grouped(cs, order)| > 0 <==> |cs| > 0
  {
    KeysFacts(cs);
    if |cs| > 0 {
      MembersExact(cs, GroupKeyOf(cs[0]));
      assert cs[0] in Members(cs, GroupKeyOf(cs[0]));
      assert GroupKeyOf(cs[0]) in Keys(cs);
    } else {
      assert forall k :: Members(cs, k) == [];
    }
  }

  /** Row `i` of the result is the row of bucket `Keys(cs)[i]`, which is non-empty. */
  lemma GroupedAt(cs: seq<Course>, order: set<string> -> seq<string>, i: nat)
    requires IsSetOrder(order)
    requires i < |Keys(cs)|
    ensures |Grouped(cs, order)| == |Keys(cs)|
    ensures |Members(cs, Keys(cs)[i])| >= 1
    ensures Grouped(cs, order)[i] == GroupRow(Members(cs, Keys(cs)[i]), order)
  {
    KeysFacts(cs);
  }

  /** Any per-row measure that a row inherits additively from its bucket is conserved. */
  lemma GroupedTotal(cs: seq<Course>, order: set<string> -> seq<string>, rw: GroupedRow -> int, w: Course -> int)
    requires IsSetOrder(order)
    requires forall m :: |m| >= 1 ==> rw(GroupRow(m, order)) == Total(m, w)
    ensures RowTotal(Grouped(cs, order), rw) == Total(cs, w)
  {
    var rows := Grouped(cs, order);
    var ks := Keys(cs);
    forall i | 0 <= i < |rows|
      ensures rw(rows[i]) == Total(Members(cs, ks[i]), w)
    {
      GroupedAt(cs, order, i);
    }
    RowTotalMatches(rows, ks, cs, rw, w);
    KeyedTotalOfKeys(cs, w);
  }

  lemma GroupRowWeights(m: seq<Course>, order: set<string> -> seq<string>)
    requires |m| >= 1 && IsSetOrder(order)
    ensures RowHours(GroupRow(m, order)) == Total(m, HourWeight)
    ensures RowCount(GroupRow(m, order)) == Total(m, UnitWeight)
  {
    UnitTotal(m);
    if |m| == 1 {
      assert m[..0] == [];
    }
  }

  /** The hours reported over the output equal the hours over the input. */
  lemma HoursConserved(cs: seq<Course>, order: set<string> -> seq<string>)
    requires IsSetOrder(order)
    ensures RowTotal(Grouped(cs, order), RowHours) == Total(cs, HourWeight)
  {
    forall m | |m| >= 1
      ensures RowHours(GroupRow(m, order)) == Total(m, HourWeight)
    {
      GroupRowWeights(m, order);
    }
    GroupedTotal(cs, order, RowHours, HourWeight);
  }

  /** The output rows stand for every input row exactly once. */
  lemma EveryRowCountedOnce(cs: seq<Course>, order: set<string> -> seq<string>)
    requires IsSetOrder(order)
    ensures RowTotal(Grouped(cs, order), RowCount) == |cs|
  {
    forall m | |m| >= 1
      ensures RowCount(GroupRow(m, order)) == Total(m, UnitWeight)
    {
      GroupRowWeights(m, order);
    }
    GroupedTotal(cs, order, RowCount, UnitWeight);
    UnitTotal(cs);
  }

  // ---------------------------------------------------------------------------
  // The shape of each output row
  // ---------------------------------------------------------------------------

  /**
    Row `i` answers for bucket `Keys(cs)[i]`: a one-row bucket is copied verbatim and
    marked not grouped; a larger bucket gives a grouped row whose count is the bucket
    size and whose term, subject code, dates and cross-list code are those of the
    bucket's first row in input order.
  */
  lemma RowOfBucket(cs: seq<Course>, order: set<string> -> seq<string>, i: nat, j: nat)
    requires IsSetOrder(order)
    requires i < |Keys(cs)|
    requires j < |cs| && GroupKeyOf(cs[j]) == Keys(cs)[i]
    requires forall i' :: 0 <= i' < j ==> GroupKeyOf(cs[i']) != Keys(cs)[i]
    ensures var m := Members(cs, Keys(cs)[i]);
            var r := Grouped(cs, order)[i];
            && (|m| == 1 ==> r == SingleRow(cs[j]) && !r.isGrouped)
            && (|m| >= 2 ==> r.isGrouped && r.groupedCount == Some(|m|)
                             && r.periodo == cs[j].periodo && r.clave == cs[j].clave
                             && r.fechaInicio == cs[j].fechaInicio && r.fechaFin == cs[j].fechaFin
                             && r.listasCruzadas == cs[j].listasCruzadas)
  {
    FirstMemberComesFirst(cs, Keys(cs)[i], j);
  }

  /**
    The reference numbers of a merged row list its members' numbers in input order,
    duplicates kept: splitting at '/' recovers them when no number contains '/'.
  */
  lemma MergedNrcsInInputOrder(members: seq<Course>, order: set<string> -> seq<string>)
    requires |members| >= 2 && IsSetOrder(order)
    requires forall c :: c in members ==> '/' !in c.nrc
    ensures Split(MergedRow(members, order).nrc, '/') == Nrcs(members)
  {
    assert MergedRow(members, order).nrc == Join(Nrcs(members), '/');
    SplitJoin(Nrcs(members), '/');
  }

  /**
    The subject of a merged row is the shared name when all members share it, and
    otherwise every distinct name exactly once, joined with '/' in set order.
  */
  lemma MergedMateria(members: seq<Course>, order: set<string> -> seq<string>)
    requires |members| >= 2 && IsSetOrder(order)
    ensures (forall c :: c in members ==> c.materia == members[0].materia) ==>
              MergedRow(members, order).materia == members[0].materia
    ensures exists names :: NoDup(names) && Elems(names) == MateriaSet(members)
                            && MergedRow(members, order).materia == Join(names, '/')
    ensures (forall c :: c in members ==> '/' !in c.materia) ==>
              var parts := Split(MergedRow(members, order).materia, '/');
              NoDup(parts) && Elems(parts) == MateriaSet(members)
  {
    var unique := order(MateriaSet(members));
    assert NoDup(unique) && Elems(unique) == MateriaSet(members);
    if forall c :: c in members ==> c.materia == members[0].materia {
      assert MateriaSet(members) == {members[0].materia};
      SingletonListing(unique, members[0].materia);
    }
    if |unique| == 1 {
      assert Join(unique, '/') == unique[0];
    }
    assert MergedRow(members, order).materia == Join(unique, '/');
    if forall c :: c in members ==> '/' !in c.materia {
      assert members[0].materia in Elems(unique);
      forall i | 0 <= i < |unique|
        ensures '/' !in unique[i]
      {
        assert unique[i] in MateriaSet(members);
      }
      SplitJoin(unique, '/');
    }
  }

  // ---------------------------------------------------------------------------
  // Whole-input consequences
  // ---------------------------------------------------------------------------

  lemma {:induction false} KeysOfDistinctKeys(cs: seq<Course>)
    requires forall i, j :: 0 <= i < j < |cs| ==> GroupKeyOf(cs[i]) != GroupKeyOf(cs[j])
    ensures Keys(cs) == seq(|cs|, i requires 0 <= i < |cs| => GroupKeyOf(cs[i]))
  {
    if |cs| > 0 {
      var init := cs[..|cs| - 1];
      KeysOfDistinctKeys(init);
      KeysFacts(init);
      assert GroupKeyOf(cs[|cs| - 1]) !in KeysPresent(init);
    }
  }

  /** Without cross-list codes, every input row becomes one ungrouped output row. */
  lemma NoCrossCodesOneRowEach(cs: seq<Course>, order: set<string> -> seq<string>)
    requires IsSetOrder(order)
    requires UniqueIds(cs)
    requires forall i :: 0 <= i < |cs| ==> !HasCrossCode(cs[i])
    ensures Grouped(cs, order) == seq(|cs|, i requires 0 <= i < |cs| => SingleRow(cs[i]))
  {
    KeysOfDistinctKeys(cs);
    forall i | 0 <= i < |cs|
      ensures Grouped(cs, order)[i] == SingleRow(cs[i])
    {
      UncodedRowIsAlone(cs, i);
    }
  }

  lemma {:induction false} MembersOfCommonKey(cs: seq<Course>, k: GroupKey)
    requires forall i :: 0 <= i < |cs| ==> GroupKeyOf(cs[i]) == k
    ensures Members(cs, k) == cs
  {
    if |cs| > 0 {
      MembersOfCommonKey(cs[..|cs| - 1], k);
      assert cs == cs[..|cs| - 1] + [cs[|cs| - 1]];
    }
  }

  /**
    Two or more rows sharing one non-empty cross-list code become a single grouped row
    standing for all of them, with their hours summed.
  */
  lemma SharedCodeOneRow(cs: seq<Course>, code: string, order: set<string> -> seq<string>)
    requires IsSetOrder(order)
    requires |cs| >= 2 && code != ""
    requires forall i :: 0 <= i < |cs| ==> cs[i].listasCruzadas == Some(code)
    ensures |Grouped(cs, order)| == 1
    ensures var r := Grouped(cs, order)[0];
            r.isGrouped && r.groupedCount == Some(|cs|) && r.hrCont == Total(cs, HourWeight)
  {
    var k := CrossList(code);
    KeysFacts(cs);
    assert KeysPresent(cs) == {k} by {
      assert GroupKeyOf(cs[0]) == k;
    }
    SingletonListing(Keys(cs), k);
    MembersOfCommonKey(cs, k);
  }

  /** A listing of a two-element set is one of its two orders. */
  lemma TwoListing(xs: seq<string>, a: string, b: string)
    requires a != b
    requires NoDup(xs) && Elems(xs) == {a, b}
    ensures xs == [a, b] || xs == [b, a]
  {
    NoDupCard(xs);
    assert xs[0] in Elems(xs) && xs[1] in Elems(xs);
  }

  /**
    A worked example: sections A1 and A2 cross-listed as "Z9" (Physics, 3 hours;
    Lab, 1 hour) and an uncoded Calculus section A3 (4 hours).
  */
  const ExampleDate := Date(2025, 1, 13)
  const ExampleA1 := Course(1, "X1", "X", "202525", "Physics", "FIS101", "A1", ExampleDate, ExampleDate, 3, Some("Z9"))
  const ExampleA2 := Course(2, "X1", "X", "202525", "Lab", "FIS102", "A2", ExampleDate, ExampleDate, 1, Some("Z9"))
  const ExampleA3 := Course(3, "X1", "X", "202525", "Calculus", "MAT101", "A3", ExampleDate, ExampleDate, 4, None)

  lemma ExampleKeys()
    ensures Keys([ExampleA1, ExampleA2, ExampleA3]) == [CrossList("Z9"), Single(3)]
  {
    var a1, a2, a3 := ExampleA1, ExampleA2, ExampleA3;
    assert [a1, a2, a3][..2] == [a1, a2] && [a1, a2][..1] == [a1] && [a1][..0] == [];
    assert GroupKeyOf(a1) == CrossList("Z9") && GroupKeyOf(a2) == CrossList("Z9");
    assert GroupKeyOf(a3) == Single(3);
    assert Keys([a1]) == [CrossList("Z9")];
    assert Keys([a1, a2]) == [CrossList("Z9")];
  }

  /** The bucket of `k` in the three example rows, given which of them carry `k`. */
  lemma ExampleBucket(k: GroupKey)
    ensures Members([ExampleA1, ExampleA2, ExampleA3], k) ==
              (if GroupKeyOf(ExampleA1) == k then [ExampleA1] else []) +
              (if GroupKeyOf(ExampleA2) == k then [ExampleA2] else []) +
              (if GroupKeyOf(ExampleA3) == k then [ExampleA3] else [])
  {
    var a1, a2, a3 := ExampleA1, ExampleA2, ExampleA3;
    var s1 := [a1];
    var s2 := s1 + [a2];
    var s3 := s2 + [a3];
    assert s3 == [a1, a2, a3];
    MembersAppend([], a1, k);
    assert [] + [a1] == s1;
    MembersAppend(s1, a2, k);
    MembersAppend(s2, a3, k);
  }

  lemma ExampleCrossMembers()
    ensures Members([ExampleA1, ExampleA2, ExampleA3], CrossList("Z9")) == [ExampleA1, ExampleA2]
  {
    ExampleBucket(CrossList("Z9"));
  }

  lemma ExampleSingleMembers()
    ensures Members([ExampleA1, ExampleA2, ExampleA3], Single(3)) == [ExampleA3]
  {
    ExampleBucket(Single(3));
  }

  lemma ExampleMateriaSet()
    ensures MateriaSet([ExampleA1, ExampleA2]) == {"Physics", "Lab"}
  {
    assert ExampleA1 in [ExampleA1, ExampleA2] && ExampleA2 in [ExampleA1, ExampleA2];
  }

  lemma JoinPair(a: string, b: string, sep: char)
    ensures Join([a, b], sep) == a + [sep] + b
  {
    assert [a, b][1..] == [b];
  }

  lemma ExampleMateria(order: set<string> -> seq<string>)
    requires IsSetOrder(order)
    ensures var names := order(MateriaSet([ExampleA1, ExampleA2]));
            |names| == 2 &&
            (Join(names, '/') == "Physics/Lab" || Join(names, '/') == "Lab/Physics")
  {
    var names := order(MateriaSet([ExampleA1, ExampleA2]));
    ExampleMateriaSet();
    TwoListing(names, "Physics", "Lab");
    JoinPair(names[0], names[1], '/');
    assert names == [names[0], names[1]];
  }

  lemma ExampleNrcsAndHours()
    ensures Join(Nrcs([ExampleA1, ExampleA2]), '/') == "A1/A2"
    ensures Total([ExampleA1, ExampleA2], HourWeight) == 4
  {
    var a1, a2 := ExampleA1, ExampleA2;
    assert Nrcs([a1, a2]) == ["A1", "A2"];
    assert Join(["A1", "A2"], '/') == "A1/A2";
    assert [a1, a2][..1] == [a1] && [a1][..0] == [];
    assert Total([a1], HourWeight) == 3;
  }

  lemma ExampleMergedRow(order: set<string> -> seq<string>)
    requires IsSetOrder(order)
    ensures var r := MergedRow([ExampleA1, ExampleA2], order);
            && r.isGrouped && r.groupedCount == Some(2)
            && r.nrc == "A1/A2" && r.hrCont == 4
            && (r.materia == "Physics/Lab" || r.materia == "Lab/Physics")
  {
    ExampleMateria(order);
    ExampleNrcsAndHours();
  }

  /** The example groups into exactly two rows: one merged, one verbatim. */
  lemma CrossListedExample(order: set<string> -> seq<string>)
    requires IsSetOrder(order)
    ensures var rows := Grouped([ExampleA1, ExampleA2, ExampleA3], order);
            && |rows| == 2
            && rows[0].isGrouped && rows[0].groupedCount == Some(2)
            && rows[0].nrc == "A1/A2" && rows[0].hrCont == 4
            && (rows[0].materia == "Physics/Lab" || rows[0].materia == "Lab/Physics")
            && rows[1] == SingleRow(ExampleA3) && !rows[1].isGrouped && rows[1].hrCont == 4
  {
    var cs := [ExampleA1, ExampleA2, ExampleA3];
    ExampleKeys();
    ExampleCrossMembers();
    ExampleSingleMembers();
    GroupedAt(cs, order, 0);
    GroupedAt(cs, order, 1);
    ExampleMergedRow(order);
  }
}

=== FILE: importing.dfy ===
/**
  The course-history import: the header check, the per-row normalisation of
  spreadsheet cells into course values, and the loop that upserts every accepted
  row and reports the rest by spreadsheet line. Cells are abstract: the library
  conversions (date parsing, `float()` on text) are parameters.
*/
module Importing {
  import opened Results
  import opened Text
  import opened Courses

  /** A cell as the spreadsheet reader hands it over. `shown` is its `str()` form. */
  datatype Cell =
    | Missing                              // an empty cell, NaN or NaT
    | Text(text: string)
    | Number(value: real, shown: string)   // a finite number
    | Timestamp(date: Date, shown: string)

  /**
    The library conversions: the reader's date coercion (`None` where it yields
    NaT), and `float()` on text (`None` where it raises, or where the value is not
    finite, which makes the following `int()` raise).
  */
  datatype Coercions = Coercions(toDate: Cell -> Option<Date>, parseFloat: string -> Option<real>)

  /** A spreadsheet row, keyed by the stripped column heading. */
  type Row = map<string, Cell>

  function Field(row: Row, column: string): Cell {
    if column in row then row[column] else Missing
  }

  // ---------------------------------------------------------------------------
  // Headings
  // ---------------------------------------------------------------------------

  /** Spreadsheet heading and course field, in the order the import walks them. */
  const COLUMN_MAPPING: seq<(string, string)> := [
    ("ID_Docente", "id_docente"), ("Profesor", "profesor"), ("Periodo", "periodo"),
    ("Materia", "materia"), ("Clave", "clave"), ("NRC", "nrc"),
    ("Fecha_Inicio", "fecha_inicio"), ("Fecha_Fin", "fecha_fin"), ("Hr_Cont", "hr_cont"),
    ("Listas_cruzadas", "listas_cruzadas")]

  /** Every pair but the last: the cross-list column is the only optional one. */
  const REQUIRED_COLUMNS: seq<(string, string)> := COLUMN_MAPPING[..9]

  /** The headings with surrounding whitespace removed. */
  function Headings(columns: seq<string>): (h: seq<string>)
    ensures |h| == |columns| && forall i :: 0 <= i < |h| ==> h[i] == Strip(columns[i])
  {
    seq(|columns|, i requires 0 <= i < |columns| => Strip(columns[i]))
  }

  /** The fields of `pairs` whose heading is not among `headings`, in order. */
  function MissingFields(pairs: seq<(string, string)>, headings: seq<string>): (missing: seq<string>)
    ensures |missing| <= |pairs|
    ensures forall f :: f in missing <==> exists k :: 0 <= k < |pairs| && pairs[k].1 == f && pairs[k].0 !in headings
  {
    if |pairs| == 0 then []
    else
      var rest := MissingFields(pairs[1..], headings);
      assert forall k :: 1 <= k < |pairs| ==> pairs[k] == pairs[1..][k - 1];
      (if pairs[0].0 !in headings then [pairs[0].1] else []) + rest
  }

  // ---------------------------------------------------------------------------
  // One row
  // ---------------------------------------------------------------------------

  datatype RowError =
    | MissingDate(field: string)
    | InvalidDate(field: string)
    | MissingValue(field: string)
    | InvalidNumber(field: string)

  /** Python's `int()` on a float: truncation toward zero. */
  function Trunc(v: real): (n: int)
    ensures v >= 0.0 ==> 0 <= n && n as real <= v < n as real + 1.0
    ensures v < 0.0 ==> n <= 0 && n as real - 1.0 < v <= n as real
  {
    if v >= 0.0 then v.Floor else -((-v).Floor)
  }

  /** What `str()` gives for a present cell. */
  function Shown(c: Cell): string
    requires !c.Missing?
  {
    match c
    case Text(t) => t
    case Number(_, s) => s
    case Timestamp(_, s) => s
  }

  /** A text column: the stripped `str()` form, with a blank value stored as null. */
  function TextValue(c: Cell): (r: Option<string>)
    ensures c.Missing? ==> r.None?
    ensures r.Some? ==> |r.value| > 0 && IsStripped(r.value)
    ensures c.Text? ==> (r.Some? <==> exists k :: 0 <= k < |c.text| && !IsSpace(c.text[k]))
    ensures c.Text? && r.Some? ==> r.value == Strip(c.text)
    ensures (c.Number? || c.Timestamp?) && r.Some? ==> r.value == Strip(c.shown)
  {
    if c.Missing? then None
    else
      var shown := Shown(c);
      StripIdempotent(shown);
      StripEmptyIffBlank(shown);
      var s := Strip(shown);
      if |s| > 0 then Some(s) else None
  }

  /** Normalising a stored text value again gives it back. */
  lemma TextValueStable(c: Cell)
    requires TextValue(c).Some?
    ensures TextValue(Text(TextValue(c).value)) == TextValue(c)
  {
    StripIdempotent(TextValue(c).value);
  }

  /** A date column: a missing cell and a cell the coercion rejects are both errors. */
  function DateValue(c: Cell, co: Coercions, field: string): (r: Result<Date, RowError>)
    ensures c.Missing? ==> r == Err(MissingDate(field))
    ensures !c.Missing? ==> (r.Ok? <==> co.toDate(c).Some?)
    ensures !c.Missing? && r.Err? ==> r.error == InvalidDate(field)
    ensures r.Ok? ==> r.value == co.toDate(c).value
  {
    if c.Missing? then Err(MissingDate(field))
    else match co.toDate(c)
      case Some(d) => Ok(d)
      case None => Err(InvalidDate(field))
  }

  /** The hours column: `int(float(value))`; a date there cannot be converted. */
  function HoursValue(c: Cell, co: Coercions): (r: Result<int, RowError>)
    ensures c.Missing? ==> r == Err(MissingValue("hr_cont"))
    ensures c.Timestamp? ==> r == Err(InvalidNumber("hr_cont"))
    ensures c.Number? ==> r == Ok(Trunc(c.value))
    ensures c.Text? ==> (r.Ok? <==> co.parseFloat(c.text).Some?)
    ensures c.Text? && r.Ok? ==> r.value == Trunc(co.parseFloat(c.text).value)
    ensures c.Text? && r.Err? ==> r.error == InvalidNumber("hr_cont")
  {
    match c
    case Missing => Err(MissingValue("hr_cont"))
    case Number(v, _) => Ok(Trunc(v))
    case Timestamp(_, _) => Err(InvalidNumber("hr_cont"))
    case Text(t) =>
      match co.parseFloat(t)
      case Some(v) => Ok(Trunc(v))
      case None => Err(InvalidNumber("hr_cont"))
  }

  /** Every value of a row converts and every required text column is non-blank. */
  predicate Acceptable(row: Row, co: Coercions) {
    && TextValue(Field(row, "ID_Docente")).Some?
    && TextValue(Field(row, "Profesor")).Some?
    && TextValue(Field(row, "Periodo")).Some?
    && TextValue(Field(row, "Materia")).Some?
    && TextValue(Field(row, "Clave")).Some?
    && TextValue(Field(row, "NRC")).Some?
    && DateValue(Field(row, "Fecha_Inicio"), co, "fecha_inicio").Ok?
    && DateValue(Field(row, "Fecha_Fin"), co, "fecha_fin").Ok?
    && HoursValue(Field(row, "Hr_Cont"), co).Ok?
  }

  /**
    The values of one row. Conversions run in column order, so a date or hours
    error is reported ahead of a blank text column; blank text columns are then
    reported in column order. The cross-list value is only supplied when the
    file has that column.
  */
  function NormaliseRow(row: Row, hasCrossList: bool, co: Coercions): (r: Result<CourseFields, RowError>)
    ensures r.Ok? <==> Acceptable(row, co)
    ensures DateValue(Field(row, "Fecha_Inicio"), co, "fecha_inicio").Err? ==>
              r == Err(DateValue(Field(row, "Fecha_Inicio"), co, "fecha_inicio").error)
    ensures DateValue(Field(row, "Fecha_Inicio"), co, "fecha_inicio").Ok? && DateValue(Field(row, "Fecha_Fin"), co, "fecha_fin").Err? ==>
              r == Err(DateValue(Field(row, "Fecha_Fin"), co, "fecha_fin").error)
    ensures DateValue(Field(row, "Fecha_Inicio"), co, "fecha_inicio").Ok? && DateValue(Field(row, "Fecha_Fin"), co, "fecha_fin").Ok? &&
            HoursValue(Field(row, "Hr_Cont"), co).Err? ==>
              r == Err(HoursValue(Field(row, "Hr_Cont"), co).error)
    ensures r.Ok? ==>
              && Some(r.value.idDocente) == TextValue(Field(row, "ID_Docente"))
              && Some(r.value.profesor) == TextValue(Field(row, "Profesor"))
              && Some(r.value.periodo) == TextValue(Field(row, "Periodo"))
              && Some(r.value.materia) == TextValue(Field(row, "Materia"))
              && Some(r.value.clave) == TextValue(Field(row, "Clave"))
              && Some(r.value.nrc) == TextValue(Field(row, "NRC"))
              && Ok(r.value.hrCont) == HoursValue(Field(row, "Hr_Cont"), co)
              && r.value.listasCruzadas == (if hasCrossList then Some(TextValue(Field(row, "Listas_cruzadas"))) else None)
    ensures r.Ok? ==> IsStripped(r.value.idDocente) && IsStripped(r.value.nrc) && IsStripped(r.value.periodo)
  {
    var idDocente := TextValue(Field(row, "ID_Docente"));
    var profesor := TextValue(Field(row, "Profesor"));
    var periodo := TextValue(Field(row, "Periodo"));
    var materia := TextValue(Field(row, "Materia"));
    var clave := TextValue(Field(row, "Clave"));
    var nrc := TextValue(Field(row, "NRC"));
    var cross := if hasCrossList then Some(TextValue(Field(row, "Listas_cruzadas"))) else None;
    match DateValue(Field(row, "Fecha_Inicio"), co, "fecha_inicio")
    case Err(e) => Err(e)
    case Ok(start) =>
      match DateValue(Field(row, "Fecha_Fin"), co, "fecha_fin")
      case Err(e) => Err(e)
      case Ok(end) =>
        match HoursValue(Field(row, "Hr_Cont"), co)
        case Err(e) => Err(e)
        case Ok(hours) =>
          if idDocente.None? then Err(MissingValue("id_docente"))
          else if profesor.None? then Err(MissingValue("profesor"))
          else if periodo.None? then Err(MissingValue("periodo"))
          else if materia.None? then Err(MissingValue("materia"))
          else if clave.None? then Err(MissingValue("clave"))
          else if nrc.None? then Err(MissingValue("nrc"))
          else
            Ok(CourseFields(idDocente.value, profesor.value, periodo.value, materia.value, clave.value,
                            nrc.value, start, end, hours, cross))
  }

  // ---------------------------------------------------------------------------
  // The import loop
  // ---------------------------------------------------------------------------

  /** What normalisation makes of a row: its values, or the error that rejects it. */
  type Verdict = Result<CourseFields, RowError>

  function Verdicts(rows: seq<Row>, hasCrossList: bool, co: Coercions): (vs: seq<Verdict>)
    ensures |vs| == |rows| && forall i :: 0 <= i < |rows| ==> vs[i] == NormaliseRow(rows[i], hasCrossList, co)
  {
    seq(|rows|, i requires 0 <= i < |rows| => NormaliseRow(rows[i], hasCrossList, co))
  }

  /** New rows, updated rows, and each rejected row's spreadsheet line with its error. */
  datatype Report = Report(imported: nat, updated: nat, errors: seq<(nat, RowError)>)

  /** One row: a rejected row is reported with its line, an accepted one is upserted and counted. */
  function ImportRow(t: CourseTable, report: Report, v: Verdict, line: nat): (r: (CourseTable, Report))
    requires Valid(t)
    ensures Valid(r.0)
    ensures r.1.imported + r.1.updated + |r.1.errors| == report.imported + report.updated + |report.errors| + 1
    ensures |r.0.rows| - r.1.imported == |t.rows| - report.imported
    ensures v.Err? ==> r.1.errors == report.errors + [(line, v.error)] && r.0 == t
    ensures v.Ok? ==> r.1.errors == report.errors && KeySet(r.0.rows) == KeySet(t.rows) + {FieldsKey(v.value)}
    ensures v.Ok? ==> (r.1.imported == report.imported + 1 <==> FieldsKey(v.value) !in KeySet(t.rows))
  {
    match v
    case Err(e) => (t, report.(errors := report.errors + [(line, e)]))
    case Ok(f) =>
      var (after, created) := Upsert(t, f);
      if created then (after, report.(imported := report.imported + 1))
      else (after, report.(updated := report.updated + 1))
  }

  /** The verdicts applied in order; verdict `k` belongs to spreadsheet line `k + 2`, below the heading. */
  function Apply(t: CourseTable, vs: seq<Verdict>): (r: (CourseTable, Report))
    requires Valid(t)
    ensures Valid(r.0)
    ensures r.1.imported + r.1.updated + |r.1.errors| == |vs|
    ensures |r.0.rows| == |t.rows| + r.1.imported
    decreases |vs|
  {
    if |vs| == 0 then (t, Report(0, 0, []))
    else
      var n := |vs| - 1;
      var (before, report) := Apply(t, vs[..n]);
      ImportRow(before, report, vs[n], n + 2)
  }

  /** The rows normalised, then applied to the table in order. */
  function ImportAll(t: CourseTable, rows: seq<Row>, hasCrossList: bool, co: Coercions): (r: (CourseTable, Report))
    requires Valid(t)
    ensures Valid(r.0)
    ensures r.1.imported + r.1.updated + |r.1.errors| == |rows|
    ensures |r.0.rows| == |t.rows| + r.1.imported
  {
    Apply(t, Verdicts(rows, hasCrossList, co))
  }

  /** The error report of a verdict sequence: each rejection with its line, in order. */
  function Errors(vs: seq<Verdict>): (errors: seq<(nat, RowError)>)
    decreases |vs|
  {
    if |vs| == 0 then []
    else
      var n := |vs| - 1;
      Errors(vs[..n]) + if vs[n].Err? then [(n + 2, vs[n].error)] else []
  }

  /** Each error names a rejected verdict by its line, in line order. */
  lemma {:induction false} ErrorsNameRejected(vs: seq<Verdict>)
    ensures forall k :: 0 <= k < |Errors(vs)| ==>
              2 <= Errors(vs)[k].0 < |vs| + 2 && vs[Errors(vs)[k].0 - 2] == Err(Errors(vs)[k].1)
    ensures forall k :: 0 < k < |Errors(vs)| ==> Errors(vs)[k - 1].0 < Errors(vs)[k].0
    decreases |vs|
  {
    if |vs| > 0 {
      var n := |vs| - 1;
      ErrorsNameRejected(vs[..n]);
      var before := Errors(vs[..n]);
      assert forall k :: 0 <= k < |before| ==> vs[..n][before[k].0 - 2] == vs[before[k].0 - 2];
    }
  }

  /** The import reports exactly the rejections, whatever the table holds. */
  lemma {:induction false} ApplyReportsErrors(t: CourseTable, vs: seq<Verdict>)
    requires Valid(t)
    ensures Apply(t, vs).1.errors == Errors(vs)
    decreases |vs|
  {
    if |vs| > 0 {
      ApplyReportsErrors(t, vs[..|vs| - 1]);
    }
  }

  /** The keys of the accepted verdicts. */
  function AcceptedKeys(vs: seq<Verdict>): set<CourseKey>
    decreases |vs|
  {
    if |vs| == 0 then {}
    else
      var n := |vs| - 1;
      AcceptedKeys(vs[..n]) + if vs[n].Ok? then {FieldsKey(vs[n].value)} else {}
  }

  /** After an import the table holds every key it held before and every accepted key. */
  lemma {:induction false} ApplyStoresAccepted(t: CourseTable, vs: seq<Verdict>)
    requires Valid(t)
    ensures KeySet(Apply(t, vs).0.rows) == KeySet(t.rows) + AcceptedKeys(vs)
    decreases |vs|
  {
    if |vs| > 0 {
      ApplyStoresAccepted(t, vs[..|vs| - 1]);
    }
  }

  /** When every accepted key is already stored, the import creates nothing. */
  lemma {:induction false} KnownKeysOnlyUpdate(t: CourseTable, vs: seq<Verdict>)
    requires Valid(t) && AcceptedKeys(vs) <= KeySet(t.rows)
    ensures Apply(t, vs).1.imported == 0
    decreases |vs|
  {
    if |vs| > 0 {
      var n := |vs| - 1;
      KnownKeysOnlyUpdate(t, vs[..n]);
      ApplyStoresAccepted(t, vs[..n]);
    }
  }

  /** Importing the same file twice: the second pass creates nothing and updates every accepted row. */
  lemma ReimportOnlyUpdates(t: CourseTable, rows: seq<Row>, hasCrossList: bool, co: Coercions)
    requires Valid(t)
    ensures ImportAll(ImportAll(t, rows, hasCrossList, co).0, rows, hasCrossList, co).1.imported == 0
    ensures ImportAll(ImportAll(t, rows, hasCrossList, co).0, rows, hasCrossList, co).1.updated ==
              ImportAll(t, rows, hasCrossList, co).1.imported + ImportAll(t, rows, hasCrossList, co).1.updated
    ensures |ImportAll(ImportAll(t, rows, hasCrossList, co).0, rows, hasCrossList, co).0.rows| ==
              |ImportAll(t, rows, hasCrossList, co).0.rows|
  {
    var vs := Verdicts(rows, hasCrossList, co);
    var t1 := Apply(t, vs).0;
    ApplyStoresAccepted(t, vs);
    KnownKeysOnlyUpdate(t1, vs);
    ApplyReportsErrors(t, vs);
    ApplyReportsErrors(t1, vs);
  }

  /** The whole import: it is refused, naming the missing fields, when a required heading is absent. */
  function Import(t: CourseTable, columns: seq<string>, rows: seq<Row>, co: Coercions): (r: Result<(CourseTable, Report), seq<string>>)
    requires Valid(t)
    ensures r.Err? <==> exists k :: 0 <= k < |REQUIRED_COLUMNS| && REQUIRED_COLUMNS[k].0 !in Headings(columns)
    ensures r.Err? ==> |r.error| > 0
    ensures r.Err? ==> forall f :: f in r.error <==>
              exists k :: 0 <= k < |REQUIRED_COLUMNS| && REQUIRED_COLUMNS[k].1 == f && REQUIRED_COLUMNS[k].0 !in Headings(columns)
    ensures r.Ok? ==> r.value == ImportAll(t, rows, "Listas_cruzadas" in Headings(columns), co)
  {
    var missing := MissingFields(REQUIRED_COLUMNS, Headings(columns));
    if |missing| > 0 then
      assert missing[0] in missing;
      Err(missing)
    else
      assert forall k :: 0 <= k < |REQUIRED_COLUMNS| ==> REQUIRED_COLUMNS[k].1 !in missing;
      Ok(ImportAll(t, rows, "Listas_cruzadas" in Headings(columns), co))
  }

  lemma ApplyStep(t: CourseTable, vs: seq<Verdict>, k: nat)
    requires Valid(t) && k < |vs|
    ensures Apply(t, vs[..k + 1]) == ImportRow(Apply(t, vs[..k]).0, Apply(t, vs[..k]).1, vs[k], k + 2)
  {
    assert vs[..k + 1][..k] == vs[..k];
  }

  /** The import loop over the rows, as the admin view runs it. */
  method ImportRows(t: CourseTable, rows: seq<Row>, hasCrossList: bool, co: Coercions)
    returns (t': CourseTable, imported: nat, updated: nat, errors: seq<(nat, RowError)>)
    requires Valid(t)
    ensures (t', Report(imported, updated, errors)) == ImportAll(t, rows, hasCrossList, co)
    ensures Valid(t') && imported + updated + |errors| == |rows|
  {
    ghost var vs := Verdicts(rows, hasCrossList, co);
    t', imported, updated, errors := t, 0, 0, [];
    for k := 0 to |rows|
      invariant (t', Report(imported, updated, errors)) == Apply(t, vs[..k])
    {
      ApplyStep(t, vs, k);
      var step := ImportRow(t', Report(imported, updated, errors), NormaliseRow(rows[k], hasCrossList, co), k + 2);
      t', imported, updated, errors := step.0, step.1.imported, step.1.updated, step.1.errors;
    }
    assert vs[..|rows|] == vs;
  }
}

=== FILE: periods.dfy ===
/**
  Academic terms. A period code is a four-digit year followed by a two-digit
  term code: 25 is spring ("Primavera"), 30 is the inter-term ("Interperiodo")
  and 35 is autumn ("Otoño"). This module models the human-readable label of a
  period code (`formatear_periodo`) and the admin's generator of every period
  code between two bounds (`generate_period_range`).
*/
module Periods {
  import opened Results
  import opened Sequences
  import opened Text

  const SPRING: nat := 25
  const INTERTERM: nat := 30
  const AUTUMN: nat := 35

  // ---------------------------------------------------------------------------
  // Term labels
  // ---------------------------------------------------------------------------

  const SPRING_WORD := "Primavera"
  const AUTUMN_WORD := "Otoño"
  const INTERTERM_WORD := "Interperiodo"

  /** The label already carries one of the three season words. */
  predicate HasSeasonWord(s: string) {
    IsInfix(SPRING_WORD, s) || IsInfix(AUTUMN_WORD, s) || IsInfix(INTERTERM_WORD, s)
  }

  /** Python's `s[:n]`: at most the first `n` characters. */
  function Head(s: string, n: nat): (r: string)
    ensures |r| <= n && r <= s
  {
    if |s| <= n then s else s[..n]
  }

  /** Python's `s[-n:]`: at most the last `n` characters. */
  function Tail(s: string, n: nat): (r: string)
    ensures |r| <= n && |r| <= |s| && r == s[|s| - |r|..]
  {
    if |s| <= n then s else s[|s| - n..]
  }

  /** The season word a two-character term code stands for, if any. */
  function SeasonWord(code: string): (w: Option<string>)
    ensures w.Some? <==> code in {"25", "35", "30"}
    ensures w.Some? ==> w.value in {SPRING_WORD, AUTUMN_WORD, INTERTERM_WORD}
  {
    if code == "25" then Some(SPRING_WORD)
    else if code == "35" then Some(AUTUMN_WORD)
    else if code == "30" then Some(INTERTERM_WORD)
    else None
  }

  /**
    The readable label of a period code: a season word and the first four
    characters when the code ends in a known term code, the input itself when it
    already names a season or ends in anything else.
  */
  function FormatPeriod(s: string): (r: string)
    ensures r == s || HasSeasonWord(r)
    ensures |s| > 0 ==> |r| > 0
  {
    if HasSeasonWord(s) then s
    else
      match SeasonWord(Tail(s, 2))
      case Some(word) => Label(word, Head(s, 4))
      case None => s
  }

  /** `f"{word} {year}"`, which contains the word. */
  function Label(word: string, year: string): (r: string)
    ensures IsInfix(word, r)
  {
    PrefixIsInfix(word, " " + year);
    word + (" " + year)
  }

  /** A label that already names a season is left alone. */
  lemma SeasonLabelsUnchanged(s: string)
    requires HasSeasonWord(s)
    ensures FormatPeriod(s) == s
  {
  }

  /**
    A period code is relabelled exactly when it names no season and ends in one
    of the three term codes; the new label is that term's season word followed
    by the first four characters.
  */
  lemma FormatPeriodChanges(s: string)
    ensures FormatPeriod(s) != s <==> !HasSeasonWord(s) && SeasonWord(Tail(s, 2)).Some?
    ensures FormatPeriod(s) != s ==> FormatPeriod(s) == Label(SeasonWord(Tail(s, 2)).value, Head(s, 4))
  {
    if !HasSeasonWord(s) && SeasonWord(Tail(s, 2)).Some? {
      assert HasSeasonWord(FormatPeriod(s));
    }
  }

  /** Formatting a label a second time changes nothing. */
  lemma FormatPeriodIdempotent(s: string)
    ensures FormatPeriod(FormatPeriod(s)) == FormatPeriod(s)
  {
    var r := FormatPeriod(s);
    if r != s {
      SeasonLabelsUnchanged(r);
    }
  }

  // ---------------------------------------------------------------------------
  // Terms and their succession
  // ---------------------------------------------------------------------------

  datatype Term = Term(year: nat, code: nat)

  /** The term after `t`; an unknown term code has no successor. */
  function Next(t: Term): (n: Option<Term>)
    ensures n.Some? <==> t.code in {SPRING, INTERTERM, AUTUMN}
    ensures n.Some? ==> n.value.code in {SPRING, INTERTERM, AUTUMN}
  {
    if t.code == SPRING then Some(Term(t.year, INTERTERM))
    else if t.code == INTERTERM then Some(Term(t.year, AUTUMN))
    else if t.code == AUTUMN then Some(Term(t.year + 1, SPRING))
    else None
  }

  /** Chronological order: by year, then by term code. */
  predicate Le(a: Term, b: Term) {
    a.year < b.year || (a.year == b.year && a.code <= b.code)
  }

  predicate Lt(a: Term, b: Term) {
    Le(a, b) && a != b
  }

  /** Every successor is strictly later. */
  lemma NextIsLater(t: Term)
    requires Next(t).Some?
    ensures Lt(t, Next(t).value)
  {
  }

  /** `f"{year:04d}{code:02d}"`. */
  function FormatTerm(t: Term): string {
    ZeroPad(NatToString(t.year), 4) + ZeroPad(NatToString(t.code), 2)
  }

  /** `int(s[:4])` and `int(s[4:])`; `None` stands for the `ValueError` either raises. */
  function ParseTerm(s: string): (r: Option<Term>)
    ensures r.Some? ==> |s| > 4
  {
    match (ParseNat(Head(s, 4)), ParseNat(s[|Head(s, 4)|..]))
    case (Some(y), Some(c)) => Some(Term(y, c))
    case _ => None
  }

  function Pow10(k: nat): (p: nat)
    ensures p >= 1
  {
    if k == 0 then 1 else 10 * Pow10(k - 1)
  }

  lemma {:induction false} DigitsValueBound(s: string)
    requires AllDigits(s)
    ensures DigitsValue(s) < Pow10(|s|)
  {
    if |s| > 0 {
      DigitsValueBound(s[..|s| - 1]);
    }
  }

  lemma {:induction false} NatToStringLength(n: nat, k: nat)
    requires k >= 1 && n < Pow10(k)
    ensures |NatToString(n)| <= k
  {
    if n >= 10 {
      NatToStringLength(n / 10, k - 1);
    }
  }

  /** A year of at most four digits survives formatting and parsing unchanged. */
  lemma ParseFormatTerm(t: Term)
    requires t.year < 10000
    ensures ParseTerm(FormatTerm(t)) == Some(t)
  {
    var y := ZeroPad(NatToString(t.year), 4);
    var c := ZeroPad(NatToString(t.code), 2);
    NatToStringLength(t.year, 4);
    assert |y| == 4;
    assert Head(y + c, 4) == y;
    assert (y + c)[4..] == c;
    ParsePaddedNat(t.year, 4);
    ParsePaddedNat(t.code, 2);
  }

  /** Two four-digit-year terms with the same code string are the same term. */
  lemma FormatTermInjective(a: Term, b: Term)
    requires a.year < 10000 && b.year < 10000
    requires FormatTerm(a) == FormatTerm(b)
    ensures a == b
  {
    ParseFormatTerm(a);
    ParseFormatTerm(b);
  }

  /** A parsed year has at most four digits. */
  lemma ParsedYearBound(s: string)
    requires ParseTerm(s).Some?
    ensures ParseTerm(s).value.year < 10000
  {
    DigitsValueBound(Head(s, 4));
    assert Pow10(|Head(s, 4)|) <= Pow10(4) by {
      PowMonotone(|Head(s, 4)|, 4);
    }
  }

  lemma {:induction false} PowMonotone(j: nat, k: nat)
    requires j <= k
    ensures Pow10(j) <= Pow10(k)
  {
    if j < k {
      PowMonotone(j, k - 1);
    }
  }

  // ---------------------------------------------------------------------------
  // generate_period_range
  // ---------------------------------------------------------------------------

  /** The loop stops once the list holds more than this many periods. */
  const PERIOD_LIMIT: nat := 50

  /**
    The terms the generator visits from `t`, with room for `room` more: `t` if it
    is not after `end`, then its successors, stopping after an unknown code or
    when the room runs out.
  */
  function Succession(t: Term, end: Term, room: nat): (ts: seq<Term>)
    ensures |ts| <= room
    decreases room
  {
    if room == 0 || !Le(t, end) then []
    else
      match Next(t)
      case None => [t]
      case Some(n) => [t] + Succession(n, end, room - 1)
  }

  /** Both bounds parsed, or `None` when any of the four `int()` calls fails. */
  function ParseBounds(start: string, end: string): (r: Option<(Term, Term)>)
    ensures r.Some? <==> ParseTerm(start).Some? && ParseTerm(end).Some?
  {
    match (ParseTerm(start), ParseTerm(end))
    case (Some(s), Some(e)) => Some((s, e))
    case _ => None
  }

  /** The code of every term, in order. */
  function Formats(ts: seq<Term>): seq<string> {
    if |ts| == 0 then [] else [FormatTerm(ts[0])] + Formats(ts[1..])
  }

  lemma {:induction false} FormatsAt(ts: seq<Term>)
    ensures |Formats(ts)| == |ts|
    ensures forall i :: 0 <= i < |ts| ==> Formats(ts)[i] == FormatTerm(ts[i])
  {
    if |ts| > 0 {
      FormatsAt(ts[1..]);
    }
  }

  /** The terms `generate_period_range(start, end)` lists. */
  function RangeTerms(start: string, end: string): seq<Term> {
    match ParseBounds(start, end)
    case None => []
    case Some((s, e)) => Succession(s, e, PERIOD_LIMIT + 1)
  }

  /** The period codes `generate_period_range(start, end)` returns. */
  function PeriodRange(start: string, end: string): seq<string> {
    Formats(RangeTerms(start, end))
  }

  /** Listing from a term not after the end starts with that term's code. */
  lemma FormatsStep(t: Term, end: Term, room: nat)
    requires room > 0 && Le(t, end)
    ensures Next(t).None? ==> Formats(Succession(t, end, room)) == [FormatTerm(t)]
    ensures Next(t).Some? ==>
              Formats(Succession(t, end, room)) == [FormatTerm(t)] + Formats(Succession(Next(t).value, end, room - 1))
  {
    if Next(t).Some? {
      var rest := Succession(Next(t).value, end, room - 1);
      assert Succession(t, end, room) == [t] + rest;
      assert ([t] + rest)[1..] == rest;
    }
  }

  /** The generator's loop, step by step. */
  method GeneratePeriodRange(start: string, end: string) returns (periods: seq<string>)
    ensures periods == PeriodRange(start, end)
  {
    periods := [];
    var bounds := ParseBounds(start, end);
    if bounds.None? {
      return;
    }
    var (s, e) := bounds.value;
    var year: nat, code: nat := s.year, s.code;
    ghost var room: nat := PERIOD_LIMIT + 1;
    ghost var all := Formats(Succession(s, e, room));
    assert PeriodRange(start, end) == all;
    while year < e.year || (year == e.year && code <= e.code)
      invariant |periods| <= PERIOD_LIMIT && room == PERIOD_LIMIT + 1 - |periods|
      invariant periods + Formats(Succession(Term(year, code), e, room)) == all
      decreases room
    {
      var cur := Term(year, code);
      FormatsStep(cur, e, room);
      periods := periods + [FormatTerm(cur)];
      var next := Next(cur);
      if next.None? {
        break;
      }
      year, code := next.value.year, next.value.code;
      StepJoin(periods[..|periods| - 1], FormatTerm(cur), Formats(Succession(Term(year, code), e, room - 1)));
      room := room - 1;
      if |periods| > PERIOD_LIMIT {
        break;
      }
    }
  }

  lemma StepJoin(before: seq<string>, x: string, later: seq<string>)
    ensures before + ([x] + later) == (before + [x]) + later
  {
  }

  // ---------------------------------------------------------------------------
  // Properties of the succession
  // ---------------------------------------------------------------------------

  /** The list starts at the start term, and is empty exactly when the start is past the end. */
  lemma SuccessionStart(t: Term, end: Term, room: nat)
    ensures |Succession(t, end, room)| > 0 <==> room > 0 && Le(t, end)
    ensures |Succession(t, end, room)| > 0 ==> Succession(t, end, room)[0] == t
  {
  }

  /** Every listed term is at or before the end. */
  lemma {:induction false} SuccessionBounded(t: Term, end: Term, room: nat)
    ensures forall i :: 0 <= i < |Succession(t, end, room)| ==> Le(Succession(t, end, room)[i], end)
    decreases room
  {
    if room > 0 && Le(t, end) && Next(t).Some? {
      SuccessionBounded(Next(t).value, end, room - 1);
    }
  }

  /** Each listed term is followed by its successor. */
  lemma {:induction false} SuccessionSteps(t: Term, end: Term, room: nat)
    ensures forall i :: 0 <= i < |Succession(t, end, room)| - 1 ==>
              Next(Succession(t, end, room)[i]) == Some(Succession(t, end, room)[i + 1])
    decreases room
  {
    if room > 0 && Le(t, end) && Next(t).Some? {
      var n := Next(t).value;
      SuccessionSteps(n, end, room - 1);
      SuccessionStart(n, end, room - 1);
    }
  }

  /** The list is strictly increasing in time, so no period is listed twice. */
  lemma {:induction false} SuccessionIncreasing(t: Term, end: Term, room: nat)
    ensures forall i, j :: 0 <= i < j < |Succession(t, end, room)| ==>
              Lt(Succession(t, end, room)[i], Succession(t, end, room)[j])
    decreases room
  {
    var ts := Succession(t, end, room);
    if room > 0 && Le(t, end) && Next(t).Some? {
      var n := Next(t).value;
      var rest := Succession(n, end, room - 1);
      SuccessionIncreasing(n, end, room - 1);
      NextIsLater(t);
      SuccessionAfter(n, end, room - 1, t);
      assert ts == [t] + rest;
      forall i, j | 0 <= i < j < |ts|
        ensures Lt(ts[i], ts[j])
      {
        assert ts[j] == rest[j - 1];
        if i == 0 {
          assert Lt(t, rest[j - 1]);
        } else {
          assert ts[i] == rest[i - 1];
          assert Lt(rest[i - 1], rest[j - 1]);
        }
      }
    }
  }

  lemma {:induction false} SuccessionAfter(t: Term, end: Term, room: nat, before: Term)
    requires Lt(before, t)
    ensures forall i :: 0 <= i < |Succession(t, end, room)| ==> Lt(before, Succession(t, end, room)[i])
    decreases room
  {
    if room > 0 && Le(t, end) && Next(t).Some? {
      SuccessionAfter(Next(t).value, end, room - 1, before);
    }
  }

  /**
    The list ends only for one of the generator's three reasons: the next term
    is past the end, the last code is unknown, or the room is used up.
  */
  lemma {:induction false} SuccessionStops(t: Term, end: Term, room: nat)
    requires |Succession(t, end, room)| > 0
    ensures var ts := Succession(t, end, room);
            var last := ts[|ts| - 1];
            || Next(last).None?
            || !Le(Next(last).value, end)
            || |ts| == room
    decreases room
  {
    var ts := Succession(t, end, room);
    if Next(t).Some? && room > 1 && Le(Next(t).value, end) {
      var n := Next(t).value;
      SuccessionStart(n, end, room - 1);
      SuccessionStops(n, end, room - 1);
      var rest := Succession(n, end, room - 1);
      assert ts == [t] + rest;
      assert ts[|ts| - 1] == rest[|rest| - 1];
    }
  }

  // ---------------------------------------------------------------------------
  // Properties of generate_period_range
  // ---------------------------------------------------------------------------

  /** The generator never returns more than 51 periods. */
  lemma PeriodRangeCapped(start: string, end: string)
    ensures |PeriodRange(start, end)| <= PERIOD_LIMIT + 1
  {
    FormatsAt(RangeTerms(start, end));
  }

  /** Bounds that are not digit strings split at four characters give no periods. */
  lemma UnparsableBoundsGiveNothing(start: string, end: string)
    requires ParseTerm(start).None? || ParseTerm(end).None?
    ensures PeriodRange(start, end) == []
  {
  }

  /** A start after the end gives no periods. */
  lemma StartAfterEndGivesNothing(start: string, end: string)
    requires ParseTerm(start).Some? && ParseTerm(end).Some?
    requires Lt(ParseTerm(end).value, ParseTerm(start).value)
    ensures PeriodRange(start, end) == []
  {
  }

  /** A start with an unknown term code gives at most that one period. */
  lemma UnknownCodeGivesAtMostOne(start: string, end: string)
    requires ParseTerm(start).Some?
    requires ParseTerm(start).value.code !in {SPRING, INTERTERM, AUTUMN}
    ensures |PeriodRange(start, end)| <= 1
  {
    FormatsAt(RangeTerms(start, end));
  }

  /** Every listed code parses back to the term it was formatted from, and that term is not after the end. */
  lemma RangeParsesBack(start: string, end: string)
    requires ParseBounds(start, end).Some?
    ensures var r, ts := PeriodRange(start, end), RangeTerms(start, end);
            && |r| == |ts|
            && forall i :: 0 <= i < |r| ==> ParseTerm(r[i]) == Some(ts[i]) && Le(ts[i], ParseTerm(end).value)
  {
    var r, ts := PeriodRange(start, end), RangeTerms(start, end);
    var (s, e) := ParseBounds(start, end).value;
    FormatsAt(ts);
    ParsedYearBound(end);
    SuccessionBounded(s, e, PERIOD_LIMIT + 1);
    forall i | 0 <= i < |r|
      ensures ParseTerm(r[i]) == Some(ts[i])
    {
      ParseFormatTerm(ts[i]);
    }
  }

  /**
    Every listed code is a well-formed period code not after the end, and each
    one after the first is the successor of its predecessor.
  */
  lemma PeriodRangeSuccession(start: string, end: string)
    ensures var r := PeriodRange(start, end);
            forall i :: 0 <= i < |r| ==>
              && ParseTerm(r[i]).Some?
              && Le(ParseTerm(r[i]).value, ParseTerm(end).value)
    ensures var r := PeriodRange(start, end);
            forall i :: 0 <= i < |r| - 1 ==> Next(ParseTerm(r[i]).value) == Some(ParseTerm(r[i + 1]).value)
  {
    var r, ts := PeriodRange(start, end), RangeTerms(start, end);
    if ParseBounds(start, end).Some? {
      var (s, e) := ParseBounds(start, end).value;
      RangeParsesBack(start, end);
      SuccessionSteps(s, e, PERIOD_LIMIT + 1);
      assert ts == Succession(s, e, PERIOD_LIMIT + 1);
      ParsedSteps(r, ts);
    } else {
      FormatsAt(ts);
    }
  }

  lemma ParsedSteps(r: seq<string>, ts: seq<Term>)
    requires |r| == |ts|
    requires forall i :: 0 <= i < |r| ==> ParseTerm(r[i]) == Some(ts[i])
    requires forall i :: 0 <= i < |ts| - 1 ==> Next(ts[i]) == Some(ts[i + 1])
    ensures forall i :: 0 <= i < |r| - 1 ==> Next(ParseTerm(r[i]).value) == Some(ParseTerm(r[i + 1]).value)
  {
    forall i | 0 <= i < |r| - 1
      ensures Next(ParseTerm(r[i]).value) == Some(ParseTerm(r[i + 1]).value)
    {
      assert ParseTerm(r[i]).value == ts[i] && ParseTerm(r[i + 1]).value == ts[i + 1];
    }
  }

  /** The first period is the start itself when the start is not after the end. */
  lemma PeriodRangeStartsAtStart(start: string, end: string)
    requires ParseTerm(start).Some? && ParseTerm(end).Some?
    requires Le(ParseTerm(start).value, ParseTerm(end).value)
    ensures |PeriodRange(start, end)| > 0
    ensures ParseTerm(PeriodRange(start, end)[0]) == ParseTerm(start)
  {
    var s := ParseTerm(start).value;
    SuccessionStart(s, ParseTerm(end).value, PERIOD_LIMIT + 1);
    RangeParsesBack(start, end);
  }

  /** No period code is listed twice. */
  lemma PeriodRangeNoDup(start: string, end: string)
    ensures NoDup(PeriodRange(start, end))
  {
    var r := PeriodRange(start, end);
    var ts := RangeTerms(start, end);
    if ParseBounds(start, end).Some? {
      var (s, e) := ParseBounds(start, end).value;
      RangeParsesBack(start, end);
      SuccessionIncreasing(s, e, PERIOD_LIMIT + 1);
      forall i, j | 0 <= i < j < |r|
        ensures r[i] != r[j]
      {
        assert ParseTerm(r[i]) == Some(ts[i]) && ParseTerm(r[j]) == Some(ts[j]);
      }
    }
  }

  // ---------------------------------------------------------------------------
  // Generated codes and their labels
  // ---------------------------------------------------------------------------

  /** A word that starts with a non-digit never occurs in a string of digits. */
  lemma DigitsHaveNoWord(w: string, s: string)
    requires |w| > 0 && !IsDigit(w[0]) && AllDigits(s)
    ensures !IsInfix(w, s)
  {

  }

  /** Generated codes are all digits; a four-digit year and a known term code make six of them. */
  lemma FormatTermShape(t: Term)
    ensures AllDigits(FormatTerm(t))
    ensures t.year < 10000 && t.code < 100 ==> |FormatTerm(t)| == 6
  {
    var y, c := NatToString(t.year), NatToString(t.code);
    assert AllDigits(ZeroPad(y, 4)) by {
      if |y| < 4 {
        assert ZeroPad(y, 4) == Zeros(4 - |y|) + y;
      }
    }
    assert AllDigits(ZeroPad(c, 2)) by {
      if |c| < 2 {
        assert ZeroPad(c, 2) == Zeros(2 - |c|) + c;
      }
    }
    if t.year < 10000 && t.code < 100 {
      NatToStringLength(t.year, 4);
      NatToStringLength(t.code, 2);
    }
  }

  /** The season word of a known numeric term code. */
  function TermWord(code: nat): string
    requires code in {SPRING, INTERTERM, AUTUMN}
  {
    if code == SPRING then SPRING_WORD else if code == INTERTERM then INTERTERM_WORD else AUTUMN_WORD
  }

  /** A known term code prints as two digits that name its season. */
  lemma KnownCodeText(code: nat)
    requires code in {SPRING, INTERTERM, AUTUMN}
    ensures ZeroPad(NatToString(code), 2) == NatToString(code)
    ensures SeasonWord(NatToString(code)) == Some(TermWord(code))
  {
    if code == SPRING {
      assert NatToString(code) == "25";
    } else if code == INTERTERM {
      assert NatToString(code) == "30";
    } else {
      assert NatToString(code) == "35";
    }
  }

  /** A generated code of a known term splits into the padded year and the term code. */
  lemma FormatTermParts(t: Term)
    requires t.year < 10000 && t.code in {SPRING, INTERTERM, AUTUMN}
    ensures Head(FormatTerm(t), 4) == ZeroPad(NatToString(t.year), 4)
    ensures Tail(FormatTerm(t), 2) == NatToString(t.code)
  {
    var y := ZeroPad(NatToString(t.year), 4);
    var c := NatToString(t.code);
    KnownCodeText(t.code);
    NatToStringLength(t.year, 4);
    assert FormatTerm(t) == y + c;
    assert |y| == 4 && |c| == 2;
    assert (y + c)[..4] == y;
    assert (y + c)[4..] == c;
  }

  /**
    The label of a generated code with a known term code is the season word
    followed by the four-digit year.
  */
  lemma LabelOfTerm(t: Term)
    requires t.year < 10000 && t.code in {SPRING, INTERTERM, AUTUMN}
    ensures FormatPeriod(FormatTerm(t)) == Label(TermWord(t.code), ZeroPad(NatToString(t.year), 4))
  {
    var s := FormatTerm(t);
    FormatTermShape(t);
    DigitsHaveNoWord(SPRING_WORD, s);
    DigitsHaveNoWord(AUTUMN_WORD, s);
    DigitsHaveNoWord(INTERTERM_WORD, s);
    FormatTermParts(t);
    KnownCodeText(t.code);
    FormatPeriodChanges(s);
  }
}

=== FILE: results.dfy ===
/** Optional values and success/failure results shared by every module. */
module Results {

  /** A value that may be absent (Python's `None`). */
  datatype Option<+T> = None | Some(value: T) {
    function GetOr(default: T): T {
      match this
      case Some(v) => v
      case None => default
    }
  }

  /** The outcome of an operation that can fail with an error of type `E`. */
  datatype Result<+T, +E> = Ok(value: T) | Err(error: E)
}

=== FILE: sequences.dfy ===
/** Generic facts about sequences used by the grouping and store models. */
module Sequences {
  import opened Results

  /** No element occurs twice. */
  predicate NoDup<T(==)>(xs: seq<T>) {
    forall i, j :: 0 <= i < j < |xs| ==> xs[i] != xs[j]
  }

  function Elems<T>(xs: seq<T>): set<T> {
    set x | x in xs
  }

  /** A duplicate-free sequence has as many elements as its set of elements. */
  lemma {:induction false} NoDupCard<T>(xs: seq<T>)
    requires NoDup(xs)
    ensures |Elems(xs)| == |xs|
  {
    if |xs| > 0 {
      var init := xs[..|xs| - 1];
      assert NoDup(init);
      NoDupCard(init);
      assert Elems(xs) == Elems(init) + {xs[|xs| - 1]};
      assert xs[|xs| - 1] !in Elems(init);
    }
  }

  /** A duplicate-free listing of a one-element set is that element alone. */
  lemma SingletonListing<T>(xs: seq<T>, x: T)
    requires NoDup(xs) && Elems(xs) == {x}
    ensures xs == [x]
  {
    NoDupCard(xs);
    assert xs[0] in Elems(xs);
  }

  /** The position of the last element satisfying `p`, or `None` when no element does. */
  function LastWhere<T>(xs: seq<T>, p: T -> bool): (r: Option<nat>)
    ensures r.Some? ==> r.value < |xs| && p(xs[r.value])
    ensures r.None? ==> forall i :: 0 <= i < |xs| ==> !p(xs[i])
  {
    if |xs| == 0 then None
    else if p(xs[|xs| - 1]) then Some(|xs| - 1)
    else LastWhere(xs[..|xs| - 1], p)
  }
}

=== FILE: templates.dfy ===
/**
  The certificate-template table as a sequential store: saving a template (which
  keeps a single default and fills in the table fields), the admin action that
  makes one template the default, the field selection a template reports, and
  how the generator picks a template when none or one is requested.
*/
module Templates {
  import opened Results
  import opened Sequences
  import opened Fields

  /** The columns of a template that the pipeline reads; layout and text columns are left out. */
  datatype Template = Template(
    id: nat,
    name: string,
    isDefault: bool,
    isActive: bool,
    tableFields: seq<string>,
    certificateFields: seq<string>,
    createdAt: int)

  /** The table in storage order, and the next primary key the database hands out. */
  datatype TemplateStore = TemplateStore(rows: seq<Template>, nextId: nat)

  predicate DistinctIds(rows: seq<Template>) {
    forall i, j :: 0 <= i < j < |rows| ==> rows[i].id != rows[j].id
  }

  /** No two rows are flagged as the default. */
  predicate AtMostOneDefault(rows: seq<Template>) {
    forall i, j :: 0 <= i < |rows| && 0 <= j < |rows| && rows[i].isDefault && rows[j].isDefault ==> i == j
  }

  predicate ValidStore(s: TemplateStore) {
    && DistinctIds(s.rows)
    && AtMostOneDefault(s.rows)
    && (forall i :: 0 <= i < |s.rows| ==> s.rows[i].id < s.nextId)
  }

  function Ids(rows: seq<Template>): set<nat> {
    set i | 0 <= i < |rows| :: rows[i].id
  }

  /** The position of the row with primary key `id`. */
  function Find(rows: seq<Template>, id: nat): (r: Option<nat>)
    ensures r.Some? ==> r.value < |rows| && rows[r.value].id == id
    ensures r.None? ==> forall i :: 0 <= i < |rows| ==> rows[i].id != id
  {
    LastWhere(rows, (t: Template) => t.id == id)
  }

  /** With distinct keys, the row holding a key is the one found. */
  lemma FindUnique(rows: seq<Template>, id: nat, i: nat)
    requires DistinctIds(rows)
    requires i < |rows| && rows[i].id == id
    ensures Find(rows, id) == Some(i)
  {
  }

  // ---------------------------------------------------------------------------
  // CertificateTemplate.save
  // ---------------------------------------------------------------------------

  /** The row as stored after saving: empty table fields become the seven course columns. */
  function WithTableDefaults(t: Template): (r: Template)
    ensures |r.tableFields| > 0
    ensures r == t.(tableFields := r.tableFields)
    ensures |t.tableFields| > 0 ==> r.tableFields == t.tableFields
  {
    if |t.tableFields| == 0 then t.(tableFields := DEFAULT_TABLE_FIELDS) else t
  }

  /** The bulk update that clears every default flag. */
  function ClearDefaults(rows: seq<Template>): (r: seq<Template>)
    ensures |r| == |rows|
    ensures forall i :: 0 <= i < |r| ==> r[i] == rows[i].(isDefault := false)
  {
    seq(|rows|, i requires 0 <= i < |rows| => rows[i].(isDefault := false))
  }

  /** Overwrite the row with `t`'s key, or append `t` when there is none. */
  function Put(rows: seq<Template>, t: Template): (r: seq<Template>)
    requires DistinctIds(rows)
    ensures DistinctIds(r)
    ensures Ids(r) == Ids(rows) + {t.id}
    ensures |r| == |rows| + (if Find(rows, t.id).Some? then 0 else 1)
    ensures forall i :: 0 <= i < |rows| && rows[i].id != t.id ==> r[i] == rows[i]
    ensures forall i :: 0 <= i < |r| && r[i].id != t.id ==> i < |rows|
    ensures forall i :: 0 <= i < |r| && r[i].id == t.id ==> r[i] == t
    ensures Find(r, t.id).Some?
  {
    match Find(rows, t.id)
    case Some(k) =>
      var r := rows[k := t];
      assert Ids(r) == Ids(rows) by {
        assert forall j :: 0 <= j < |r| ==> r[j].id == rows[j].id;
      }
      FindUnique(r, t.id, k);
      r
    case None =>
      var r := rows + [t];
      assert Ids(r) == Ids(rows) + {t.id} by {
        assert forall j :: 0 <= j < |rows| ==> r[j].id == rows[j].id;
        assert r[|rows|].id == t.id;
      }
      FindUnique(r, t.id, |rows|);
      r
  }

  lemma ClearDefaultsKeepsIds(rows: seq<Template>)
    ensures Ids(ClearDefaults(rows)) == Ids(rows)
    ensures DistinctIds(rows) ==> DistinctIds(ClearDefaults(rows))
    ensures AtMostOneDefault(ClearDefaults(rows))
  {
    assert forall j :: 0 <= j < |rows| ==> ClearDefaults(rows)[j].id == rows[j].id;
  }

  /** Putting a row keeps a single default as long as a default `t` meets no other default. */
  lemma PutKeepsSingleDefault(rows: seq<Template>, t: Template)
    requires DistinctIds(rows) && AtMostOneDefault(rows)
    requires t.isDefault ==> forall i :: 0 <= i < |rows| && rows[i].id != t.id ==> !rows[i].isDefault
    ensures AtMostOneDefault(Put(rows, t))
  {
    var r := Put(rows, t);
    forall i, j | 0 <= i < |r| && 0 <= j < |r| && r[i].isDefault && r[j].isDefault
      ensures i == j
    {
      if r[i].id != t.id && r[j].id != t.id {
        assert r[i] == rows[i] && r[j] == rows[j];
      } else if r[i].id == t.id && r[j].id == t.id {
        assert r[i].id == r[j].id;
      }
    }
  }

  /** Putting a row whose key lies below `n` keeps every key below `n`. */
  lemma PutBelow(rows: seq<Template>, t: Template, n: nat)
    requires DistinctIds(rows)
    requires forall i :: 0 <= i < |rows| ==> rows[i].id < n
    requires t.id < n
    ensures forall i :: 0 <= i < |Put(rows, t)| ==> Put(rows, t)[i].id < n
  {
    var r := Put(rows, t);
    forall i | 0 <= i < |r|
      ensures r[i].id < n
    {
      if r[i].id != t.id {
        assert i < |rows|;
      }
    }
  }

  /**
    Saving `t`: when it is flagged default, every other flag is cleared first; the
    row with `t`'s key is then overwritten, or `t` is inserted when there is none;
    finally empty table fields are filled in.
  */
  function Save(s: TemplateStore, t: Template): (r: TemplateStore)
    requires ValidStore(s)
    ensures ValidStore(r)
    ensures Ids(r.rows) == Ids(s.rows) + {t.id}
  {
    ClearDefaultsKeepsIds(s.rows);
    var base := if t.isDefault then ClearDefaults(s.rows) else s.rows;
    var rows := Put(base, WithTableDefaults(t));
    PutKeepsSingleDefault(base, WithTableDefaults(t));
    var n := if t.id < s.nextId then s.nextId else t.id + 1;
    PutBelow(base, WithTableDefaults(t), n);
    TemplateStore(rows, n)
  }

  /** The saved row is `t` itself, with its table fields filled in. */
  lemma SaveStoresTemplate(s: TemplateStore, t: Template)
    requires ValidStore(s)
    ensures Find(Save(s, t).rows, t.id).Some?
    ensures Save(s, t).rows[Find(Save(s, t).rows, t.id).value] == WithTableDefaults(t)
  {
    ClearDefaultsKeepsIds(s.rows);
  }

  /**
    Every other row keeps its place and its contents except the default flag, and
    keeps even that when `t` is not flagged default.
  */
  lemma SaveKeepsOtherRows(s: TemplateStore, t: Template)
    requires ValidStore(s)
    ensures |s.rows| <= |Save(s, t).rows|
    ensures forall i :: 0 <= i < |s.rows| && s.rows[i].id != t.id ==>
              Save(s, t).rows[i] == s.rows[i].(isDefault := Save(s, t).rows[i].isDefault)
    ensures !t.isDefault ==> forall i :: 0 <= i < |s.rows| && s.rows[i].id != t.id ==> Save(s, t).rows[i] == s.rows[i]
  {
    ClearDefaultsKeepsIds(s.rows);
  }

  /** Saving under a key the table already holds updates in place. */
  lemma SaveExistingKey(s: TemplateStore, t: Template, i: nat)
    requires ValidStore(s) && i < |s.rows| && s.rows[i].id == t.id
    ensures |Save(s, t).rows| == |s.rows|
    ensures Ids(Save(s, t).rows) == Ids(s.rows)
  {
    ClearDefaultsKeepsIds(s.rows);
    var base := if t.isDefault then ClearDefaults(s.rows) else s.rows;
    assert base[i].id == t.id;
    FindUnique(base, t.id, i);
  }

  /** Saving a default template leaves it the only default. */
  lemma SaveDefaultIsSole(s: TemplateStore, t: Template)
    requires ValidStore(s) && t.isDefault
    ensures forall i :: 0 <= i < |Save(s, t).rows| ==>
              (Save(s, t).rows[i].isDefault <==> Save(s, t).rows[i].id == t.id)
  {
    ClearDefaultsKeepsIds(s.rows);
  }

  // ---------------------------------------------------------------------------
  // The make_default admin action
  // ---------------------------------------------------------------------------

  /**
    Make the one selected template the default. Any other selection size is
    refused and changes nothing.
  */
  function MakeDefault(s: TemplateStore, selection: seq<nat>): (r: TemplateStore)
    requires ValidStore(s)
    requires NoDup(selection) && forall id :: id in selection ==> id in Ids(s.rows)
    ensures ValidStore(r)
    ensures |selection| != 1 ==> r == s
  {
    if |selection| != 1 then s
    else
      var id := selection[0];
      assert id in Ids(s.rows);
      ClearDefaultsKeepsIds(s.rows);
      var cleared := TemplateStore(ClearDefaults(s.rows), s.nextId);
      var template := s.rows[Find(s.rows, id).value];
      Save(cleared, template.(isDefault := true))
  }

  /**
    After the action on one template, that template is the only default, and every
    other row keeps its key, its place and its contents except the flag.
  */
  lemma MakeDefaultKeepsRows(s: TemplateStore, id: nat)
    requires ValidStore(s) && id in Ids(s.rows)
    ensures Ids(MakeDefault(s, [id]).rows) == Ids(s.rows)
    ensures |MakeDefault(s, [id]).rows| == |s.rows|
    ensures forall i :: 0 <= i < |s.rows| && s.rows[i].id != id ==>
              MakeDefault(s, [id]).rows[i] == s.rows[i].(isDefault := false)
    ensures forall i :: 0 <= i < |s.rows| ==>
              (MakeDefault(s, [id]).rows[i].isDefault <==> MakeDefault(s, [id]).rows[i].id == id)
  {
    var i :| 0 <= i < |s.rows| && s.rows[i].id == id;
    FindUnique(s.rows, id, i);
    ClearDefaultsKeepsIds(s.rows);
    var cleared := TemplateStore(ClearDefaults(s.rows), s.nextId);
    var chosen := s.rows[i].(isDefault := true);
    assert MakeDefault(s, [id]) == Save(cleared, chosen);
    SaveKeepsOtherRows(cleared, chosen);
    SaveDefaultIsSole(cleared, chosen);
    SaveExistingKey(cleared, chosen, i);
  }

  // ---------------------------------------------------------------------------
  // Field selection and template resolution
  // ---------------------------------------------------------------------------

  /** The template's own field selection, or the default selection when it has none. */
  function SelectedFields(t: Template): (fields: seq<string>)
    ensures |fields| > 0
    ensures |t.certificateFields| > 0 ==> fields == t.certificateFields
    ensures |t.certificateFields| == 0 ==> fields == DEFAULT_CERTIFICATE_FIELDS
  {
    if |t.certificateFields| > 0 then t.certificateFields else DEFAULT_CERTIFICATE_FIELDS
  }

  /** Adopting the reported selection as the template's own changes nothing it reports. */
  lemma SelectedFieldsStable(t: Template)
    ensures SelectedFields(t.(certificateFields := SelectedFields(t))) == SelectedFields(t)
  {
  }

  /** The first of the newest rows: `first()` under newest-first ordering. */
  function Newest(rows: seq<Template>): (r: Option<Template>)
    ensures r.Some? <==> |rows| > 0
    ensures r.Some? ==> r.value in rows && forall t :: t in rows ==> t.createdAt <= r.value.createdAt
  {
    if |rows| == 0 then None
    else
      match Newest(rows[1..])
      case None => Some(rows[0])
      case Some(n) =>
        assert forall t :: t in rows ==> t == rows[0] || t in rows[1..];
        if rows[0].createdAt >= n.createdAt then Some(rows[0]) else Some(n)
  }

  function Defaults(rows: seq<Template>): (r: seq<Template>)
    ensures forall t :: t in r <==> t in rows && t.isDefault
  {
    if |rows| == 0 then []
    else (if rows[0].isDefault then [rows[0]] else []) + Defaults(rows[1..])
  }

  datatype TemplateError = TemplateNotFound | NoTemplates

  /**
    The template a generation request uses: the requested one when a key is given,
    otherwise the newest default, otherwise the newest template of all. The active
    flag plays no part.
  */
  function ResolveTemplate(s: TemplateStore, requested: Option<nat>): (r: Result<Template, TemplateError>)
    ensures r.Ok? ==> r.value in s.rows
    ensures requested.Some? ==> (r.Ok? <==> requested.value in Ids(s.rows))
    ensures requested.Some? && r.Ok? ==> r.value.id == requested.value
    ensures requested.Some? && r.Err? ==> r.error == TemplateNotFound
    ensures requested.None? ==> (r.Err? <==> |s.rows| == 0)
    ensures requested.None? && r.Err? ==> r.error == NoTemplates
    ensures requested.None? && r.Ok? && (exists t :: t in s.rows && t.isDefault) ==> r.value.isDefault
    ensures requested.None? && r.Ok? && r.value.isDefault ==>
              forall t :: t in s.rows && t.isDefault ==> t.createdAt <= r.value.createdAt
    ensures requested.None? && r.Ok? && (forall t :: t in s.rows ==> !t.isDefault) ==>
              forall t :: t in s.rows ==> t.createdAt <= r.value.createdAt
  {
    match requested
    case Some(id) =>
      (match Find(s.rows, id)
       case Some(i) => Ok(s.rows[i])
       case None => Err(TemplateNotFound))
    case None =>
      match Newest(Defaults(s.rows))
      case Some(t) => Ok(t)
      case None =>
        (match Newest(s.rows)
         case Some(t) => Ok(t)
         case None => Err(NoTemplates))
  }

  /** After the default action on one template, a request without a key resolves to it. */
  lemma MadeDefaultIsResolved(s: TemplateStore, id: nat)
    requires ValidStore(s) && id in Ids(s.rows)
    ensures var r := ResolveTemplate(MakeDefault(s, [id]), None);
            r.Ok? && r.value.id == id && r.value.isDefault
  {
    var s' := MakeDefault(s, [id]);
    MakeDefaultKeepsRows(s, id);
    var i :| 0 <= i < |s.rows| && s.rows[i].id == id;
    assert s'.rows[i].isDefault;
    assert s'.rows[i] in s'.rows;
  }
}

=== FILE: text.dfy ===
/**
  String helpers that mirror the Python built-ins the certificate code relies on:
  `str.strip()`, `str.split(sep)`, `sep.join(parts)`, the `in` operator on strings,
  `int()` on digit strings and `str()` / `format(n, '0Nd')` on naturals.
*/
module Text {
  import opened Results

  // ---------------------------------------------------------------------------
  // Whitespace and str.strip()
  // ---------------------------------------------------------------------------

  /** The characters for which Python's `str.isspace()` holds. */
  predicate IsSpace(c: char) {
    || c == ' '
    || ('\t' <= c <= '\r')
    || ('\U{1C}' <= c <= '\U{1F}')
    || c == '\U{85}' || c == '\U{A0}' || c == '\U{1680}'
    || ('\U{2000}' <= c <= '\U{200A}')
    || c == '\U{2028}' || c == '\U{2029}' || c == '\U{202F}'
    || c == '\U{205F}' || c == '\U{3000}'
  }

  function TrimLeft(s: string): (r: string)
    ensures |r| <= |s| && r == s[|s| - |r|..]
    ensures forall k :: 0 <= k < |s| - |r| ==> IsSpace(s[k])
    ensures |r| > 0 ==> !IsSpace(r[0])
  {
    if |s| > 0 && IsSpace(s[0]) then TrimLeft(s[1..]) else s
  }

  function TrimRight(s: string): (r: string)
    ensures |r| <= |s| && r == s[..|r|]
    ensures forall k :: |r| <= k < |s| ==> IsSpace(s[k])
    ensures |r| > 0 ==> !IsSpace(r[|r| - 1])
  {
    if |s| > 0 && IsSpace(s[|s| - 1]) then TrimRight(s[..|s| - 1]) else s
  }

  /** How many whitespace characters `str.strip()` removes from the front. */
  function LeadingSpaces(s: string): nat {
    |s| - |TrimLeft(s)|
  }

  /** Python's `s.strip()`: drop leading and trailing whitespace. */
  function Strip(s: string): (r: string)
    ensures |r| <= |s|
    ensures |r| > 0 ==> !IsSpace(r[0]) && !IsSpace(r[|r| - 1])
  {
    TrimRight(TrimLeft(s))
  }

  /** The stripped string is the middle of `s`, with only whitespace on either side. */
  lemma StripShape(s: string)
    ensures LeadingSpaces(s) + |Strip(s)| <= |s|
    ensures Strip(s) == s[LeadingSpaces(s)..LeadingSpaces(s) + |Strip(s)|]
    ensures forall k :: 0 <= k < LeadingSpaces(s) ==> IsSpace(s[k])
    ensures forall k :: LeadingSpaces(s) + |Strip(s)| <= k < |s| ==> IsSpace(s[k])
  {
  }

  /** Neither end is whitespace: what `str.strip()` returns. */
  predicate IsStripped(s: string) {
    |s| > 0 ==> !IsSpace(s[0]) && !IsSpace(s[|s| - 1])
  }

  /** Stripping a stripped string changes nothing, so stripping is idempotent. */
  lemma StripIdempotent(s: string)
    ensures IsStripped(Strip(s))
    ensures IsStripped(s) ==> Strip(s) == s
    ensures Strip(Strip(s)) == Strip(s)
  {
    var t := Strip(s);
    assert TrimLeft(t) == t;
    assert TrimRight(t) == t;
    if IsStripped(s) {
      assert TrimLeft(s) == s;
      assert TrimRight(s) == s;
    }
  }

  /** A string strips to nothing exactly when every character is whitespace. */
  lemma StripEmptyIffBlank(s: string)
    ensures Strip(s) == "" <==> forall k :: 0 <= k < |s| ==> IsSpace(s[k])
  {
    StripShape(s);
  }

  // ---------------------------------------------------------------------------
  // str.split(sep) and sep.join(parts)
  // ---------------------------------------------------------------------------

  /** Python's `s.split(sep)` for a one-character separator: always at least one part. */
  function Split(s: string, sep: char): (parts: seq<string>)
    ensures |parts| >= 1
    ensures forall i :: 0 <= i < |parts| ==> sep !in parts[i]
  {
    if |s| == 0 then [""]
    else if s[0] == sep then [""] + Split(s[1..], sep)
    else
      var rest := Split(s[1..], sep);
      [[s[0]] + rest[0]] + rest[1..]
  }

  /** Python's `sep.join(parts)`. */
  function Join(parts: seq<string>, sep: char): string
  {
    if |parts| == 0 then ""
    else if |parts| == 1 then parts[0]
    else parts[0] + [sep] + Join(parts[1..], sep)
  }

  /** Joining the parts of a split restores the string. */
  lemma {:induction false} JoinSplit(s: string, sep: char)
    ensures Join(Split(s, sep), sep) == s
  {
    if |s| == 0 {
    } else if s[0] == sep {
      JoinSplit(s[1..], sep);
      assert Join(Split(s, sep), sep) == "" + [sep] + Join(Split(s[1..], sep), sep);
    } else {
      var rest := Split(s[1..], sep);
      JoinSplit(s[1..], sep);
      var parts := [[s[0]] + rest[0]] + rest[1..];
      if |rest| == 1 {
        assert Join(parts, sep) == [s[0]] + rest[0];
      } else {
        assert parts[1..] == rest[1..];
        assert Join(parts, sep) == ([s[0]] + rest[0]) + [sep] + Join(rest[1..], sep);
        assert Join(rest, sep) == rest[0] + [sep] + Join(rest[1..], sep);
      }
    }
  }

  lemma {:induction false} SplitWithoutSeparator(a: string, sep: char)
    requires sep !in a
    ensures Split(a, sep) == [a]
  {
    if |a| > 0 {
      SplitWithoutSeparator(a[1..], sep);
      assert [a[0]] + a[1..] == a;
    }
  }

  lemma {:induction false} SplitAtSeparator(a: string, b: string, sep: char)
    requires sep !in a
    ensures Split(a + [sep] + b, sep) == [a] + Split(b, sep)
  {
    var s := a + [sep] + b;
    if |a| == 0 {
      assert s[1..] == b;
    } else {
      assert s[1..] == a[1..] + [sep] + b;
      SplitAtSeparator(a[1..], b, sep);
      assert [a[0]] + a[1..] == a;
    }
  }

  /** Splitting a join restores the parts, provided no part contains the separator. */
  lemma {:induction false} SplitJoin(parts: seq<string>, sep: char)
    requires |parts| >= 1
    requires forall i :: 0 <= i < |parts| ==> sep !in parts[i]
    ensures Split(Join(parts, sep), sep) == parts
  {
    if |parts| == 1 {
      SplitWithoutSeparator(parts[0], sep);
    } else {
      SplitJoin(parts[1..], sep);
      SplitAtSeparator(parts[0], Join(parts[1..], sep), sep);
      assert [parts[0]] + parts[1..] == parts;
    }
  }

  // ---------------------------------------------------------------------------
  // The `in` operator on strings
  // ---------------------------------------------------------------------------

  /** `w` occurs in `s` starting at position `i`. */
  predicate OccursAt(w: string, s: string, i: nat) {
    i + |w| <= |s| && s[i..i + |w|] == w
  }

  /** Python's `w in s` for strings: `w` occurs as a contiguous infix of `s`. */
  predicate IsInfix(w: string, s: string) {
    exists i: nat | i <= |s| :: OccursAt(w, s, i)
  }

  lemma PrefixIsInfix(w: string, t: string)
    ensures IsInfix(w, w + t)
  {
    assert OccursAt(w, w + t, 0);
  }

  // ---------------------------------------------------------------------------
  // Decimal digits: int() and str() on naturals
  // ---------------------------------------------------------------------------

  predicate IsDigit(c: char) {
    '0' <= c <= '9'
  }

  predicate AllDigits(s: string) {
    forall i :: 0 <= i < |s| ==> IsDigit(s[i])
  }

  function DigitValue(c: char): nat
    requires IsDigit(c)
  {
    c as int - '0' as int
  }

  function DigitChar(d: nat): (c: char)
    requires d < 10
    ensures IsDigit(c) && DigitValue(c) == d
  {
    ('0' as int + d) as char
  }

  /** Python's `str(n)` for a natural number. */
  function NatToString(n: nat): (s: string)
    ensures |s| >= 1 && AllDigits(s)
  {
    if n < 10 then [DigitChar(n)] else NatToString(n / 10) + [DigitChar(n % 10)]
  }

  /** Python's `str(n)` for an integer. */
  function IntToString(n: int): string {
    if n < 0 then "-" + NatToString(-n) else NatToString(n)
  }

  /** The value of a string of decimal digits, most significant first. */
  function DigitsValue(s: string): nat
    requires AllDigits(s)
  {
    if |s| == 0 then 0 else DigitsValue(s[..|s| - 1]) * 10 + DigitValue(s[|s| - 1])
  }

  /**
    Python's `int(s)` restricted to plain ASCII digit strings: `None` stands for the
    `ValueError` the source catches.
  */
  function ParseNat(s: string): (r: Option<nat>)
    ensures r.Some? <==> |s| > 0 && AllDigits(s)
  {
    if |s| > 0 && AllDigits(s) then Some(DigitsValue(s)) else None
  }

  /** Parsing the decimal rendering of a natural gives the natural back. */
  lemma {:induction false} ParseNatToString(n: nat)
    ensures ParseNat(NatToString(n)) == Some(n)
  {
    var s := NatToString(n);
    if n < 10 {
      assert s[..|s| - 1] == [];
    } else {
      ParseNatToString(n / 10);
      assert s[..|s| - 1] == NatToString(n / 10);
      assert DigitsValue(s) == (n / 10) * 10 + n % 10;
    }
  }

  lemma NatToStringInjective(m: nat, n: nat)
    requires NatToString(m) == NatToString(n)
    ensures m == n
  {
    ParseNatToString(m);
    ParseNatToString(n);
  }

  function Zeros(k: nat): (z: string)
    ensures |z| == k && AllDigits(z)
  {
    seq(k, _ => '0')
  }

  /** Python's `format(n, '0{width}d')` on the digits of a natural: left-pad with zeros. */
  function ZeroPad(s: string, width: nat): (r: string)
    ensures |r| == if |s| >= width then |s| else width
    ensures r[|r| - |s|..] == s
    ensures forall i :: 0 <= i < |r| - |s| ==> r[i] == '0'
  {
    if |s| >= width then s else Zeros(width - |s|) + s
  }

  lemma {:induction false} ZerosValue(k: nat)
    ensures DigitsValue(Zeros(k)) == 0
  {
    if k > 0 {
      assert Zeros(k)[..k - 1] == Zeros(k - 1);
      ZerosValue(k - 1);
    }
  }

  /** Leading zeros do not change the value of a digit string. */
  lemma {:induction false} LeadingZerosValue(k: nat, s: string)
    requires AllDigits(s)
    ensures AllDigits(Zeros(k) + s) && DigitsValue(Zeros(k) + s) == DigitsValue(s)
  {
    var z := Zeros(k) + s;
    if |s| == 0 {
      assert z == Zeros(k);
      ZerosValue(k);
    } else {
      assert z[..|z| - 1] == Zeros(k) + s[..|s| - 1];
      LeadingZerosValue(k, s[..|s| - 1]);
    }
  }

  /** Parsing a zero-padded rendering of `n` gives `n` back. */
  lemma ParsePaddedNat(n: nat, width: nat)
    ensures ParseNat(ZeroPad(NatToString(n), width)) == Some(n)
  {
    var s := NatToString(n);
    ParseNatToString(n);
    if |s| < width {
      var z := Zeros(width - |s|);
      assert ZeroPad(s, width) == z + s;
      LeadingZerosValue(width - |s|, s);
      assert DigitsValue(z + s) == n;
    }
  }
}
